=== FILE: README.md ===
# Distribution mapping: a Dafny model

This project models the load-balancing core of BoxLib's `DistributionMapping`
(`Src/C_BaseLib/DistributionMapping.cpp`). A distribution mapping assigns each
box of a `BoxArray` to an MPI rank. Its processor map has one entry per box,
giving the box's rank, and one extra entry at the end, the sentinel, holding
the rank of the caller (`MyProc`). The model has three parts.

**The strategies that build a processor map.**
- Round robin deals the boxes, heaviest first, to the ranks in least-used
  order.
- The knapsack strategy packs the boxes into one bin per rank. It places them
  greedily, then exchanges boxes between bins while the balance is below the
  target efficiency. The heaviest bin goes to the least-used rank.
- The space-filling-curve (SFC) strategy sorts the boxes in Morton order of
  their lower corners. It cuts that order into one contiguous run per rank and
  hands the runs out heaviest first. Below a threshold it falls back to the
  knapsack.

**The helpers the strategies share.**
- A stable sort of (weight, index) pairs, optionally reversed.
- The least-used-rank order built from the byte counts each rank reports.

**The manager around the strategies.**
- The run-time settings and the strategy switch with its builder pointer.
- The cache of processor maps keyed by map length, and `define`, which reuses
  or builds and caches a map.
- The explicit-map constructor, the concatenating constructor, `FlushCache`,
  `Finalize` and `operator==`.
- The pure topology helpers: torus hop distance, the rank / processor-number /
  node lookup tables, and the inversion of the proximity map.

Processor maps, weights, bins and token lists are immutable sequences. The
cache is a `map` from map length to an entry carrying an identity (standing for
the shared `Ref` object) and a link count. Values that come from outside are
parameters:

| parameter | source |
|---|---|
| `load` | the per-rank byte counts from `MPI_Allgather` (`None` for a serial build) |
| `myProc` | the caller's rank |
| `worldSize` | the number of ranks |
| `pfcMap` | the PFC builder's map |
| `pn` and `cells` | the gathered processor numbers and the cells of the topology file |

Modules:

| module | file | content |
|---|---|---|
| `Base` | base.dfy | `Option`, permutations of `0..n-1`, flattening, partitions |
| `Geometry` | geometry.dfy | boxes and their cell counts |
| `Ordering` | ordering.dfy | `Sort`, `LeastUsedCPUs`, heaviest-first box order |
| `RoundRobin` | round_robin.dfy | `RoundRobinDoIt`, `RoundRobinProcessorMap` |
| `Bins` | bins.dfy | `WeightedBox`, `WeightedBoxList` and list operations on bins |
| `Knapsack` | knapsack.dfy | `knapsack`: greedy packing and the exchange search |
| `KnapsackMap` | knapsack_map.dfy | `KnapSackDoIt`, `KnapSackProcessorMap`, the weight narrowing |
| `Morton` | morton.dfy | `SFCToken::Compare` and its characterisation |
| `Curve` | curve.dfy | SFC tokens, `MaxPower`, the sort into curve order |
| `Runs` | distribute.dfy | `Distribute` |
| `Assign` | assign.dfy | giving the groups (bins or runs) to ranks, heaviest to least used |
| `Sfc` | sfc.dfy | `SFCProcessorMapDoIt`, `SFCProcessorMap`, the threshold |
| `Manager` | manager.dfy | settings, `Initialize`, `strategy`, the cache, `define`, constructors, `FlushCache`, `Finalize`, `operator==` |
| `Topology` | topology.dfy | `NHops`, the lookup tables and lookups, proximity order |

## Model

| member | source | states |
|---|---|---|
| Ordering.Sort | Src/C_BaseLib/DistributionMapping.cpp:205-217 | The result is a permutation of the pairs and of their indices. It is ascending by weight, or descending when reversed. Pairs of equal weight keep their input order, or come out in exactly the reverse of it when reversed. |
| Ordering.SortLex | Src/C_BaseLib/DistributionMapping.cpp:205-217 | For pairs listed in increasing index order, the sort orders them by (weight, index), and the reversed sort by descending (weight, index). So tied weights come out in descending index order when reversed. |
| Ordering.StableSortTied | Src/C_BaseLib/DistributionMapping.cpp:210 | The stable sort keeps the pairs of each weight in their input order. |
| Ordering.StableSortAscending | Src/C_BaseLib/DistributionMapping.cpp:210 | The stable sort's result is ascending by weight. |
| Ordering.StableSortIds | Src/C_BaseLib/DistributionMapping.cpp:210 | The stable sort keeps the multiset of indices. |
| Ordering.ReverseTied | Src/C_BaseLib/DistributionMapping.cpp:212-215 | Reversing reverses the order within every weight class. |
| Ordering.ReverseMultiset | Src/C_BaseLib/DistributionMapping.cpp:214 | Reversing keeps the pairs and their indices. |
| Ordering.InsertTied | Src/C_BaseLib/DistributionMapping.cpp:210 | An inserted pair goes in front of the pairs of its own weight and leaves the other weight classes alone, which is what makes the sort stable. |
| Ordering.GatheredBytes | Src/C_BaseLib/DistributionMapping.cpp:227-236 | The byte counts seen by `LeastUsedCPUs`: the gathered counts, padded with zeros up to `nprocs`. When `nprocs` is below the number of ranks there is no result, since the gather writes past the buffer. |
| Ordering.PaddedSlotFirst | Src/C_BaseLib/DistributionMapping.cpp:227-256 | With fewer ranks than `nprocs` and every rank holding bytes, the first padded slot comes first in the least-used order. |
| Ordering.LeastUsedCPUs | Src/C_BaseLib/DistributionMapping.cpp:220-261 | The result is a permutation of `0..nprocs-1`. Without byte counts it is the identity. With them it lists the ranks by ascending (bytes, rank). |
| Ordering.HeaviestFirst | Src/C_BaseLib/DistributionMapping.cpp:518-529 | The result is a permutation of the box indices ordered by descending weight, with ties in descending index order: the reversed stable sort of (weight, index) pairs. |
| Ordering.ArrangementFacts | Src/C_BaseLib/DistributionMapping.cpp:242-253 | Any rearrangement of the (weight, index) pairs has indices forming a permutation, and each pair's weight is the weight at its index. |
| RoundRobin.RoundRobinDoIt | Src/C_BaseLib/DistributionMapping.cpp:459-488 | The box at position `i` of the order gets rank `ord[i % nprocs]`, where `ord` is the least-used order. The order is the given one, or index order when none is given. Every entry is a rank in `[0, nprocs)` and the sentinel is `MyProc`. With no more boxes than ranks, no two boxes share a rank. |
| RoundRobin.Deal | Src/C_BaseLib/DistributionMapping.cpp:472-487 | Writing `ord[k % nprocs]` at position `o[k]` for every `k`, with distinct `o[k]`, sets each dealt box and puts `MyProc` in the sentinel. |
| RoundRobin.DealtOut | Src/C_BaseLib/DistributionMapping.cpp:472-483 | A map dealt from a box permutation and a rank permutation is valid: every entry lies in `[0, nprocs)`. |
| RoundRobin.DealtOutOnce | Src/C_BaseLib/DistributionMapping.cpp:472-483 | With no more boxes than ranks, a dealt map gives distinct boxes distinct ranks. |
| RoundRobin.RoundRobinByIndex | Src/C_BaseLib/DistributionMapping.cpp:491-501 | Boxes are dealt in index order to the least-used ranks; the map is valid and ends with `MyProc`. |
| RoundRobin.RoundRobinByWeight | Src/C_BaseLib/DistributionMapping.cpp:504-532 | Boxes are dealt heaviest first (ties by higher index) to the least-used ranks. With no more boxes than ranks, every box gets its own rank. |
| Bins.WeightRemoveAt | Src/C_BaseLib/DistributionMapping.cpp:560-564 | Erasing a box lowers the list's weight by exactly that box's weight. |
| Bins.WeightAppend | Src/C_BaseLib/DistributionMapping.cpp:565-569 | The weight of a list is additive over concatenation, so `push_back` adds the box's weight. |
| Bins.RemoveAtMultiset | Src/C_BaseLib/DistributionMapping.cpp:560-564 | Erasing a box removes exactly one copy of it. |
| Bins.BinsPermutation | Src/C_BaseLib/DistributionMapping.cpp:623-630 | Rearranging bins keeps the total weight, the multiset of bin weights and the multiset of boxes. |
| Bins.SortBinsSorted | Src/C_BaseLib/DistributionMapping.cpp:630 | Sorting the bins gives a heaviest-first list. |
| Bins.InsertBinSorted | Src/C_BaseLib/DistributionMapping.cpp:630 | Inserting a bin into a heaviest-first list keeps it heaviest first. |
| Bins.Merge | Src/C_BaseLib/DistributionMapping.cpp:701 | Merging keeps exactly the bins of both lists. |
| Bins.MergeSorted | Src/C_BaseLib/DistributionMapping.cpp:701 | Merging two heaviest-first lists gives a heaviest-first list. |
| Bins.TotalFlatten | Src/C_BaseLib/DistributionMapping.cpp:634-642 | The sum of the bin weights is the weight of all their boxes together. |
| Knapsack.Lightest | Src/C_BaseLib/DistributionMapping.cpp:617-618 | The chosen bin weight is no heavier than any other, and every bin before it is strictly heavier. |
| Knapsack.LightestBin | Src/C_BaseLib/DistributionMapping.cpp:617-618 | The chosen bin is a lightest bin. |
| Knapsack.AppendToBin | Src/C_BaseLib/DistributionMapping.cpp:617-620 | Appending a box to a lightest bin adds that box to the packing. The bins then still differ by at most the heaviest item. |
| Knapsack.Greedy | Src/C_BaseLib/DistributionMapping.cpp:607-621 | There are `nprocs` bins; every item lands in exactly one bin; no two bins differ in weight by more than the heaviest item. |
| Knapsack.FindSwap | Src/C_BaseLib/DistributionMapping.cpp:658-708 | The search finds the first improving exchange in the source's scan order, or reports that none exists. An improving exchange leaves both bins strictly lighter than the heaviest bin. |
| Knapsack.ExchangedBins | Src/C_BaseLib/DistributionMapping.cpp:689-696 | After an improving exchange both bins are lighter than the old heaviest bin. Their total weight and their boxes are unchanged. |
| Knapsack.ExchangedFacts | Src/C_BaseLib/DistributionMapping.cpp:689-700 | The two exchanged bins, sorted, are heaviest first. Both are lighter than the heaviest bin, and together they hold the same weight and boxes as before. |
| Knapsack.SwapImproves | Src/C_BaseLib/DistributionMapping.cpp:684-704 | One exchange keeps the bins heaviest first and keeps the total and the boxes. The heaviest weight does not grow, and the number of bins at the old heaviest weight strictly drops. |
| Knapsack.MergeBackContents | Src/C_BaseLib/DistributionMapping.cpp:691-701 | Merging the exchanged pair back into the other bins keeps the number of bins, the total and the boxes. |
| Knapsack.MergeBackOrder | Src/C_BaseLib/DistributionMapping.cpp:697-702 | The merged-back list is heaviest first and no bin in it outweighs the old heaviest. |
| Knapsack.MergeBackCount | Src/C_BaseLib/DistributionMapping.cpp:691-702 | Fewer bins weigh the old maximum after the merge. |
| Knapsack.LocalSearch | Src/C_BaseLib/DistributionMapping.cpp:646-708 | The search terminates: (heaviest-bin slack, number of bins at the maximum) decreases lexicographically. It keeps the bins heaviest first and keeps the total and every box, and the heaviest bin never gets heavier. It stops only when the efficiency exceeds the target or no exchange improves; without the full search it changes nothing. |
| Knapsack.EfficiencyNeverDecreases | Src/C_BaseLib/DistributionMapping.cpp:702-703 | With the total kept and the heaviest bin no heavier, the new efficiency is at least the old one. |
| Knapsack.SpreadBalance | Src/C_BaseLib/DistributionMapping.cpp:607-621 | When no two bins differ by more than `m`, `nprocs` times the first bin is at most the total plus `nprocs * m`: the balance the greedy phase leaves. |
| Knapsack.Pack | Src/C_BaseLib/DistributionMapping.cpp:584-733 | There are `nprocs` heaviest-first bins holding exactly the weighted boxes, so the box indices form a permutation of `0..N-1`. The efficiency is total / (`nprocs` × heaviest) and lies in `[0, 1]`. With the full search the efficiency exceeds the target or no exchange improves; without it the greedy spread bound holds. With or without it the bins are balanced: `nprocs` times the heaviest bin is at most the total weight plus `nprocs` times the heaviest box. The weights are packed as `long`s, the corrected behaviour of the Findings row for line 540, not narrowed to `int` as at line 599. |
| Knapsack.PackedContents | Src/C_BaseLib/DistributionMapping.cpp:714-729 | The bins' box indices, read out bin by bin, are a permutation of `0..N-1`. The total weight is the sum of the weights. |
| Knapsack.ToBoxesPermutation | Src/C_BaseLib/DistributionMapping.cpp:597-602 | Reordering the pairs reorders the weighted boxes made from them. |
| KnapsackMap.KnapSackDoIt | Src/C_BaseLib/DistributionMapping.cpp:736-800 | The bins partition the boxes. The `i`-th heaviest bin goes to the `i`-th least-used rank, and two boxes share a rank exactly when they share a bin. The map is valid, the sentinel is `MyProc`, and the efficiency is that of the packing. The bins are balanced as `Knapsack.Pack` states. The weights are packed as `long`s, the corrected behaviour of the Findings row for line 540, not narrowed to `int` as at line 599. |
| KnapsackMap.OneRankPackingExcluded | Src/C_BaseLib/DistributionMapping.cpp:607-621 | For three boxes of weight 5 on two ranks, every balanced packing keeps its heaviest bin below 15, so no knapsack map puts every box on one rank. |
| KnapsackMap.KnapSackByWeight | Src/C_BaseLib/DistributionMapping.cpp:803-827 | With `N <= nprocs` or `nprocs < 2`, the map is round robin by index and the efficiency is 1. Otherwise there is a packing of exactly the weighted boxes into `nprocs` bins behind the map: the `i`-th heaviest bin goes to the `i`-th least-used rank, two boxes share a rank exactly when they share a bin, the heaviest bin exceeds an even share by at most the heaviest box, and the search stopped at the efficiency target or with no improving swap left. The returned efficiency is that packing's, its numerator is the total weight, and it lies in `[0, 1]`. The weights are packed as `long`s, the corrected behaviour of the Findings row for line 540, not narrowed to `int` as at line 599. |
| KnapsackMap.KnapSackByBoxes | Src/C_BaseLib/DistributionMapping.cpp:830-850 | With `N <= nprocs` or `nprocs < 2`, the map is round robin heaviest first. Otherwise the boxes, weighted by cell count, are packed with the full search, and the map places the packing's bins heaviest first on the least-used ranks, as `KnapsackMap.KnapSackByWeight` states for weights. Cell counts are packed as `long`s, not narrowed to `int` as at line 599. |
| KnapsackMap.Int32 | Src/C_BaseLib/DistributionMapping.cpp:540 | The narrowing to `int` gives the 32-bit value congruent to the input modulo 2^32. |
| KnapsackMap.PackedWeightsAsWritten | Src/C_BaseLib/DistributionMapping.cpp:597-600 | The weights the knapsack packs are the 32-bit narrowings; they are unchanged exactly for weights that fit. |
| KnapsackMap.TruncatedWeightReordersBoxes | Src/C_BaseLib/DistributionMapping.cpp:540 | For weights [2^31, 1] the narrowed weights are [-2^31, 1], and the heaviest-first order flips from [0, 1] to [1, 0]. |
| Morton.Less | Src/C_BaseLib/DistributionMapping.cpp:898-921 | `SFCToken::Compare`: one anchor comes before another exactly when its level key is lexicographically smaller. |
| Morton.CompareIsLex | Src/C_BaseLib/DistributionMapping.cpp:898-921 | The comparator compares the anchors' level keys lexicographically. The key lists, from the top level down, each coordinate divided by the level's power of two, highest dimension first. |
| Morton.LessIrreflexive | Src/C_BaseLib/DistributionMapping.cpp:898-921 | No anchor precedes itself. |
| Morton.LessAsymmetric | Src/C_BaseLib/DistributionMapping.cpp:898-921 | If `a` precedes `b`, `b` does not precede `a`. |
| Morton.LessTransitive | Src/C_BaseLib/DistributionMapping.cpp:898-921 | Precedence is transitive. |
| Morton.NotLessTransitive | Src/C_BaseLib/DistributionMapping.cpp:898-921 | Incomparability is transitive, so the comparator is a strict weak order, as `std::sort` requires. |
| Morton.EquivalentIffSameKey | Src/C_BaseLib/DistributionMapping.cpp:898-921 | Two anchors are incomparable exactly when their keys are equal. |
| Morton.KeyDeterminesAnchor | Src/C_BaseLib/DistributionMapping.cpp:901-918 | Once the finest level (division by 1) is included, the key determines the anchor. |
| Morton.EquivalentIffEqual | Src/C_BaseLib/DistributionMapping.cpp:898-921 | For non-negative anchors below `2^MaxPower`, two anchors are incomparable exactly when they are equal. |
| Curve.Tokens | Src/C_BaseLib/DistributionMapping.cpp:986-989 | Token `i` carries box `i`, its lower corner and its weight. |
| Curve.TokensCarryEveryBox | Src/C_BaseLib/DistributionMapping.cpp:986-989 | The tokens' boxes are `0..N-1` in order, a permutation. |
| Curve.ComputeMaxPower | Src/C_BaseLib/DistributionMapping.cpp:984-1003 | `MaxPower` is the least `m` with every anchor coordinate below `2^m`. |
| Curve.AnchorsBelow | Src/C_BaseLib/DistributionMapping.cpp:999-1003 | Every non-negative anchor coordinate lies in `[0, 2^MaxPower)`. |
| Curve.SortTokens | Src/C_BaseLib/DistributionMapping.cpp:1007 | The sort is a permutation of the tokens and keeps their dimension. |
| Curve.SortTokensSorted | Src/C_BaseLib/DistributionMapping.cpp:1007 | The sorted tokens are in curve order: no token precedes an earlier one. |
| Curve.SortTokensBoxes | Src/C_BaseLib/DistributionMapping.cpp:1007 | The sort keeps exactly the tokens' boxes. |
| Curve.SortTokensTies | Src/C_BaseLib/DistributionMapping.cpp:1007 | Of two equivalent tokens, the later one comes first. |
| Curve.NonPositiveAnchorsUnordered | Src/C_BaseLib/DistributionMapping.cpp:898-921 | When no anchor coordinate is positive, `MaxPower` is 0 and no anchor comes before another. |
| Curve.CurveOrderUnique | Src/C_BaseLib/DistributionMapping.cpp:1007 | With distinct anchors whose coordinates lie in `[0, 2^MaxPower)`, any two curve-ordered arrangements of the same tokens are equal, so the unstable sort's freedom does not matter there. |
| Runs.Distribute | Src/C_BaseLib/DistributionMapping.cpp:925-968 | The tokens are split into `nprocs` contiguous runs whose concatenation is the token sequence, so every token is in exactly one run. Every run but the last stops greedily at the per-rank share and may give its last token back; the last run takes the rest. |
| Runs.GreedyRun | Src/C_BaseLib/DistributionMapping.cpp:941-948 | The inner loop takes tokens while the run is below the share (or to the end for the last rank). It stops at the first token that brings the run to the share. |
| Runs.NextRun | Src/C_BaseLib/DistributionMapping.cpp:936-959 | One pass of the outer loop closes run `i` at the boundary the cut rule describes, keeping the running total. |
| Runs.CutFacts | Src/C_BaseLib/DistributionMapping.cpp:950-959 | Under the source's give-back condition, the run ends at the boundary the cut rule describes. The condition: the runs so far exceed `i + 1` shares, the run holds more than one token, and tokens remain. The run lists exactly the boxes of the tokens between its two boundaries. |
| Runs.GreedyStopUnique | Src/C_BaseLib/DistributionMapping.cpp:941-948 | The greedy stop point is unique. |
| Runs.RunCutUnique | Src/C_BaseLib/DistributionMapping.cpp:936-959 | The end of each run is determined by its start, so the split is a function of the tokens. |
| Runs.RunBounds | Src/C_BaseLib/DistributionMapping.cpp:941-959 | A non-last run without its last token is below the share. The run, or the run with one more token, reaches the share. While tokens remain, a run is non-empty exactly when the total weight is positive. |
| Assign.AssignGroups | Src/C_BaseLib/DistributionMapping.cpp:1022-1062 | The `i`-th heaviest group goes to the `i`-th least-used rank. Every box gets a rank in range, two boxes share a rank exactly when they share a group, and the sentinel is `MyProc`. |
| Assign.PlaceGroup | Src/C_BaseLib/DistributionMapping.cpp:1054-1057 | Every member of the group gets the rank; every other box keeps its entry. |
| Assign.PlaceAll | Src/C_BaseLib/DistributionMapping.cpp:1047-1058 | After the loop, the group at position `i` of the order has all its boxes on `ord[i]`. |
| Assign.AssignedFacts | Src/C_BaseLib/DistributionMapping.cpp:1047-1058 | When the groups partition the boxes, every box has a rank in range, and two boxes share a rank exactly when they share a group. |
| Sfc.CurveOrder | Src/C_BaseLib/DistributionMapping.cpp:978-1007 | The tokens come out in curve order under the computed `MaxPower`, holding every box exactly once. |
| Sfc.SfcDoIt | Src/C_BaseLib/DistributionMapping.cpp:971-1077 | The runs of the curve order partition the boxes. The heaviest run goes to the least-used rank, and two boxes share a rank exactly when they share a run. The map is valid and the sentinel is `MyProc`. |
| Sfc.SetSfcThreshold | Src/C_BaseLib/DistributionMapping.cpp:101-104 | The stored threshold is the smaller of the argument and 1. |
| Sfc.ThresholdAtMostOne | Src/C_BaseLib/DistributionMapping.cpp:101-104 | After the setter, the knapsack fallback happens exactly when the argument is positive and there are fewer boxes than ranks. |
| Sfc.SfcByBoxes | Src/C_BaseLib/DistributionMapping.cpp:1080-1107 | Below `threshold * nprocs` boxes the knapsack map is used: round robin heaviest first for few boxes or one rank, otherwise a knapsack map of the cell counts (`KnapsackMap.KnapsackMapped`). Otherwise it is the curve map weighted by cell count. Cell counts are packed as `long`s, not narrowed to `int` as at line 599. |
| Sfc.SfcByWeight | Src/C_BaseLib/DistributionMapping.cpp:1110-1130 | The same threshold choice, with the given weights. Below the threshold, for few boxes or one rank, the boxes are dealt round robin in index order (not heaviest first); otherwise the map is a knapsack map of the weights with the full search. Above it, the curve map of the given weights. Weights are packed as `long`s, not narrowed to `int` as at line 599. |
| Manager.ParseStrategy | Src/C_BaseLib/DistributionMapping.cpp:144-168 | A strategy is found exactly for the four known names. |
| Manager.ParseStrategyIff | Src/C_BaseLib/DistributionMapping.cpp:144-162 | A name parses to a strategy exactly when it is that strategy's name. |
| Manager.SetStrategy | Src/C_BaseLib/DistributionMapping.cpp:77-98 | The setter records the strategy and installs its builder, changing nothing else. |
| Manager.ReadParams | Src/C_BaseLib/DistributionMapping.cpp:131-140 | Reading the parameters leaves the strategy, the builder and the initialized flag alone. |
| Manager.InitializeAsWritten | Src/C_BaseLib/DistributionMapping.cpp:125-185 | The result is initialized, and once initialized a call changes nothing. |
| Manager.UnknownStrategyLeavesNoBuilder | Src/C_BaseLib/DistributionMapping.cpp:163-168 | As written, a first `Initialize` with the unknown name `SFCX` leaves no builder installed. Every later `Initialize` keeps it that way. |
| Manager.Initialize | Src/C_BaseLib/DistributionMapping.cpp:125-185 | The result is initialized, and once initialized a call changes nothing. |
| Manager.InitializeInstallsBuilder | Src/C_BaseLib/DistributionMapping.cpp:144-173 | After `Initialize` the chosen strategy's builder is installed. A known name selects its strategy; an unknown or absent name keeps the current one. |
| Manager.InitializeDefaults | Src/C_BaseLib/DistributionMapping.cpp:131-133 | Without parameters: quiet, threshold 0, efficiency 0.9, current strategy with its builder. |
| Manager.InitializeAgreesOnKnownNames | Src/C_BaseLib/DistributionMapping.cpp:144-173 | The corrected `Initialize` differs from the written one only on unknown names. |
| Manager.EmptyOk | Src/C_BaseLib/DistributionMapping.cpp:48-50 | The initial state is consistent and the cache is empty. |
| Manager.Build | Src/C_BaseLib/DistributionMapping.cpp:400-402 | The call through the builder pointer produces the map the chosen strategy's contract describes; for the knapsack strategy and the curve strategy's fallback that is `KnapsackMap.KnapsackMapped`, balanced bins included, with cell counts packed as `long`s rather than narrowed as at line 599. |
| Manager.GetMap | Src/C_BaseLib/DistributionMapping.cpp:264-282 | A map is found exactly when one of length `N+1` is cached; the found map is that entry. The sentinel assertion is not checked (see "Left out"). |
| Manager.ForeignSentinelServed | Src/C_BaseLib/DistributionMapping.cpp:272-279 | A cached map whose sentinel is not `MyProc` is still found and served, as in a build without assertions. |
| Manager.Define | Src/C_BaseLib/DistributionMapping.cpp:374-422 | `Define` first runs the corrected `Initialize` (see Findings). On one rank every entry, sentinel included, is 0 and the cache is untouched. Otherwise a cached map of length `N+1` is shared and gains a link. On a miss the installed builder makes the map, which satisfies the strategy's contract (`Manager.BuiltBy`), and it is cached with its two links. The knapsack builders pack un-narrowed cell counts, unlike line 599. |
| Manager.MakeMapping | Src/C_BaseLib/DistributionMapping.cpp:309-331 | Caching an explicit map on more than one rank aborts exactly when a map of that length is cached. Otherwise the map is added under its length and nothing else in the cache changes. Without caching the cache is untouched. |
| Manager.FlushCache | Src/C_BaseLib/DistributionMapping.cpp:427-450 | Exactly the entries whose link count is 1 are removed; the rest are kept unchanged. |
| Manager.FlushCacheFacts | Src/C_BaseLib/DistributionMapping.cpp:433-450 | Flushing keeps the cache consistent and leaves only shared entries. It is idempotent, and a no-op when nothing is unshared. |
| Manager.Finalize | Src/C_BaseLib/DistributionMapping.cpp:188-197 | Afterwards the manager is uninitialized, the builder is null and the cache is empty; the strategy is kept. |
| Manager.FinalizeThenInitialize | Src/C_BaseLib/DistributionMapping.cpp:188-197 | Initializing after `Finalize` installs a builder again, as a first `Initialize` would with the kept strategy. |
| Manager.Concat | Src/C_BaseLib/DistributionMapping.cpp:350-371 | The result is the first map without its sentinel, then the second without its sentinel, then `MyProc`. |
| Manager.ConcatValid | Src/C_BaseLib/DistributionMapping.cpp:350-371 | Concatenating two valid maps gives a valid map for all the boxes. |
| Manager.ConcatAssociative | Src/C_BaseLib/DistributionMapping.cpp:350-371 | Concatenation is associative. |
| Manager.ConcatUnit | Src/C_BaseLib/DistributionMapping.cpp:350-371 | A map of no boxes is a unit of concatenation, up to the sentinel. |
| Manager.SameMappingIsMapEquality | Src/C_BaseLib/DistributionMapping.cpp:113-116 | When each shared object carries one map, as a `Ref` does, `operator==` holds exactly when the maps are equal, so it is an equivalence. |
| Manager.CachedMappingsCoherent | Src/C_BaseLib/DistributionMapping.cpp:113-116 | Among cached maps, `operator==` is map equality. |
| Topology.RingMetric | Src/C_BaseLib/DistributionMapping.cpp:1786-1789 | The wrap-around distance along one axis is at most half the length. It is symmetric, zero exactly for equal points, and satisfies the triangle inequality. |
| Topology.NHopsUpToMetric | Src/C_BaseLib/DistributionMapping.cpp:1785-1791 | Summed over the first `d` axes, the hop count is a metric on those axes. |
| Topology.NHops | Src/C_BaseLib/DistributionMapping.cpp:1782-1793 | Between nodes of the topology box the hop count is never negative, and it is zero exactly between a node and itself. |
| Topology.NHopsMetric | Src/C_BaseLib/DistributionMapping.cpp:1782-1793 | `NHops` is a metric on the points of the topology box. |
| Topology.BuildTables | Src/C_BaseLib/DistributionMapping.cpp:1621-1624 | The rank table has exactly the ranks `0..nProcs-1`, each mapped to its gathered processor number. |
| Topology.NodeMap | Src/C_BaseLib/DistributionMapping.cpp:1671-1680 | Exactly the non-negative processor numbers in the file have a node. That node is the one of the first cell, in scan order, holding the processor number, as `std::map::insert` keeps the first. |
| Topology.NodePairs | Src/C_BaseLib/DistributionMapping.cpp:1671-1680 | The node multimap holds exactly the file's cells with a non-negative processor number. |
| Topology.ProcNumberFromRank | Src/C_BaseLib/DistributionMapping.cpp:1797-1813 | A known rank gives its processor number; an unknown one gives -1. |
| Topology.RanksFromProcNumber | Src/C_BaseLib/DistributionMapping.cpp:1817-1825 | The result lists exactly the ranks filed under the processor number (empty on a miss). |
| Topology.TopIVFromProcNumber | Src/C_BaseLib/DistributionMapping.cpp:1829-1845 | A known processor number gives its node; an unknown one gives the zero vector. |
| Topology.ProcNumbersFromTopIV | Src/C_BaseLib/DistributionMapping.cpp:1849-1860 | The result lists exactly the processor numbers filed under the node (empty on a miss). |
| Topology.TopIVFromRank | Src/C_BaseLib/DistributionMapping.cpp:1864-1867 | A known rank gives the node of its processor number, or the zero vector when that number has no node. An unknown rank is looked up as processor number -1. |
| Topology.RanksFromTopIV | Src/C_BaseLib/DistributionMapping.cpp:1870-1880 | A rank is listed at a node exactly when some processor number filed under the node has the rank filed under it. |
| Topology.RanksOf | Src/C_BaseLib/DistributionMapping.cpp:1870-1880 | The result lists exactly the ranks of the given processor numbers. |
| Topology.RankLookupsInverse | Src/C_BaseLib/DistributionMapping.cpp:1797-1825 | A rank is listed under a processor number exactly when it is a rank and that is its processor number. |
| Topology.RanksAscending | Src/C_BaseLib/DistributionMapping.cpp:1817-1825 | The ranks under a processor number come in increasing order, each once, all below `nProcs`. |
| Topology.NodeLookupsAgree | Src/C_BaseLib/DistributionMapping.cpp:1829-1860 | A processor number is listed at a node exactly when the file puts it there. A processor number with a node is listed at that node. |
| Topology.RanksAtNode | Src/C_BaseLib/DistributionMapping.cpp:1870-1880 | A rank is listed at a node exactly when its processor number is non-negative and the file puts it at that node. |
| Topology.InvertProximity | Src/C_BaseLib/DistributionMapping.cpp:1747-1755 | Each value taken by the proximity map is sent to the first position holding it, since a repeated `std::map` insert keeps the first. Values it never takes keep their previous order entry. |
| Topology.ProximityOrderInverse | Src/C_BaseLib/DistributionMapping.cpp:1747-1755 | When the proximity map is a permutation, the proximity order is its inverse, and a permutation too. |

## Left out

- Floating point: efficiencies and `volpercpu` are exact. The efficiency is a quotient of integers; the share comparison in `Distribute` is done by cross-multiplying. Rounding of `double` and `Real` is not modelled.
- Integer widths: `long` weights and sums are unbounded. The one narrowing modelled is the `int` weight parameter of `WeightedBox` (see Findings), and only by `KnapsackMap.PackedWeightsAsWritten` and `KnapsackMap.TruncatedWeightReordersBoxes`. The strategy members (`Knapsack.Pack`, `KnapsackMap.KnapSackDoIt`, `KnapsackMap.KnapSackByWeight`, `KnapsackMap.KnapSackByBoxes`, `Sfc.SfcByBoxes`, `Sfc.SfcByWeight`, `Manager.Build`, `Manager.Define`) pack the un-narrowed weights, the corrected behaviour, so they differ from the program whenever a weight or a box's cell count reaches 2^31. Also not modelled:
  - overflow of `1 << m` for large anchors;
  - overflow of `sfc_threshold * nprocs`.
- Tie-breaking of `std::sort` over `WeightedBox` (line 602) and of the `priority_queue` (line 617) is unspecified in the source. The model fixes one choice: the reversed stable order of (weight, index), and the first lightest bin. The properties proved hold for that choice; `Knapsack.Lightest` states only "a lightest bin, the first one".
- `Knapsack.Greedy`: states the outcome of the greedy phase (a packing with spread at most the heaviest item). It does not state the order in which items were placed; `Knapsack.AppendToBin` states the single step.
- Curve sort: the SFC sort is an insertion sort that puts the later of two equivalent tokens first (`Curve.SortTokensTies`); `std::sort` fixes no order among equivalent tokens. `Curve.CurveOrderUnique` shows that this choice does not matter when the anchors are distinct and lie in `[0, 2^MaxPower)`, as the disjoint boxes of a `BoxArray` with non-negative corners do. The strategy's own contracts (`Sfc.CurveMap`) hold for every curve order, not just this one.
- Curve order with no positive anchor coordinate: `MaxPower` is then 0 and `SFCToken::Compare` puts no anchor before another (`Curve.NonPositiveAnchorsUnordered`), so even distinct boxes are all equivalent and `std::sort` may leave them in any order. The model's sort keeps one such order; only `Sfc.CurveMap`, which allows every curve order, describes the source here. Negative anchors in general are outside the `[0, 2^MaxPower)` premise of `Curve.CurveOrderUnique`.
- `LIpairComp` is declared in the header, which is not part of this model. It is taken to compare weights only.
- Collective communication becomes inputs:
  - `MPI_Allgather` of byte counts → `load`;
  - `MyProc` → `myProc`;
  - `NProcs` → `worldSize`;
  - `Bcast` is not modelled.
- The PFC strategy (`PFCProcessorMapDoIt`, `PFCProcessorMap`, the PFC `Distribute`) is not modelled. Its map is a parameter of `Manager.Define`.
- All diagnostic output:
  - the `.xgr` and `.fab` dumps;
  - `CacheStats`, `PrintDiagnostics`, `operator<<`;
  - verbose printing and warnings.
- `Topology.BuildTables`: the tables are those of the first `InitProximityMap` call, built from empty tables. The source keeps `rankPNumMap`, `pNumRankMM`, `pNumTopIVMap`, `topIVpNumMM` and `ranksSFC` in namespace statics (lines 28-34) that nothing clears; `Finalize` leaves them alone. A later `Initialize` with strategy PFC, after `Finalize`, calls `InitProximityMap` again (lines 158-161), and that call changes the tables:
  - the map inserts keep the stale first entries;
  - the multimaps gain a second copy of every pair, so `RanksFromProcNumber` lists each rank twice and `Topology.RanksAscending` no longer holds;
  - `pNumOrderRank[pnor++]` (line 1632) and `proximityMap[i] = ranksSFC[i]` (line 1745) write past their `nProcs` entries.

  That repeated call is not modelled.
- `InitProximityMap`:
  - the topology file read, `GetProcName` and `GetProcNumber` (their results are the parameters `cells` and `pn`);
  - the construction of `ranksSFC` from the topology tokens;
  - the `nodeFab` diagnostic.
- Reference counting of `LnClassPtr`:
  - link counts are stored numbers, changed by `define` and by the cache;
  - copies and destructions of `DistributionMapping` objects elsewhere are not tracked;
  - resizing a shared `Ref` in place in `define` is not modelled, since every build gives a fresh map.
- `BL_SPACEDIM` is the length of the anchors (all boxes have the same dimension).
- `numPts()` and `volume()` of a box are both the cell count.
- The header's default arguments are passed explicitly.
- `CacheSize`, the getters `strategy()` and `SFC_Threshold()`, and the copy constructor and assignment are trivial and are not modelled.
- The `default` case of `strategy(how)` is unreachable: `Strategy` has four values.
- `Knapsack.Pack`, `Knapsack.Greedy`, `KnapsackMap.KnapSackDoIt`, `KnapsackMap.KnapSackByWeight`, `Sfc.SfcByWeight`: weights are required to be non-negative. Cell counts always are; the source does not check given weights.
- `Manager.GetMap`: the assertion that a cached map's sentinel is `MyProc` (line 276) is a debug check and is not modelled. The map is served whatever its sentinel is (`Manager.ForeignSentinelServed`).
- `Ordering.LeastUsedCPUs`: `load` is the list of byte counts after the gather, with one entry for each of the `nprocs` slots. `Ordering.GatheredBytes` builds it from the gathered counts: zero-padded when `nprocs` exceeds the number of ranks, and no result when `nprocs` is smaller, since the gather then writes past the buffer. That overrun is not modelled further.
- Several `BL_ASSERT`s on `boxes.size() > 0` are not required: the model also covers the empty box list.

## Findings

| source | as written | input that shows it | evidently intended | confidence | as-written member | corrected member |
|---|---|---|---|---|---|---|
| Src/C_BaseLib/DistributionMapping.cpp:540 | `WeightedBox(int b, int w)` narrows the `long` weight to `int` before storing it in a `long` member | weights `[2^31, 1]`: the first box is packed with weight `-2^31` and is ordered lightest, not heaviest | keep the `long` weight, so the knapsack packs the given weights | medium, not executed | KnapsackMap.TruncatedWeightReordersBoxes | Knapsack.Pack |
| Src/C_BaseLib/DistributionMapping.cpp:163-168 | an unknown `strategy` name only warns; the setter is not called, so `m_BuildMap` stays null, and `Initialize` is a no-op from then on | first `Initialize` with `DistributionMapping.strategy = SFCX`; the next `define` on more than one rank that misses the cache fails `BL_ASSERT(m_BuildMap != 0)` (line 400) | warn and keep the current strategy with its builder, as when no name is given | medium, not executed | Manager.UnknownStrategyLeavesNoBuilder | Manager.InitializeInstallsBuilder |

=== FILE: assign.dfy ===
/** The step shared by the knapsack and space-filling-curve strategies: the
    groups of boxes they form are ranked heaviest first and the i-th heaviest
    group goes to the i-th least-used rank. */
module Assign {
  import opened Base
  import opened Ordering

  /** Every member of every group indexes `wgts`. */
  predicate InRange(groups: seq<seq<int>>, n: nat) {
    forall g, k :: 0 <= g < |groups| && 0 <= k < |groups[g]| ==> 0 <= groups[g][k] < n
  }

  /** The total weight of the boxes `ids` (the source's `wgts_per_cpu` entry). */
  function Load(ids: seq<int>, wgts: seq<int>): int
    requires forall k :: 0 <= k < |ids| ==> 0 <= ids[k] < |wgts|
  {
    if |ids| == 0 then 0 else wgts[ids[0]] + Load(ids[1..], wgts)
  }

  /** The load of each group. */
  function GroupLoads(groups: seq<seq<int>>, wgts: seq<int>): (r: seq<int>)
    requires InRange(groups, |wgts|)
    ensures |r| == |groups|
    ensures forall g :: 0 <= g < |groups| ==> r[g] == Load(groups[g], wgts)
  {
    seq(|groups|, g requires 0 <= g < |groups| => Load(groups[g], wgts))
  }

  /** Every box of the group ranked `i`-th heaviest has the rank `ord[i]`. */
  predicate GroupsPlaced(pmap: seq<int>, groups: seq<seq<int>>, order: seq<int>, ord: seq<int>) {
    forall i, x ::
      (0 <= i < |order| && i < |ord| && 0 <= order[i] < |groups| &&
       x in groups[order[i]] && 0 <= x < |pmap|) ==> pmap[x] == ord[i]
  }

  /** The tail of the source's `KnapSackDoIt` and `SFCProcessorMapDoIt`: the
      groups (one per rank) partition the boxes; each box gets the rank of its
      group, and the sentinel is the caller's rank. */
  method AssignGroups(groups: seq<seq<int>>, wgts: seq<int>, load: Option<seq<int>>, myProc: int)
    returns (pmap: seq<int>)
    requires |groups| >= 1
    requires load.Some? ==> |load.value| == |groups|
    requires IsPermutation(Flatten(groups), |wgts|)
    ensures |pmap| == |wgts| + 1 && pmap[|wgts|] == myProc
    ensures forall x :: 0 <= x < |wgts| ==> 0 <= pmap[x] < |groups|
    ensures InRange(groups, |wgts|)
    ensures GroupsPlaced(pmap, groups, HeaviestFirst(GroupLoads(groups, wgts)),
                         LeastUsedCPUs(|groups|, load))
    ensures forall g, x, y :: 0 <= g < |groups| && x in groups[g] && 0 <= y < |wgts| ==>
      (pmap[x] == pmap[y] <==> y in groups[g])
  {
    PartitionFromFlatten(groups, |wgts|);
    var n := |groups|;
    var order := HeaviestFirst(GroupLoads(groups, wgts));
    var ord := LeastUsedCPUs(n, load);
    PermutationFacts(order, n);
    PermutationFacts(ord, n);
    pmap := PlaceAll(seq(|wgts| + 1, _ => 0), groups, order, ord);
    pmap := pmap[|wgts| := myProc];
    AssignedFacts(pmap, groups, order, ord, |wgts|);
  }

  /** The source's loop over the ranked groups: group `order[i]` gets rank `ord[i]`. */
  method PlaceAll(pmap0: seq<int>, groups: seq<seq<int>>, order: seq<int>, ord: seq<int>)
    returns (pmap: seq<int>)
    requires |order| == |ord| && |pmap0| >= 1
    requires InRange(groups, |pmap0| - 1)
    requires forall i :: 0 <= i < |order| ==> 0 <= order[i] < |groups|
    requires forall i, j :: 0 <= i < j < |order| ==> order[i] != order[j]
    requires forall g, h, x :: 0 <= g < h < |groups| && x in groups[g] ==> x !in groups[h]
    ensures |pmap| == |pmap0| && pmap[|pmap| - 1] == pmap0[|pmap0| - 1]
    ensures GroupsPlaced(pmap, groups, order, ord)
  {
    pmap := pmap0;
    var i := 0;
    while i < |order|
      invariant 0 <= i <= |order| && |pmap| == |pmap0| && pmap[|pmap| - 1] == pmap0[|pmap0| - 1]
      invariant GroupsPlaced(pmap, groups, order[..i], ord)
    {
      var before := pmap;
      pmap := PlaceGroup(pmap, groups[order[i]], ord[i]);
      PlacedAfterWrite(before, pmap, groups, order[..i], ord, order[i]);
      assert order[..i + 1] == order[..i] + [order[i]];
      i := i + 1;
    }
    assert order[..i] == order;
  }

  /** Writes `cpu` at every member of a group and nowhere else. */
  method PlaceGroup(pmap: seq<int>, members: seq<int>, cpu: int) returns (r: seq<int>)
    requires forall k :: 0 <= k < |members| ==> 0 <= members[k] < |pmap|
    ensures |r| == |pmap|
    ensures forall k :: 0 <= k < |members| ==> r[members[k]] == cpu
    ensures forall y :: 0 <= y < |pmap| && y !in members ==> r[y] == pmap[y]
  {
    r := pmap;
    var j := 0;
    while j < |members|
      invariant 0 <= j <= |members| && |r| == |pmap|
      invariant forall k :: 0 <= k < j ==> r[members[k]] == cpu
      invariant forall y :: 0 <= y < |pmap| && y !in members[..j] ==> r[y] == pmap[y]
    {
      r := r[members[j] := cpu];
      j := j + 1;
      assert members[..j] == members[..j - 1] + [members[j - 1]];
    }
    assert members[..j] == members;
  }

  /** Placing one more group keeps the groups placed before it, which are
      disjoint from it, and adds it. */
  lemma PlacedAfterWrite(before: seq<int>, after: seq<int>, groups: seq<seq<int>>, done: seq<int>,
                         ord: seq<int>, idx: int)
    requires GroupsPlaced(before, groups, done, ord)
    requires 0 <= idx < |groups| && |done| < |ord| && |after| == |before|
    requires forall i :: 0 <= i < |done| ==> done[i] != idx
    requires forall g, h, x :: 0 <= g < h < |groups| && x in groups[g] ==> x !in groups[h]
    requires forall k :: 0 <= k < |groups[idx]| ==>
      0 <= groups[idx][k] < |after| && after[groups[idx][k]] == ord[|done|]
    requires forall y :: 0 <= y < |before| && y !in groups[idx] ==> after[y] == before[y]
    ensures GroupsPlaced(after, groups, done + [idx], ord)
  {
    var d := done + [idx];
    forall i, x | 0 <= i < |d| && i < |ord| && 0 <= d[i] < |groups| &&
      x in groups[d[i]] && 0 <= x < |after|
      ensures after[x] == ord[i]
    {
      if i < |done| {
        assert d[i] == done[i];
        Disjoint(groups, done[i], idx, x);
        assert x !in groups[idx];
      } else {
        var k :| 0 <= k < |groups[idx]| && groups[idx][k] == x;
      }
    }
  }

  /** What the placement says about every box: its rank is in range, and two
      boxes share a rank exactly when they share a group. */
  lemma AssignedFacts(pmap: seq<int>, groups: seq<seq<int>>, order: seq<int>, ord: seq<int>, nb: nat)
    requires |pmap| == nb + 1 && IsPartition(groups, nb)
    requires IsPermutation(order, |groups|) && IsPermutation(ord, |groups|)
    requires GroupsPlaced(pmap, groups, order, ord)
    ensures forall x :: 0 <= x < nb ==> 0 <= pmap[x] < |groups|
    ensures forall g, x, y :: 0 <= g < |groups| && x in groups[g] && 0 <= y < nb ==>
      (pmap[x] == pmap[y] <==> y in groups[g])
  {
    PermutationFacts(order, |groups|);
    PermutationFacts(ord, |groups|);
    forall x | 0 <= x < nb
      ensures 0 <= pmap[x] < |groups|
    {
      var i := RankOf(pmap, groups, order, ord, nb, x);
    }
    forall g, x, y | 0 <= g < |groups| && x in groups[g] && 0 <= y < nb
      ensures pmap[x] == pmap[y] <==> y in groups[g]
    {
      var k :| 0 <= k < |groups[g]| && groups[g][k] == x;
      var ix := RankOf(pmap, groups, order, ord, nb, x);
      var iy := RankOf(pmap, groups, order, ord, nb, y);
      Disjoint(groups, order[ix], g, x);
      Disjoint(groups, order[iy], g, y);
      assert pmap[x] == ord[ix] && pmap[y] == ord[iy];
      assert y in groups[g] <==> ix == iy;
    }
  }

  /** Groups are disjoint, so a box is in at most one. */
  lemma Disjoint(groups: seq<seq<int>>, g: int, h: int, x: int)
    requires 0 <= g < |groups| && 0 <= h < |groups|
    requires forall g, h, x :: 0 <= g < h < |groups| && x in groups[g] ==> x !in groups[h]
    ensures x in groups[g] && x in groups[h] ==> g == h
  {
  }

  /** The position in `order` of the group holding box `x`, and its rank. */
  lemma RankOf(pmap: seq<int>, groups: seq<seq<int>>, order: seq<int>, ord: seq<int>, nb: nat, x: int)
    returns (i: int)
    requires |pmap| == nb + 1 && IsPartition(groups, nb) && 0 <= x < nb
    requires |order| == |groups| == |ord|
    requires forall g :: 0 <= g < |groups| ==> g in order
    requires forall i :: 0 <= i < |order| ==> 0 <= order[i] < |groups|
    requires forall i :: 0 <= i < |ord| ==> 0 <= ord[i] < |groups|
    requires GroupsPlaced(pmap, groups, order, ord)
    ensures 0 <= i < |order| && x in groups[order[i]] && pmap[x] == ord[i]
    ensures 0 <= pmap[x] < |groups|
  {
    assert Covered(groups, x);
    var g :| 0 <= g < |groups| && x in groups[g];
    assert g in order;
    i :| 0 <= i < |order| && order[i] == g;
  }
}

=== FILE: base.dfy ===
/** Shared vocabulary of the distribution model: optional values, the
    identity permutation, permutations of `0..n-1`, sums and flattening. */
module Base {

  /** A value that may be absent (a missing collective result, a cache miss). */
  datatype Option<T> = None | Some(value: T)

  /** `[0, 1, ..., n-1]`: the natural rank order. */
  function Iota(n: nat): seq<int> {
    seq(n, i => i)
  }

  /** `r` lists every integer of `0..n-1` exactly once. */
  predicate IsPermutation(r: seq<int>, n: nat) {
    multiset(r) == multiset(Iota(n))
  }

  /** Each value occurs at most once in `Iota(n)`. */
  lemma {:induction false} IotaOnce(n: nat, x: int)
    ensures multiset(Iota(n))[x] <= 1
    ensures multiset(Iota(n))[x] == 1 <==> 0 <= x < n
  {
    if n > 0 {
      IotaOnce(n - 1, x);
      assert Iota(n) == Iota(n - 1) + [n - 1];
      assert multiset(Iota(n)) == multiset(Iota(n - 1)) + multiset{n - 1};
    }
  }

  /** A value at two positions of a sequence occurs at least twice in its multiset. */
  lemma TwiceInMultiset(s: seq<int>, i: int, j: int)
    requires 0 <= i < j < |s| && s[i] == s[j]
    ensures multiset(s)[s[i]] >= 2
  {
    assert s == s[..j] + s[j..];
    assert s[i] in s[..j];
    assert s[j] == s[j..][0];
    assert multiset(s) == multiset(s[..j]) + multiset(s[j..]);
  }

  /** What being a permutation of `0..n-1` means position by position. */
  lemma PermutationFacts(r: seq<int>, n: nat)
    requires IsPermutation(r, n)
    ensures |r| == n
    ensures forall i :: 0 <= i < |r| ==> 0 <= r[i] < n
    ensures forall i, j :: 0 <= i < j < |r| ==> r[i] != r[j]
    ensures forall k :: 0 <= k < n ==> k in r
  {
    assert |multiset(r)| == |r|;
    forall i | 0 <= i < |r|
      ensures 0 <= r[i] < n
    {
      assert r[i] in multiset(r);
      IotaOnce(n, r[i]);
    }
    forall i, j | 0 <= i < j < |r|
      ensures r[i] != r[j]
    {
      if r[i] == r[j] {
        TwiceInMultiset(r, i, j);
        IotaOnce(n, r[i]);
      }
    }
    forall k | 0 <= k < n
      ensures k in r
    {
      IotaOnce(n, k);
      assert k in multiset(r);
    }
  }

  /** Sum of a sequence of integers. */
  function Sum(ws: seq<int>): int {
    if |ws| == 0 then 0 else ws[0] + Sum(ws[1..])
  }

  lemma {:induction false} SumAppend(a: seq<int>, b: seq<int>)
    ensures Sum(a + b) == Sum(a) + Sum(b)
  {
    if |a| == 0 {
      assert a + b == b;
    } else {
      assert (a + b)[1..] == a[1..] + b;
      SumAppend(a[1..], b);
    }
  }

  /** Concatenation of a sequence of sequences, in order. */
  function Flatten<T>(xss: seq<seq<T>>): seq<T> {
    if |xss| == 0 then [] else xss[0] + Flatten(xss[1..])
  }

  lemma {:induction false} FlattenAppend<T>(xss: seq<seq<T>>, yss: seq<seq<T>>)
    ensures Flatten(xss + yss) == Flatten(xss) + Flatten(yss)
  {
    if |xss| == 0 {
      assert xss + yss == yss;
    } else {
      assert (xss + yss)[1..] == xss[1..] + yss;
      FlattenAppend(xss[1..], yss);
    }
  }

  /** The multiset of a flattening splits around any one of its groups. */
  lemma {:induction false} FlattenSplit<T>(xss: seq<seq<T>>, g: int)
    requires 0 <= g < |xss|
    ensures multiset(Flatten(xss)) ==
            multiset(Flatten(xss[..g])) + multiset(xss[g]) + multiset(Flatten(xss[g + 1..]))
  {
    assert xss == xss[..g] + [xss[g]] + xss[g + 1..];
    FlattenAppend(xss[..g] + [xss[g]], xss[g + 1..]);
    FlattenAppend(xss[..g], [xss[g]]);
    assert Flatten([xss[g]]) == xss[g] + Flatten([xss[g]][1..]);
  }

  /** Every group's members are members of the flattening. */
  lemma FlattenMember<T>(xss: seq<seq<T>>, g: int, x: T)
    requires 0 <= g < |xss| && x in xss[g]
    ensures x in multiset(Flatten(xss))
  {
    FlattenSplit(xss, g);
  }

  /** Every member of the flattening lies in some group. */
  lemma {:induction false} FlattenWitness<T>(xss: seq<seq<T>>, x: T) returns (g: int)
    requires x in multiset(Flatten(xss))
    ensures 0 <= g < |xss| && x in xss[g]
  {
    assert |xss| > 0;
    if x in xss[0] {
      g := 0;
    } else {
      assert multiset(Flatten(xss)) == multiset(xss[0]) + multiset(Flatten(xss[1..]));
      var h := FlattenWitness(xss[1..], x);
      g := h + 1;
    }
  }

  /** Index `x` belongs to one of the groups. */
  predicate Covered(groups: seq<seq<int>>, x: int) {
    exists g :: 0 <= g < |groups| && x in groups[g]
  }

  /** `groups` partitions `0..n-1`: every member is in range, every index is in
      some group, and no index is in two groups. */
  predicate IsPartition(groups: seq<seq<int>>, n: nat) {
    && (forall g, k :: 0 <= g < |groups| && 0 <= k < |groups[g]| ==> 0 <= groups[g][k] < n)
    && (forall x :: 0 <= x < n ==> Covered(groups, x))
    && (forall g, h, x :: 0 <= g < h < |groups| && x in groups[g] ==> x !in groups[h])
  }

  /** Groups whose concatenation is a permutation of `0..n-1` partition it. */
  lemma PartitionFromFlatten(groups: seq<seq<int>>, n: nat)
    requires IsPermutation(Flatten(groups), n)
    ensures IsPartition(groups, n)
  {
    forall g, k | 0 <= g < |groups| && 0 <= k < |groups[g]|
      ensures 0 <= groups[g][k] < n
    {
      FlattenMember(groups, g, groups[g][k]);
      IotaOnce(n, groups[g][k]);
    }
    forall x | 0 <= x < n
      ensures Covered(groups, x)
    {
      IotaOnce(n, x);
      var g := FlattenWitness(groups, x);
    }
    forall g, h, x | 0 <= g < h < |groups| && x in groups[g]
      ensures x !in groups[h]
    {
      if x in groups[h] {
        FlattenSplit(groups, h);
        var pre := groups[..h];
        assert pre[g] == groups[g];
        FlattenMember(pre, g, x);
        IotaOnce(n, x);
        assert false;
      }
    }
  }
}

=== FILE: bins.dfy ===
/** The knapsack's containers: weighted boxes, bins of them (the source's
    `WeightedBox` and `WeightedBoxList`), and the list operations the
    knapsack applies to a heaviest-first list of bins. */
module Bins {
  import opened Base

  /** A box index and the weight the knapsack packs it with. */
  datatype WeightedBox = WeightedBox(boxid: int, weight: int)

  /** The total weight of a bin. */
  function Weight(b: seq<WeightedBox>): int {
    if |b| == 0 then 0 else b[0].weight + Weight(b[1..])
  }

  lemma {:induction false} WeightAppend(a: seq<WeightedBox>, b: seq<WeightedBox>)
    ensures Weight(a + b) == Weight(a) + Weight(b)
  {
    if |a| == 0 {
      assert a + b == b;
    } else {
      assert (a + b)[1..] == a[1..] + b;
      WeightAppend(a[1..], b);
    }
  }

  /** The bin with its `a`-th box taken out (the source's `erase`). */
  function RemoveAt<T>(b: seq<T>, a: int): (r: seq<T>)
    requires 0 <= a < |b|
    ensures |r| == |b| - 1
  {
    b[..a] + b[a + 1..]
  }

  lemma RemoveAtMultiset<T>(b: seq<T>, a: int)
    requires 0 <= a < |b|
    ensures multiset(RemoveAt(b, a)) == multiset(b) - multiset{b[a]}
  {
    assert b == b[..a] + [b[a]] + b[a + 1..];
  }

  lemma WeightRemoveAt(b: seq<WeightedBox>, a: int)
    requires 0 <= a < |b|
    ensures Weight(RemoveAt(b, a)) == Weight(b) - b[a].weight
  {
    var pre, post := b[..a], b[a + 1..];
    SplitAt(b, a);
    WeightMiddle(pre, b[a], post);
  }

  lemma SplitAt<T>(b: seq<T>, a: int)
    requires 0 <= a < |b|
    ensures b == b[..a] + [b[a]] + b[a + 1..]
  {
  }

  lemma WeightMiddle(pre: seq<WeightedBox>, x: WeightedBox, post: seq<WeightedBox>)
    ensures Weight(pre + [x] + post) == Weight(pre + post) + x.weight
  {
    WeightAppend(pre + [x], post);
    WeightAppend(pre, [x]);
    WeightAppend(pre, post);
    assert [x][1..] == [];
  }

  /** The weight of each bin. */
  function BinWeights(bins: seq<seq<WeightedBox>>): (r: seq<int>)
    ensures |r| == |bins|
    ensures forall i :: 0 <= i < |bins| ==> r[i] == Weight(bins[i])
  {
    seq(|bins|, i requires 0 <= i < |bins| => Weight(bins[i]))
  }

  /** The weight of all bins together. */
  function Total(bins: seq<seq<WeightedBox>>): int {
    if |bins| == 0 then 0 else Weight(bins[0]) + Total(bins[1..])
  }

  lemma {:induction false} TotalAppend(xs: seq<seq<WeightedBox>>, ys: seq<seq<WeightedBox>>)
    ensures Total(xs + ys) == Total(xs) + Total(ys)
  {
    if |xs| == 0 {
      assert xs + ys == ys;
    } else {
      assert (xs + ys)[1..] == xs[1..] + ys;
      TotalAppend(xs[1..], ys);
    }
  }

  /** The number of bins weighing exactly `m`. */
  function CountAt(bins: seq<seq<WeightedBox>>, m: int): nat {
    multiset(BinWeights(bins))[m]
  }

  /** The bins are listed heaviest first (the order `wblqg.sort()` leaves them in). */
  predicate Sorted(bins: seq<seq<WeightedBox>>) {
    forall i, j :: 0 <= i < j < |bins| ==> Weight(bins[i]) >= Weight(bins[j])
  }

  /** No bin weighs more than `w`. */
  predicate AllAtMost(bins: seq<seq<WeightedBox>>, w: int) {
    forall i :: 0 <= i < |bins| ==> Weight(bins[i]) <= w
  }

  /** A position of `x` in `ys`. */
  lemma IndexOf<T>(ys: seq<T>, x: T) returns (k: int)
    requires x in multiset(ys)
    ensures 0 <= k < |ys| && ys[k] == x
  {
    assert x in ys;
    k :| 0 <= k < |ys| && ys[k] == x;
  }

  /** Splits `ys` around an occurrence of the first element of `xs`, when the
      two hold the same elements. */
  lemma PermutationStep<T>(xs: seq<T>, ys: seq<T>) returns (pre: seq<T>, post: seq<T>)
    requires |xs| > 0 && multiset(xs) == multiset(ys)
    ensures ys == pre + [xs[0]] + post
    ensures multiset(xs[1..]) == multiset(pre + post)
    ensures |xs[1..]| < |xs|
  {
    assert xs[0] in multiset(ys);
    var k := IndexOf(ys, xs[0]);
    pre, post := ys[..k], ys[k + 1..];
    assert ys == pre + [xs[0]] + post;
    assert xs == [xs[0]] + xs[1..];
    assert multiset(xs) == multiset{xs[0]} + multiset(xs[1..]);
    assert multiset(ys) == multiset(pre) + multiset{xs[0]} + multiset(post);
    assert multiset(pre + post) == multiset(pre) + multiset(post);
    calc {
      multiset(xs[1..]);
      multiset(xs) - multiset{xs[0]};
      multiset(ys) - multiset{xs[0]};
      multiset(pre) + multiset(post);
    }
  }

  /** Rearranging the bins changes neither their total weight, nor the
      multiset of their weights, nor the boxes they hold. */
  lemma BinsPermutation(xs: seq<seq<WeightedBox>>, ys: seq<seq<WeightedBox>>)
    requires multiset(xs) == multiset(ys)
    ensures Total(xs) == Total(ys)
    ensures multiset(BinWeights(xs)) == multiset(BinWeights(ys))
    ensures multiset(Flatten(xs)) == multiset(Flatten(ys))
  {
    TotalPermutation(xs, ys);
    WeightsPermutation(xs, ys);
    FlattenPermutation(xs, ys);
  }

  lemma {:induction false} TotalPermutation(xs: seq<seq<WeightedBox>>, ys: seq<seq<WeightedBox>>)
    requires multiset(xs) == multiset(ys)
    ensures Total(xs) == Total(ys)
    decreases |xs|
  {
    assert |xs| == |multiset(xs)| == |ys|;
    if |xs| > 0 {
      var x := xs[0];
      var pre, post := PermutationStep(xs, ys);
      TotalPermutation(xs[1..], pre + post);
      assert Total(ys) == Total(pre) + Weight(x) + Total(post) by {
        TotalAppend(pre + [x], post);
        TotalAppend(pre, [x]);
        assert Total([x]) == Weight(x) + Total([x][1..]);
      }
      TotalAppend(pre, post);
    }
  }

  lemma WeightsPermutation(xs: seq<seq<WeightedBox>>, ys: seq<seq<WeightedBox>>)
    requires multiset(xs) == multiset(ys)
    ensures multiset(BinWeights(xs)) == multiset(BinWeights(ys))
    decreases |xs|
  {
    assert |xs| == |multiset(xs)| == |ys|;
    if |xs| > 0 {
      var x := xs[0];
      var pre, post := PermutationStep(xs, ys);
      WeightsPermutation(xs[1..], pre + post);
      assert BinWeights(ys) == BinWeights(pre) + [Weight(x)] + BinWeights(post);
      assert BinWeights(pre + post) == BinWeights(pre) + BinWeights(post);
      assert BinWeights(xs) == [Weight(x)] + BinWeights(xs[1..]);
    }
  }

  lemma {:induction false} FlattenPermutation(xs: seq<seq<WeightedBox>>, ys: seq<seq<WeightedBox>>)
    requires multiset(xs) == multiset(ys)
    ensures multiset(Flatten(xs)) == multiset(Flatten(ys))
    decreases |xs|
  {
    assert |xs| == |multiset(xs)| == |ys|;
    if |xs| > 0 {
      var x := xs[0];
      var pre, post := PermutationStep(xs, ys);
      FlattenPermutation(xs[1..], pre + post);
      assert Flatten(ys) == Flatten(pre) + x + Flatten(post) by {
        FlattenAppend(pre + [x], post);
        FlattenAppend(pre, [x]);
        assert Flatten([x]) == x + Flatten([x][1..]);
      }
      FlattenAppend(pre, post);
      assert Flatten(xs) == x + Flatten(xs[1..]);
    }
  }

  /** Rearranging boxes changes neither their weight nor the multiset of
      their indices. */
  lemma {:induction false} BoxesPermutation(s: seq<WeightedBox>, t: seq<WeightedBox>)
    requires multiset(s) == multiset(t)
    ensures Weight(s) == Weight(t)
    ensures multiset(BoxIds(s)) == multiset(BoxIds(t))
    decreases |s|
  {
    assert |s| == |multiset(s)| == |t|;
    if |s| > 0 {
      var x := s[0];
      var pre, post := PermutationStep(s, t);
      BoxesPermutation(s[1..], pre + post);
      assert Weight(t) == Weight(pre) + x.weight + Weight(post) by {
        WeightAppend(pre + [x], post);
        WeightAppend(pre, [x]);
        assert [x][1..] == [];
      }
      WeightAppend(pre, post);
      assert multiset(BoxIds(t)) == multiset(BoxIds(s)) by {
        assert BoxIds(t) == BoxIds(pre) + [x.boxid] + BoxIds(post);
        assert BoxIds(pre + post) == BoxIds(pre) + BoxIds(post);
        assert BoxIds(s) == [x.boxid] + BoxIds(s[1..]);
      }
    }
  }

  /** The box indices of a bin, in list order (one row of the knapsack's result). */
  function BoxIds(b: seq<WeightedBox>): (r: seq<int>)
    ensures |r| == |b|
    ensures forall k :: 0 <= k < |b| ==> r[k] == b[k].boxid
  {
    seq(|b|, k requires 0 <= k < |b| => b[k].boxid)
  }

  /** The weight of a bin is the weight of its boxes, flattened. */
  lemma {:induction false} TotalFlatten(bins: seq<seq<WeightedBox>>)
    ensures Total(bins) == Weight(Flatten(bins))
  {
    if |bins| > 0 {
      TotalFlatten(bins[1..]);
      WeightAppend(bins[0], Flatten(bins[1..]));
    }
  }

  /** The box indices of every bin. */
  function BinIds(bins: seq<seq<WeightedBox>>): (r: seq<seq<int>>)
    ensures |r| == |bins|
    ensures forall i :: 0 <= i < |bins| ==> r[i] == BoxIds(bins[i])
  {
    seq(|bins|, i requires 0 <= i < |bins| => BoxIds(bins[i]))
  }

  lemma {:induction false} BinIdsFlatten(bins: seq<seq<WeightedBox>>)
    ensures Flatten(BinIds(bins)) == BoxIds(Flatten(bins))
  {
    if |bins| > 0 {
      BinIdsFlatten(bins[1..]);
      assert BinIds(bins) == [BoxIds(bins[0])] + BinIds(bins[1..]);
      assert BoxIds(Flatten(bins)) == BoxIds(bins[0]) + BoxIds(Flatten(bins[1..]));
    }
  }

  /** The source's `std::list::merge` on two heaviest-first lists: a bin of
      `ys` goes ahead only when strictly heavier, so on ties `xs` comes first. */
  function Merge(xs: seq<seq<WeightedBox>>, ys: seq<seq<WeightedBox>>): (r: seq<seq<WeightedBox>>)
    ensures |r| == |xs| + |ys|
    ensures multiset(r) == multiset(xs) + multiset(ys)
    decreases |xs| + |ys|
  {
    if |xs| == 0 then ys
    else if |ys| == 0 then xs
    else if Weight(ys[0]) > Weight(xs[0]) then
      assert ys == [ys[0]] + ys[1..];
      [ys[0]] + Merge(xs, ys[1..])
    else
      assert xs == [xs[0]] + xs[1..];
      [xs[0]] + Merge(xs[1..], ys)
  }

  /** A bound on both lists bounds their merge. */
  lemma MergeBound(xs: seq<seq<WeightedBox>>, ys: seq<seq<WeightedBox>>, w: int)
    requires AllAtMost(xs, w) && AllAtMost(ys, w)
    ensures AllAtMost(Merge(xs, ys), w)
  {
    var r := Merge(xs, ys);
    forall i | 0 <= i < |r|
      ensures Weight(r[i]) <= w
    {
      assert r[i] in multiset(r);
      if r[i] in multiset(xs) {
        var k := IndexOf(xs, r[i]);
      } else {
        var k := IndexOf(ys, r[i]);
      }
    }
  }

  /** A heaviest-first list headed by a bin of weight at most `w`: every
      bin weighs at most `w`, and so does its tail, which is heaviest-first. */
  lemma SortedHead(xs: seq<seq<WeightedBox>>, w: int)
    requires Sorted(xs) && |xs| > 0 && Weight(xs[0]) <= w
    ensures AllAtMost(xs, w) && Sorted(xs[1..]) && AllAtMost(xs[1..], w)
  {
    forall i | 0 <= i < |xs|
      ensures Weight(xs[i]) <= w
    {
      if i > 0 {
        assert Weight(xs[0]) >= Weight(xs[i]);
      }
    }
    assert forall k :: 0 <= k < |xs| - 1 ==> xs[1..][k] == xs[k + 1];
  }

  lemma {:induction false} MergeSorted(xs: seq<seq<WeightedBox>>, ys: seq<seq<WeightedBox>>)
    requires Sorted(xs) && Sorted(ys)
    ensures Sorted(Merge(xs, ys))
    decreases |xs| + |ys|
  {
    if |xs| > 0 && |ys| > 0 {
      var h, rest, xs', ys';
      if Weight(ys[0]) > Weight(xs[0]) {
        h, xs', ys' := ys[0], xs, ys[1..];
      } else {
        h, xs', ys' := xs[0], xs[1..], ys;
      }
      SortedHead(xs, Weight(h));
      SortedHead(ys, Weight(h));
      rest := Merge(xs', ys');
      assert Merge(xs, ys) == [h] + rest;
      MergeSorted(xs', ys');
      MergeBound(xs', ys', Weight(h));
      SortedCons(h, rest);
    }
  }

  lemma SortedCons(h: seq<WeightedBox>, rest: seq<seq<WeightedBox>>)
    requires Sorted(rest) && AllAtMost(rest, Weight(h))
    ensures Sorted([h] + rest)
  {
    var s := [h] + rest;
    assert s[0] == h;
    assert forall k :: 0 <= k < |rest| ==> s[k + 1] == rest[k];
    forall i, j | 0 <= i < j < |s|
      ensures Weight(s[i]) >= Weight(s[j])
    {
      var wj := Weight(rest[j - 1]);
      if i == 0 {
        assert Weight(h) >= wj;
      } else {
        assert Weight(rest[i - 1]) >= wj;
      }
    }
  }


  /** Stable insertion of one bin into a heaviest-first list: it goes ahead
      of the first bin it is at least as heavy as. */
  function InsertBin(x: seq<WeightedBox>, t: seq<seq<WeightedBox>>): (r: seq<seq<WeightedBox>>)
    ensures |r| == |t| + 1
    ensures multiset(r) == multiset{x} + multiset(t)
  {
    if |t| == 0 || Weight(x) >= Weight(t[0]) then [x] + t
    else
      assert t == [t[0]] + t[1..];
      [t[0]] + InsertBin(x, t[1..])
  }

  /** The source's `wblqg.sort()`: a stable sort of the bins, heaviest first. */
  function SortBins(s: seq<seq<WeightedBox>>): (r: seq<seq<WeightedBox>>)
    ensures |r| == |s|
    ensures multiset(r) == multiset(s)
  {
    if |s| == 0 then []
    else
      assert s == [s[0]] + s[1..];
      InsertBin(s[0], SortBins(s[1..]))
  }

  lemma {:induction false} InsertBinSorted(x: seq<WeightedBox>, t: seq<seq<WeightedBox>>)
    requires Sorted(t)
    ensures Sorted(InsertBin(x, t))
  {
    if |t| == 0 || Weight(x) >= Weight(t[0]) {
      assert AllAtMost(t, Weight(x)) by {
        forall i | 0 <= i < |t|
          ensures Weight(t[i]) <= Weight(x)
        {
          assert Weight(t[i]) <= Weight(t[0]);
        }
      }
      SortedCons(x, t);
    } else {
      var rest := InsertBin(x, t[1..]);
      assert Sorted(t[1..]) by {
        forall i, j | 0 <= i < j < |t[1..]|
          ensures Weight(t[1..][i]) >= Weight(t[1..][j])
        {
          assert t[1..][i] == t[i + 1] && t[1..][j] == t[j + 1];
        }
      }
      InsertBinSorted(x, t[1..]);
      assert AllAtMost(rest, Weight(t[0])) by {
        forall i | 0 <= i < |rest|
          ensures Weight(rest[i]) <= Weight(t[0])
        {
          assert rest[i] in multiset(rest);
          if rest[i] != x {
            assert rest[i] in multiset(t[1..]);
            var k := IndexOf(t[1..], rest[i]);
            assert t[1..][k] == t[k + 1];
          }
        }
      }
      SortedCons(t[0], rest);
    }
  }

  lemma {:induction false} SortBinsSorted(s: seq<seq<WeightedBox>>)
    ensures Sorted(SortBins(s))
  {
    if |s| > 0 {
      SortBinsSorted(s[1..]);
      InsertBinSorted(s[0], SortBins(s[1..]));
    }
  }

  /** In a heaviest-first list the first bin is the heaviest, so the total is
      at most the number of bins times the first bin's weight: the knapsack's
      efficiency never exceeds one. */
  lemma {:induction false} TotalAtMost(bins: seq<seq<WeightedBox>>, m: int)
    requires AllAtMost(bins, m)
    ensures Total(bins) <= |bins| * m
  {
    if |bins| > 0 {
      assert AllAtMost(bins[1..], m) by {
        forall i | 0 <= i < |bins| - 1
          ensures Weight(bins[1..][i]) <= m
        {
          assert bins[1..][i] == bins[i + 1];
        }
      }
      TotalAtMost(bins[1..], m);
    }
  }

  /** Bins that each weigh at least `m` weigh at least `|bins| * m` together. */
  lemma {:induction false} TotalAtLeast(bins: seq<seq<WeightedBox>>, m: int)
    requires forall i :: 0 <= i < |bins| ==> Weight(bins[i]) >= m
    ensures Total(bins) >= |bins| * m
  {
    if |bins| > 0 {
      assert forall i :: 0 <= i < |bins| - 1 ==> bins[1..][i] == bins[i + 1];
      TotalAtLeast(bins[1..], m);
    }
  }
}

=== FILE: curve.dfy ===
/** The space-filling-curve tokens: one per box, carrying the box's index,
    its lower corner (the anchor) and its weight; the choice of `MaxPower`
    from the anchors, and the tokens put in Morton order. */
module Curve {
  import opened Base
  import opened Morton
  import opened Geometry

  /** The source's `SFCToken`. */
  datatype SFCToken = SFCToken(box: int, idx: seq<int>, vol: int)

  /** Every anchor has `dim` coordinates. */
  predicate HasDim(ts: seq<SFCToken>, dim: nat) {
    forall i :: 0 <= i < |ts| ==> |ts[i].idx| == dim
  }

  /** The tokens the source builds: box `i` with its lower corner and weight. */
  function Tokens(boxes: seq<Box>, wgts: seq<int>): (r: seq<SFCToken>)
    requires |wgts| == |boxes|
    ensures |r| == |boxes|
    ensures forall i :: 0 <= i < |r| ==> r[i] == SFCToken(i, boxes[i].small, wgts[i])
  {
    seq(|boxes|, i requires 0 <= i < |boxes| => SFCToken(i, boxes[i].small, wgts[i]))
  }

  /** The box indices of the tokens, in order. */
  function TokenBoxes(ts: seq<SFCToken>): (r: seq<int>)
    ensures |r| == |ts|
  {
    if |ts| == 0 then [] else [ts[0].box] + TokenBoxes(ts[1..])
  }

  lemma {:induction false} TokenBoxesAt(ts: seq<SFCToken>, i: int)
    requires 0 <= i < |ts|
    ensures TokenBoxes(ts)[i] == ts[i].box
  {
    if i > 0 {
      TokenBoxesAt(ts[1..], i - 1);
    }
  }

  /** The weights of the tokens, in order. */
  function Vols(ts: seq<SFCToken>): (r: seq<int>)
    ensures |r| == |ts|
    ensures forall i :: 0 <= i < |ts| ==> r[i] == ts[i].vol
  {
    seq(|ts|, i requires 0 <= i < |ts| => ts[i].vol)
  }

  lemma TokensCarryEveryBox(boxes: seq<Box>, wgts: seq<int>)
    requires |wgts| == |boxes|
    ensures TokenBoxes(Tokens(boxes, wgts)) == Iota(|boxes|)
    ensures IsPermutation(TokenBoxes(Tokens(boxes, wgts)), |boxes|)
  {
    var ts := Tokens(boxes, wgts);
    forall i | 0 <= i < |ts|
      ensures TokenBoxes(ts)[i] == Iota(|boxes|)[i]
    {
      TokenBoxesAt(ts, i);
    }
  }

  // ---------------------------------------------------------------------
  // MaxPower

  /** `m` is the least power with `2^m` above every anchor coordinate and
      above zero. */
  predicate IsMaxPower(ts: seq<SFCToken>, m: nat) {
    && (forall i, d :: 0 <= i < |ts| && 0 <= d < |ts[i].idx| ==> ts[i].idx[d] < Pow2(m))
    && (m == 0 || exists i, d :: 0 <= i < |ts| && 0 <= d < |ts[i].idx| && Pow2(m - 1) <= ts[i].idx[d])
  }

  /** The source's choice of `SFCToken::MaxPower`: the largest anchor
      coordinate `maxijk` (at least 0), then the least `m` with
      `2^m > maxijk`. */
  method ComputeMaxPower(ts: seq<SFCToken>) returns (m: nat)
    ensures IsMaxPower(ts, m)
  {
    var maxijk := 0;
    var i := 0;
    while i < |ts|
      invariant 0 <= i <= |ts| && maxijk >= 0
      invariant forall k, d :: 0 <= k < i && 0 <= d < |ts[k].idx| ==> ts[k].idx[d] <= maxijk
      invariant maxijk == 0 || exists k, d :: 0 <= k < i && 0 <= d < |ts[k].idx| && ts[k].idx[d] == maxijk
    {
      var d := 0;
      while d < |ts[i].idx|
        invariant 0 <= d <= |ts[i].idx| && maxijk >= 0
        invariant forall k, e :: 0 <= k < i && 0 <= e < |ts[k].idx| ==> ts[k].idx[e] <= maxijk
        invariant forall e :: 0 <= e < d ==> ts[i].idx[e] <= maxijk
        invariant maxijk == 0 || exists k, e :: 0 <= k <= i && 0 <= e < |ts[k].idx| && ts[k].idx[e] == maxijk
      {
        if ts[i].idx[d] > maxijk {
          maxijk := ts[i].idx[d];
        }
        d := d + 1;
      }
      i := i + 1;
    }
    m := 0;
    while Pow2(m) <= maxijk
      invariant m == 0 || Pow2(m - 1) <= maxijk
      decreases maxijk - Pow2(m)
    {
      m := m + 1;
    }
  }

  /** Anchors in the non-negative octant lie below `2^MaxPower`. */
  lemma AnchorsBelow(ts: seq<SFCToken>, m: nat, i: int)
    requires IsMaxPower(ts, m) && 0 <= i < |ts|
    requires forall d :: 0 <= d < |ts[i].idx| ==> ts[i].idx[d] >= 0
    ensures forall d :: 0 <= d < |ts[i].idx| ==> 0 <= ts[i].idx[d] < Pow2(m)
  {
  }

  // ---------------------------------------------------------------------
  // Morton order

  /** No token comes strictly before an earlier one on the curve. */
  predicate CurveSorted(ts: seq<SFCToken>, m: nat) {
    forall i, j :: 0 <= i < j < |ts| && |ts[i].idx| == |ts[j].idx| ==> !Less(ts[j].idx, ts[i].idx, m)
  }

  /** Insert `x` before the first token it comes strictly before, so after
      every token equivalent to it. */
  function InsertToken(x: SFCToken, s: seq<SFCToken>, m: nat): (r: seq<SFCToken>)
    requires HasDim(s, |x.idx|)
    ensures HasDim(r, |x.idx|)
    ensures multiset(r) == multiset(s) + multiset{x}
  {
    if |s| == 0 then [x]
    else if Less(x.idx, s[0].idx, m) then [x] + s
    else
      assert s == [s[0]] + s[1..];
      [s[0]] + InsertToken(x, s[1..], m)
  }

  lemma {:induction false} TokenBoxesAppend(a: seq<SFCToken>, b: seq<SFCToken>)
    ensures TokenBoxes(a + b) == TokenBoxes(a) + TokenBoxes(b)
  {
    if |a| > 0 {
      assert (a + b)[1..] == a[1..] + b;
      TokenBoxesAppend(a[1..], b);
    } else {
      assert a + b == b;
    }
  }

  lemma {:induction false} InsertTokenBoxes(x: SFCToken, s: seq<SFCToken>, m: nat)
    requires HasDim(s, |x.idx|)
    ensures multiset(TokenBoxes(InsertToken(x, s, m))) == multiset(TokenBoxes(s)) + multiset{x.box}
  {
    if |s| > 0 {
      if Less(x.idx, s[0].idx, m) {
        assert ([x] + s)[1..] == s;
      } else {
        var t := InsertToken(x, s[1..], m);
        InsertTokenBoxes(x, s[1..], m);
        assert ([s[0]] + t)[1..] == t;
      }
    }
  }

  /** The tokens in Morton order (the source's `std::sort` with
      `SFCToken::Compare`). Which of two equivalent tokens comes first is not
      fixed there; here the later one does, since each token is inserted
      after the equivalent tokens that follow it. */
  function SortTokens(ts: seq<SFCToken>, m: nat, dim: nat): (r: seq<SFCToken>)
    requires HasDim(ts, dim)
    ensures HasDim(r, dim)
    ensures multiset(r) == multiset(ts)
  {
    if |ts| == 0 then []
    else
      assert ts == [ts[0]] + ts[1..];
      InsertToken(ts[0], SortTokens(ts[1..], m, dim), m)
  }

  /** A token that no later token comes before can lead a sorted sequence. */
  lemma ConsSorted(x: SFCToken, s: seq<SFCToken>, m: nat)
    requires CurveSorted(s, m)
    requires forall k :: 0 <= k < |s| && |s[k].idx| == |x.idx| ==> !Less(s[k].idx, x.idx, m)
    ensures CurveSorted([x] + s, m)
  {
    var r := [x] + s;
    forall i, j | 0 <= i < j < |r| && |r[i].idx| == |r[j].idx|
      ensures !Less(r[j].idx, r[i].idx, m)
    {
      if i > 0 {
        assert r[i] == s[i - 1] && r[j] == s[j - 1];
      } else {
        assert r[j] == s[j - 1];
      }
    }
  }

  lemma {:induction false} InsertTokenSorted(x: SFCToken, s: seq<SFCToken>, m: nat)
    requires HasDim(s, |x.idx|) && CurveSorted(s, m)
    ensures CurveSorted(InsertToken(x, s, m), m)
  {
    if |s| == 0 {
    } else if Less(x.idx, s[0].idx, m) {
      forall k | 0 <= k < |s|
        ensures !Less(s[k].idx, x.idx, m)
      {
        LessAsymmetric(x.idx, s[0].idx, m);
        if k > 0 {
          NotLessTransitive(x.idx, s[0].idx, s[k].idx, m);
        }
      }
      ConsSorted(x, s, m);
    } else {
      var t := InsertToken(x, s[1..], m);
      InsertTokenSorted(x, s[1..], m);
      forall k | 0 <= k < |t|
        ensures !Less(t[k].idx, s[0].idx, m)
      {
        assert t[k] in multiset(s[1..]) + multiset{x};
        if t[k] != x {
          assert t[k] in s[1..];
          var i :| 0 <= i < |s[1..]| && s[1..][i] == t[k];
          assert s[i + 1] == t[k];
        }
      }
      ConsSorted(s[0], t, m);
    }
  }

  lemma {:induction false} SortTokensBoxes(ts: seq<SFCToken>, m: nat, dim: nat)
    requires HasDim(ts, dim)
    ensures multiset(TokenBoxes(SortTokens(ts, m, dim))) == multiset(TokenBoxes(ts))
  {
    if |ts| > 0 {
      var rest := SortTokens(ts[1..], m, dim);
      SortTokensBoxes(ts[1..], m, dim);
      InsertTokenBoxes(ts[0], rest, m);
    }
  }

  lemma {:induction false} SortTokensSorted(ts: seq<SFCToken>, m: nat, dim: nat)
    requires HasDim(ts, dim)
    ensures CurveSorted(SortTokens(ts, m, dim), m)
  {
    if |ts| > 0 {
      SortTokensSorted(ts[1..], m, dim);
      InsertTokenSorted(ts[0], SortTokens(ts[1..], m, dim), m);
    }
  }

  /** Of two equivalent tokens, the sort puts the later one first. */
  lemma SortTokensTies(a: SFCToken, b: SFCToken, m: nat)
    requires |a.idx| == |b.idx|
    requires !Less(a.idx, b.idx, m) && !Less(b.idx, a.idx, m)
    ensures SortTokens([a, b], m, |a.idx|) == [b, a]
  {
    var ts := [a, b];
    assert ts[1..] == [b];
    assert SortTokens([b], m, |a.idx|) == InsertToken(b, [], m) == [b];
    assert InsertToken(a, [b], m) == [b] + InsertToken(a, [], m);
  }

  /** When no anchor coordinate is positive, `MaxPower` is 0 and no anchor
      comes before another, so every arrangement of the tokens is in curve
      order, whether or not the anchors are distinct. */
  lemma NonPositiveAnchorsUnordered(ts: seq<SFCToken>, m: nat)
    requires IsMaxPower(ts, m)
    requires forall i, d :: 0 <= i < |ts| && 0 <= d < |ts[i].idx| ==> ts[i].idx[d] <= 0
    ensures m == 0
    ensures forall i, j :: 0 <= i < |ts| && 0 <= j < |ts| && |ts[i].idx| == |ts[j].idx| ==>
      !Less(ts[i].idx, ts[j].idx, m)
  {
    if m != 0 {
      assert false;
    }
  }

  lemma CancelOne<T>(x: T, p: multiset<T>, q: multiset<T>)
    requires multiset{x} + p == multiset{x} + q
    ensures p == q
  {
    forall y
      ensures p[y] == q[y]
    {
      assert (multiset{x} + p)[y] == (multiset{x} + q)[y];
    }
  }

  // ---------------------------------------------------------------------
  // The curve order of a box array is determined

  /** Anchors of the same dimension, non-negative and below `2^m`, no two
      alike (the lower corners of disjoint boxes). */
  predicate DistinctAnchors(ts: seq<SFCToken>, m: nat, dim: nat) {
    && HasDim(ts, dim)
    && (forall i, d :: 0 <= i < |ts| && 0 <= d < dim ==> 0 <= ts[i].idx[d] < Pow2(m))
    && (forall i, j :: 0 <= i < j < |ts| ==> ts[i].idx != ts[j].idx)
  }

  lemma TailFacts(a: seq<SFCToken>, m: nat, dim: nat)
    requires |a| > 0 && CurveSorted(a, m)
    ensures CurveSorted(a[1..], m)
    ensures DistinctAnchors(a, m, dim) ==> DistinctAnchors(a[1..], m, dim)
  {
    forall k, l | 0 <= k < l < |a[1..]|
      ensures a[1..][k] == a[k + 1] && a[1..][l] == a[l + 1]
    {
    }
  }

  /** Two sorted arrangements of tokens with distinct anchors start alike. */
  lemma SameFirst(a: seq<SFCToken>, b: seq<SFCToken>, m: nat, dim: nat)
    requires DistinctAnchors(a, m, dim)
    requires multiset(a) == multiset(b) && |a| > 0 && |b| > 0
    requires CurveSorted(a, m) && CurveSorted(b, m)
    ensures a[0] == b[0]
  {
    var x, y := a[0], b[0];
    assert y in multiset(a);
    var i :| 0 <= i < |a| && a[i] == y;
    assert x in multiset(b);
    var j :| 0 <= j < |b| && b[j] == x;
    if x != y {
      assert x.idx != y.idx;
      EquivalentIffEqual(x.idx, y.idx, m);
    }
  }

  /** When the anchors are distinct, any two Morton-sorted arrangements of the
      same tokens agree: the freedom `std::sort` has with equivalent tokens
      never arises. */
  lemma {:induction false} CurveOrderUnique(a: seq<SFCToken>, b: seq<SFCToken>, m: nat, dim: nat)
    requires DistinctAnchors(a, m, dim)
    requires multiset(a) == multiset(b)
    requires CurveSorted(a, m) && CurveSorted(b, m)
    ensures a == b
  {
    assert |a| == |multiset(a)| == |multiset(b)| == |b|;
    if |a| > 0 {
      SameFirst(a, b, m, dim);
      assert a == [a[0]] + a[1..] && b == [a[0]] + b[1..];
      assert multiset(a[1..]) == multiset(b[1..]) by {
        assert a == [a[0]] + a[1..] && b == [b[0]] + b[1..];
        assert multiset(a) == multiset{a[0]} + multiset(a[1..]);
        assert multiset(b) == multiset{b[0]} + multiset(b[1..]);
        CancelOne(a[0], multiset(a[1..]), multiset(b[1..]));
      }
      TailFacts(a, m, dim);
      TailFacts(b, m, dim);
      CurveOrderUnique(a[1..], b[1..], m, dim);
    }
  }
}

=== FILE: distribute.dfy ===
/** The source's `Distribute`: the tokens, in curve order, are cut into one
    contiguous run per rank, each run filled until it reaches the per-rank
    share of the total weight. */
module Runs {
  import opened Base
  import opened Curve

  /** The weight of the tokens `lo..hi-1`. */
  function Vol(ts: seq<SFCToken>, lo: int, hi: int): int
    requires 0 <= lo <= hi <= |ts|
  {
    Sum(Vols(ts[lo..hi]))
  }

  lemma VolStep(ts: seq<SFCToken>, lo: int, k: int)
    requires 0 <= lo <= k < |ts|
    ensures Vol(ts, lo, k + 1) == Vol(ts, lo, k) + ts[k].vol
  {
    assert Vols(ts[lo..k + 1]) == Vols(ts[lo..k]) + [ts[k].vol];
    SumAppend(Vols(ts[lo..k]), [ts[k].vol]);
  }

  lemma VolSplit(ts: seq<SFCToken>, lo: int, mid: int, hi: int)
    requires 0 <= lo <= mid <= hi <= |ts|
    ensures Vol(ts, lo, hi) == Vol(ts, lo, mid) + Vol(ts, mid, hi)
  {
    assert Vols(ts[lo..hi]) == Vols(ts[lo..mid]) + Vols(ts[mid..hi]);
    SumAppend(Vols(ts[lo..mid]), Vols(ts[mid..hi]));
  }

  /** The weight of all the tokens. */
  function Total(ts: seq<SFCToken>): int {
    Vol(ts, 0, |ts|)
  }

  /** A run begun at `lo` by the source's inner loop stops at `e`: the first
      point where its weight reaches the per-rank share `Total / nprocs`, or
      the end of the tokens. */
  predicate GreedyStop(ts: seq<SFCToken>, nprocs: nat, lo: int, e: int)
    requires 0 <= lo <= |ts|
  {
    && lo <= e <= |ts|
    && (forall p :: lo <= p < e ==> Vol(ts, lo, p) * nprocs < Total(ts))
    && (e == |ts| || Vol(ts, lo, e) * nprocs >= Total(ts))
  }

  /** Run `i`, stopped at `e`, gives its last token back: the runs so far
      weigh more than `i + 1` shares, it holds more than one token, and
      tokens remain. */
  predicate HandsBack(ts: seq<SFCToken>, nprocs: nat, i: int, lo: int, e: int)
    requires 0 <= lo <= |ts|
  {
    && lo <= e < |ts|
    && Vol(ts, 0, e) * nprocs > Total(ts) * (i + 1)
    && e - lo > 1
  }

  /** Run `i` of `Distribute` holds the tokens `lo..hi-1`: the last run takes
      everything left; any other stops greedily and may give its last token
      back. */
  predicate RunCut(ts: seq<SFCToken>, nprocs: nat, i: int, lo: int, hi: int)
    requires 0 <= lo <= |ts|
  {
    if i == nprocs - 1 then hi == |ts|
    else
      || (GreedyStop(ts, nprocs, lo, hi) && !HandsBack(ts, nprocs, i, lo, hi))
      || (hi < |ts| && GreedyStop(ts, nprocs, lo, hi + 1) && HandsBack(ts, nprocs, i, lo, hi + 1))
  }

  /** Run boundaries: in order, within `0..n`. */
  predicate Ordered(cuts: seq<int>, n: int) {
    && (forall i :: 0 <= i < |cuts| ==> 0 <= cuts[i] <= n)
    && (forall i, j :: 0 <= i <= j < |cuts| ==> cuts[i] <= cuts[j])
  }

  /** `v` are the `nprocs` runs of `ts` cut at `cuts` by the rule `RunCut`:
      contiguous, in order, covering every token, and each run the boxes of
      its tokens. */
  predicate IsDistribution(ts: seq<SFCToken>, nprocs: nat, v: seq<seq<int>>, cuts: seq<int>) {
    && |v| == nprocs && |cuts| == nprocs + 1
    && cuts[0] == 0 && cuts[nprocs] == |ts|
    && Ordered(cuts, |ts|)
    && (forall i :: 0 <= i < nprocs ==> v[i] == TokenBoxes(ts[cuts[i]..cuts[i + 1]]))
    && (forall i :: 0 <= i < nprocs ==> RunCut(ts, nprocs, i, cuts[i], cuts[i + 1]))
  }

  /** The source's `Distribute` (the per-rank share `volpercpu` is compared by
      cross-multiplication, exactly). `v[i]` lists the boxes of run `i`;
      `cuts` are the run boundaries. */
  method Distribute(ts: seq<SFCToken>, nprocs: nat) returns (v: seq<seq<int>>, cuts: seq<int>)
    requires nprocs >= 1
    ensures IsDistribution(ts, nprocs, v, cuts)
    ensures Flatten(v) == TokenBoxes(ts)
  {
    var total := Sum(Vols(ts));
    assert ts[0..|ts|] == ts;
    v, cuts := [], [0];
    var k, totalvol := 0, 0;
    var i := 0;
    while i < nprocs
      invariant 0 <= i <= nprocs && |v| == i && 0 <= k <= |ts|
      invariant RunsSoFar(ts, nprocs, v, cuts) && cuts[i] == k
      invariant totalvol == Vol(ts, 0, k)
      invariant i == nprocs ==> k == |ts|
    {
      var run;
      run, k, totalvol := NextRun(ts, nprocs, total, i, k, totalvol);
      ExtendRuns(ts, nprocs, v, cuts, run, k);
      v, cuts := v + [run], cuts + [k];
      i := i + 1;
    }
    assert ts[..|ts|] == ts;
  }

  /** One pass of the source's outer loop: run `i`, begun at `lo`, is filled
      greedily, then gives its last token back when the runs so far weigh more
      than `i + 1` shares, it holds more than one token and tokens remain. */
  method NextRun(ts: seq<SFCToken>, nprocs: nat, total: int, i: int, lo: int, totalvol: int)
    returns (run: seq<int>, hi: int, totalvol': int)
    requires nprocs >= 1 && 0 <= i < nprocs && 0 <= lo <= |ts|
    requires total == Total(ts) && totalvol == Vol(ts, 0, lo)
    ensures lo <= hi <= |ts| && totalvol' == Vol(ts, 0, hi)
    ensures run == TokenBoxes(ts[lo..hi])
    ensures RunCut(ts, nprocs, i, lo, hi)
    ensures TokenBoxes(ts[..hi]) == TokenBoxes(ts[..lo]) + run
  {
    var e, vol;
    e, vol, run := GreedyRun(ts, nprocs, total, lo, i == nprocs - 1);
    var cnt := e - lo;
    hi := e;
    VolSplit(ts, 0, lo, e);
    totalvol' := totalvol + vol;
    var popped := totalvol' * nprocs > total * (i + 1) && cnt > 1 && hi < |ts|;
    if popped {
      hi := hi - 1;
      run := run[..|run| - 1];
      totalvol' := totalvol' - ts[hi].vol;
      VolStep(ts, 0, hi);
    }
    CutFacts(ts, nprocs, i, lo, e, hi, popped, run);
  }

  /** The runs `v`, cut at `cuts`, are the first `|v|` runs of `Distribute`. */
  predicate RunsSoFar(ts: seq<SFCToken>, nprocs: nat, v: seq<seq<int>>, cuts: seq<int>) {
    && |cuts| == |v| + 1 && cuts[0] == 0
    && Ordered(cuts, |ts|)
    && (forall j :: 0 <= j < |v| ==> v[j] == TokenBoxes(ts[cuts[j]..cuts[j + 1]]))
    && (forall j :: 0 <= j < |v| ==> RunCut(ts, nprocs, j, cuts[j], cuts[j + 1]))
    && Flatten(v) == TokenBoxes(ts[..cuts[|v|]])
  }

  lemma ExtendRuns(ts: seq<SFCToken>, nprocs: nat, v: seq<seq<int>>, cuts: seq<int>, run: seq<int>, hi: int)
    requires RunsSoFar(ts, nprocs, v, cuts)
    requires cuts[|v|] <= hi <= |ts|
    requires run == TokenBoxes(ts[cuts[|v|]..hi])
    requires RunCut(ts, nprocs, |v|, cuts[|v|], hi)
    requires TokenBoxes(ts[..hi]) == TokenBoxes(ts[..cuts[|v|]]) + run
    ensures RunsSoFar(ts, nprocs, v + [run], cuts + [hi])
  {
    var v', cuts' := v + [run], cuts + [hi];
    OrderedSnoc(cuts, |ts|, hi);
    FlattenAppend(v, [run]);
    assert Flatten([run]) == run + Flatten([run][1..]);
    forall j | 0 <= j < |v'|
      ensures v'[j] == TokenBoxes(ts[cuts'[j]..cuts'[j + 1]])
      ensures RunCut(ts, nprocs, j, cuts'[j], cuts'[j + 1])
    {
      if j < |v| {
        assert v'[j] == v[j] && cuts'[j] == cuts[j] && cuts'[j + 1] == cuts[j + 1];
      }
    }
  }

  /** A boundary at or past the last keeps the boundaries in order. */
  lemma OrderedSnoc(cuts: seq<int>, n: int, x: int)
    requires Ordered(cuts, n) && |cuts| > 0 && cuts[|cuts| - 1] <= x <= n
    ensures Ordered(cuts + [x], n)
  {
    var c := cuts + [x];
    forall i, j | 0 <= i <= j < |c|
      ensures c[i] <= c[j]
    {
      if j == |cuts| && i < j {
        assert c[i] == cuts[i] <= cuts[|cuts| - 1];
      }
    }
  }

  /** The source's inner loop: from `lo`, take tokens while any remain and,
      unless this is the last rank, while the run is below the share. */
  method GreedyRun(ts: seq<SFCToken>, nprocs: nat, total: int, lo: int, last: bool)
    returns (e: int, vol: int, run: seq<int>)
    requires nprocs >= 1 && 0 <= lo <= |ts| && total == Total(ts)
    ensures lo <= e <= |ts| && vol == Vol(ts, lo, e) && run == TokenBoxes(ts[lo..e])
    ensures last ==> e == |ts|
    ensures !last ==> GreedyStop(ts, nprocs, lo, e)
  {
    e, vol, run := lo, 0, [];
    while e < |ts| && (last || vol * nprocs < total)
      invariant lo <= e <= |ts| && vol == Vol(ts, lo, e) && run == TokenBoxes(ts[lo..e])
      invariant !last ==> forall p :: lo <= p < e ==> Vol(ts, lo, p) * nprocs < total
    {
      VolStep(ts, lo, e);
      assert ts[lo..e + 1] == ts[lo..e] + [ts[e]];
      TokenBoxesAppend(ts[lo..e], [ts[e]]);
      vol := vol + ts[e].vol;
      run := run + [ts[e].box];
      e := e + 1;
    }
  }

  /** What one pass of the outer loop establishes about the run it closes. */
  lemma CutFacts(ts: seq<SFCToken>, nprocs: nat, i: int, lo: int, e: int, hi: int,
                 popped: bool, run: seq<int>)
    requires nprocs >= 1 && 0 <= i < nprocs && 0 <= lo <= e <= |ts|
    requires i == nprocs - 1 ==> e == |ts|
    requires i != nprocs - 1 ==> GreedyStop(ts, nprocs, lo, e)
    requires popped <==> (Vol(ts, 0, e) * nprocs > Total(ts) * (i + 1) && e - lo > 1 && e < |ts|)
    requires hi == if popped then e - 1 else e
    requires run == if popped then TokenBoxes(ts[lo..e])[..e - lo - 1] else TokenBoxes(ts[lo..e])
    ensures lo <= hi <= |ts|
    ensures run == TokenBoxes(ts[lo..hi])
    ensures RunCut(ts, nprocs, i, lo, hi)
    ensures TokenBoxes(ts[..hi]) == TokenBoxes(ts[..lo]) + run
  {
    if popped {
      assert ts[lo..e] == ts[lo..hi] + [ts[hi]];
      TokenBoxesAppend(ts[lo..hi], [ts[hi]]);
    }
    assert ts[..hi] == ts[..lo] + ts[lo..hi];
    TokenBoxesAppend(ts[..lo], ts[lo..hi]);
  }

  // ---------------------------------------------------------------------
  // What the cut rule means

  /** A greedy run has only one stopping point. */
  lemma GreedyStopUnique(ts: seq<SFCToken>, nprocs: nat, lo: int, e1: int, e2: int)
    requires 0 <= lo <= |ts|
    requires GreedyStop(ts, nprocs, lo, e1) && GreedyStop(ts, nprocs, lo, e2)
    ensures e1 == e2
  {
  }

  /** The cut rule fixes where every run ends: given where run `i` starts,
      there is one place it can stop. */
  lemma RunCutUnique(ts: seq<SFCToken>, nprocs: nat, i: int, lo: int, h1: int, h2: int)
    requires 0 <= lo <= |ts|
    requires RunCut(ts, nprocs, i, lo, h1) && RunCut(ts, nprocs, i, lo, h2)
    ensures h1 == h2
  {
    if i != nprocs - 1 {
      var e1 := if GreedyStop(ts, nprocs, lo, h1) && !HandsBack(ts, nprocs, i, lo, h1) then h1 else h1 + 1;
      var e2 := if GreedyStop(ts, nprocs, lo, h2) && !HandsBack(ts, nprocs, i, lo, h2) then h2 else h2 + 1;
      GreedyStopUnique(ts, nprocs, lo, e1, e2);
    }
  }

  /** Every run but the last is balanced from both sides: without its last
      token it is below the share, and with the next token (if it gave one
      back) it reaches the share whenever tokens remain after it. A run is
      empty exactly when the total weight is not positive. */
  lemma RunBounds(ts: seq<SFCToken>, nprocs: nat, i: int, lo: int, hi: int)
    requires nprocs >= 1 && 0 <= i < nprocs - 1 && 0 <= lo <= |ts|
    requires RunCut(ts, nprocs, i, lo, hi)
    ensures lo <= hi <= |ts|
    ensures lo < hi ==> Vol(ts, lo, hi - 1) * nprocs < Total(ts)
    ensures hi < |ts| ==>
      Vol(ts, lo, hi) * nprocs >= Total(ts) || Vol(ts, lo, hi + 1) * nprocs >= Total(ts)
    ensures lo < |ts| ==> (lo < hi <==> Total(ts) > 0)
  {
    assert Vol(ts, lo, lo) == 0;
  }
}

=== FILE: geometry.dfy ===
/** Boxes of the index space, as far as the distribution strategies look at
    them: their lower corner (the space-filling curve's anchor) and their
    number of cells (the default weight). */
module Geometry {

  /** An index box: lower and upper corner, one coordinate per dimension. */
  datatype Box = Box(small: seq<int>, big: seq<int>)

  /** A box the index space can hold: corners of the same dimension, the
      upper corner not below the lower one in any direction. */
  predicate ValidBox(b: Box) {
    |b.small| == |b.big| && forall d :: 0 <= d < |b.small| ==> b.small[d] <= b.big[d]
  }

  /** The product of the box's extents from dimension `d` on. */
  function Extents(b: Box, d: nat): (r: int)
    requires ValidBox(b) && d <= |b.small|
    ensures r >= 1
    decreases |b.small| - d
  {
    if d == |b.small| then 1 else (b.big[d] - b.small[d] + 1) * Extents(b, d + 1)
  }

  /** The number of cells of a box (BoxLib's `numPts`). */
  function NumPts(b: Box): (r: int)
    requires ValidBox(b)
    ensures r >= 1
  {
    Extents(b, 0)
  }

  /** The cell count of every box: the weights the strategies use when the
      caller gives none. */
  function Volumes(boxes: seq<Box>): (r: seq<int>)
    requires forall i :: 0 <= i < |boxes| ==> ValidBox(boxes[i])
    ensures |r| == |boxes|
    ensures forall i :: 0 <= i < |boxes| ==> r[i] == NumPts(boxes[i]) && r[i] >= 1
  {
    seq(|boxes|, i requires 0 <= i < |boxes| => NumPts(boxes[i]))
  }
}

=== FILE: knapsack.dfy ===
/** The knapsack strategy: boxes, heaviest first, go one by one into a
    lightest bin (one bin per rank); then, while the balance is below the
    target efficiency, the first exchange of a box of the heaviest bin with a
    box of another bin that makes both lighter than the heaviest bin was is
    applied. */
module Knapsack {
  import opened Base
  import opened Ordering
  import opened Bins
  import opened Assign
  import opened RoundRobin

  // ---------------------------------------------------------------------
  // Efficiency

  /** The source's `efficiency`, kept as the exact quotient
      `num / den` = total weight / (number of bins * heaviest bin). */
  datatype Ratio = Ratio(num: int, den: int)

  /** The efficiency of a heaviest-first list of bins. */
  function Efficiency(bins: seq<seq<WeightedBox>>): Ratio
    requires |bins| > 0
  {
    Ratio(Total(bins), |bins| * Weight(bins[0]))
  }

  /** `num / den > maxEff` in floating point: a zero denominator gives an
      infinity of the numerator's sign, or not-a-number (which compares
      false) when the numerator is zero too. */
  predicate Exceeds(e: Ratio, maxEff: real) {
    if e.den > 0 then e.num as real > maxEff * e.den as real
    else if e.den < 0 then e.num as real < maxEff * e.den as real
    else e.num > 0
  }

  // ---------------------------------------------------------------------
  // Greedy placement

  /** The first lightest of the bin weights `ws` (the priority queue's top;
      among equally light bins the queue's choice is unspecified, and the
      model takes the first). */
  function Lightest(ws: seq<int>): (k: nat)
    requires |ws| > 0
    ensures k < |ws|
    ensures forall j :: 0 <= j < |ws| ==> ws[k] <= ws[j]
    ensures forall j :: 0 <= j < k ==> ws[j] > ws[k]
  {
    if |ws| == 1 then 0
    else
      var k := Lightest(ws[1..]);
      if ws[0] <= ws[k + 1] then 0 else k + 1
  }

  /** The heaviest item weight, or zero for no items. */
  function MaxItem(items: seq<WeightedBox>): (m: int)
    ensures m >= 0
  {
    if |items| == 0 then 0
    else
      var m := MaxItem(items[1..]);
      if items[0].weight > m then items[0].weight else m
  }

  lemma {:induction false} MaxItemBounds(items: seq<WeightedBox>)
    ensures forall k :: 0 <= k < |items| ==> items[k].weight <= MaxItem(items)
  {
    if |items| > 0 {
      MaxItemBounds(items[1..]);
      forall k | 1 <= k < |items|
        ensures items[k].weight <= MaxItem(items)
      {
        assert items[k] == items[1..][k - 1];
      }
    }
  }

  /** No two bins differ in weight by more than `m`. */
  predicate SpreadAtMost(bins: seq<seq<WeightedBox>>, m: int) {
    forall i, j :: 0 <= i < |bins| && 0 <= j < |bins| ==> Weight(bins[i]) - Weight(bins[j]) <= m
  }

  /** The source's first phase: each item in turn is appended to a lightest
      bin. With non-negative weights, the bins never differ by more than the
      heaviest item. */
  method Greedy(items: seq<WeightedBox>, nprocs: nat) returns (bins: seq<seq<WeightedBox>>)
    requires nprocs >= 1
    requires forall k :: 0 <= k < |items| ==> items[k].weight >= 0
    ensures |bins| == nprocs
    ensures multiset(Flatten(bins)) == multiset(items)
    ensures SpreadAtMost(bins, MaxItem(items))
  {
    var m := MaxItem(items);
    bins := seq(nprocs, _ => []);
    EmptyBins(bins);
    var i := 0;
    while i < |items|
      invariant 0 <= i <= |items| && |bins| == nprocs
      invariant multiset(Flatten(bins)) == multiset(items[..i])
      invariant SpreadAtMost(bins, m)
    {
      var x := items[i];
      assert 0 <= x.weight <= m by {
        MaxItemBounds(items);
      }
      var k := LightestBin(bins);
      AppendToBin(bins, k, x, m);
      bins := bins[k := bins[k] + [x]];
      assert items[..i + 1] == items[..i] + [x];
      i := i + 1;
    }
    assert items[..i] == items;
  }

  /** A lightest bin. */
  function LightestBin(bins: seq<seq<WeightedBox>>): (k: nat)
    requires |bins| > 0
    ensures k < |bins|
    ensures forall j :: 0 <= j < |bins| ==> Weight(bins[k]) <= Weight(bins[j])
  {
    var ws := BinWeights(bins);
    var k := Lightest(ws);
    assert forall j :: 0 <= j < |bins| ==> ws[k] <= ws[j];
    k
  }

  lemma {:induction false} EmptyBins(bins: seq<seq<WeightedBox>>)
    requires forall i :: 0 <= i < |bins| ==> bins[i] == []
    ensures Flatten(bins) == []
    ensures SpreadAtMost(bins, 0)
  {
    if |bins| > 0 {
      EmptyBins(bins[1..]);
    }
  }

  /** Appending an item to a lightest bin adds it to the boxes held and keeps
      the spread within any bound the item respects. */
  lemma AppendToBin(bins: seq<seq<WeightedBox>>, k: int, x: WeightedBox, m: int)
    requires 0 <= k < |bins| && 0 <= x.weight <= m
    requires forall j :: 0 <= j < |bins| ==> Weight(bins[k]) <= Weight(bins[j])
    requires SpreadAtMost(bins, m)
    ensures multiset(Flatten(bins[k := bins[k] + [x]])) == multiset(Flatten(bins)) + multiset{x}
    ensures SpreadAtMost(bins[k := bins[k] + [x]], m)
  {
    var after := bins[k := bins[k] + [x]];
    FlattenSplit(bins, k);
    FlattenSplit(after, k);
    assert after[..k] == bins[..k] && after[k + 1..] == bins[k + 1..];
    assert Weight(after[k]) == Weight(bins[k]) + x.weight by {
      WeightAppend(bins[k], [x]);
      assert [x][1..] == [];
    }
  }

  // ---------------------------------------------------------------------
  // Local search

  /** Exchanging box `a` of the heaviest bin with box `b` of bin `c` leaves
      both bins lighter than the heaviest bin was (the source's test
      `w_tb < top && w_ob < top`). */
  predicate Improves(bins: seq<seq<WeightedBox>>, a: int, c: int, b: int) {
    && |bins| > 0 && 0 <= a < |bins[0]| && 1 <= c < |bins| && 0 <= b < |bins[c]|
    && Weight(bins[0]) + bins[c][b].weight - bins[0][a].weight < Weight(bins[0])
    && Weight(bins[c]) + bins[0][a].weight - bins[c][b].weight < Weight(bins[0])
  }

  /** No exchange improves the bins. */
  predicate NoImprovingSwap(bins: seq<seq<WeightedBox>>) {
    |bins| > 0 ==>
      forall a, c, b :: 0 <= a < |bins[0]| && 1 <= c < |bins| && 0 <= b < |bins[c]| ==>
        !Improves(bins, a, c, b)
  }

  /** The source's scan order: boxes of the heaviest bin in list order, then
      the other bins in list order, then their boxes in list order. */
  predicate ScannedBefore(a': int, c': int, b': int, a: int, c: int, b: int) {
    a' < a || (a' == a && (c' < c || (c' == c && b' < b)))
  }

  /** The source's triple loop: the first improving exchange in scan order,
      if there is one. */
  method FindSwap(bins: seq<seq<WeightedBox>>) returns (found: bool, a: int, c: int, b: int)
    requires |bins| > 0
    ensures found ==> Improves(bins, a, c, b)
    ensures found ==> forall a', c', b' :: ScannedBefore(a', c', b', a, c, b) ==> !Improves(bins, a', c', b')
    ensures !found ==> NoImprovingSwap(bins)
  {
    var top := Weight(bins[0]);
    a := 0;
    while a < |bins[0]|
      invariant 0 <= a <= |bins[0]|
      invariant forall a', c', b' :: a' < a ==> !Improves(bins, a', c', b')
    {
      c := 1;
      while c < |bins|
        invariant 1 <= c <= |bins|
        invariant forall a', c', b' :: a' < a ==> !Improves(bins, a', c', b')
        invariant forall c', b' :: c' < c ==> !Improves(bins, a, c', b')
      {
        b := 0;
        while b < |bins[c]|
          invariant 0 <= b <= |bins[c]|
          invariant forall a', c', b' :: a' < a ==> !Improves(bins, a', c', b')
          invariant forall c', b' :: c' < c ==> !Improves(bins, a, c', b')
          invariant forall b' :: b' < b ==> !Improves(bins, a, c, b')
        {
          var wtb := top + bins[c][b].weight - bins[0][a].weight;
          var wob := Weight(bins[c]) + bins[0][a].weight - bins[c][b].weight;
          if wtb < top && wob < top {
            found := true;
            return;
          }
          b := b + 1;
        }
        c := c + 1;
      }
      a := a + 1;
    }
    found, a, c, b := false, 0, 0, 0;
  }

  /** The heaviest bin after the exchange: its box `a` taken out, the other
      bin's box `b` appended. */
  function NewTop(bins: seq<seq<WeightedBox>>, a: int, c: int, b: int): seq<WeightedBox>
    requires Improves(bins, a, c, b)
  {
    RemoveAt(bins[0], a) + [bins[c][b]]
  }

  /** Bin `c` after the exchange. */
  function NewChk(bins: seq<seq<WeightedBox>>, a: int, c: int, b: int): seq<WeightedBox>
    requires Improves(bins, a, c, b)
  {
    RemoveAt(bins[c], b) + [bins[0][a]]
  }

  /** The two exchanged bins, heaviest first (the source's `tmp.sort()`,
      which is stable). */
  function Exchanged(bins: seq<seq<WeightedBox>>, a: int, c: int, b: int): seq<seq<WeightedBox>>
    requires Improves(bins, a, c, b)
  {
    var t, k := NewTop(bins, a, c, b), NewChk(bins, a, c, b);
    if Weight(k) > Weight(t) then [k, t] else [t, k]
  }

  /** The bins other than the heaviest and bin `c`, in their order. */
  function Others(bins: seq<seq<WeightedBox>>, c: int): seq<seq<WeightedBox>>
    requires 1 <= c < |bins|
  {
    bins[1..c] + bins[c + 1..]
  }

  /** The bins after exchanging box `a` of the heaviest bin with box `b` of
      bin `c`: the two bins are taken out and merged back. */
  function Swapped(bins: seq<seq<WeightedBox>>, a: int, c: int, b: int): seq<seq<WeightedBox>>
    requires Improves(bins, a, c, b)
  {
    Merge(Others(bins, c), Exchanged(bins, a, c, b))
  }

  /** An improving exchange keeps the boxes, the total weight and the
      heaviest-first order, never makes the heaviest bin heavier, and leaves
      fewer bins at the old maximum weight. */
  lemma SwapImproves(bins: seq<seq<WeightedBox>>, a: int, c: int, b: int)
    requires Sorted(bins) && Improves(bins, a, c, b)
    ensures var r := Swapped(bins, a, c, b);
      && |r| == |bins| && Sorted(r)
      && Total(r) == Total(bins)
      && multiset(Flatten(r)) == multiset(Flatten(bins))
      && Weight(r[0]) <= Weight(bins[0])
      && CountAt(r, Weight(bins[0])) < CountAt(bins, Weight(bins[0]))
  {
    var tmp := Exchanged(bins, a, c, b);
    ExchangedFacts(bins, a, c, b);
    assert Swapped(bins, a, c, b) == Merge(Others(bins, c), tmp);
    MergeBackContents(bins, c, tmp);
    MergeBackOrder(bins, c, tmp);
    MergeBackCount(bins, c, tmp);
  }

  /** The two exchanged bins are heaviest first, both lighter than the old
      heaviest bin, and hold together what the two bins held. */
  lemma ExchangedFacts(bins: seq<seq<WeightedBox>>, a: int, c: int, b: int)
    requires Improves(bins, a, c, b)
    ensures var tmp := Exchanged(bins, a, c, b);
      && |tmp| == 2 && Sorted(tmp)
      && Weight(tmp[0]) < Weight(bins[0]) && Weight(tmp[1]) < Weight(bins[0])
      && Weight(tmp[0]) + Weight(tmp[1]) == Weight(bins[0]) + Weight(bins[c])
      && multiset(tmp[0]) + multiset(tmp[1]) == multiset(bins[0]) + multiset(bins[c])
  {
    ExchangedBins(bins[0], bins[c], a, b, Weight(bins[0]));
  }

  /** Two bins that replace the heaviest bin and bin `c`. */
  predicate Replaces(bins: seq<seq<WeightedBox>>, c: int, tmp: seq<seq<WeightedBox>>) {
    && 1 <= c < |bins| && |tmp| == 2
    && Weight(tmp[0]) + Weight(tmp[1]) == Weight(bins[0]) + Weight(bins[c])
    && multiset(tmp[0]) + multiset(tmp[1]) == multiset(bins[0]) + multiset(bins[c])
  }

  /** The bins lined up with the replacement. */
  lemma OthersArrangement(bins: seq<seq<WeightedBox>>, c: int)
    requires 1 <= c < |bins|
    ensures multiset(bins) == multiset(Others(bins, c) + [bins[0], bins[c]])
  {
    assert bins == [bins[0]] + bins[1..c] + [bins[c]] + bins[c + 1..];
    assert multiset(bins) == multiset([bins[0]]) + multiset(bins[1..c]) + multiset([bins[c]]) + multiset(bins[c + 1..]);
  }

  lemma MergeBackContents(bins: seq<seq<WeightedBox>>, c: int, tmp: seq<seq<WeightedBox>>)
    requires Replaces(bins, c, tmp)
    ensures |Merge(Others(bins, c), tmp)| == |bins|
    ensures Total(Merge(Others(bins, c), tmp)) == Total(bins)
    ensures multiset(Flatten(Merge(Others(bins, c), tmp))) == multiset(Flatten(bins))
  {
    OthersArrangement(bins, c);
    MergeBackTotal(bins, c, tmp);
    MergeBackBoxes(bins, c, tmp);
  }

  lemma MergeBackTotal(bins: seq<seq<WeightedBox>>, c: int, tmp: seq<seq<WeightedBox>>)
    requires Replaces(bins, c, tmp)
    requires multiset(bins) == multiset(Others(bins, c) + [bins[0], bins[c]])
    ensures Total(Merge(Others(bins, c), tmp)) == Total(bins)
  {
    var rest, r := Others(bins, c), Merge(Others(bins, c), tmp);
    var top, chk := bins[0], bins[c];
    TotalPermutation(bins, rest + [top, chk]);
    TotalPermutation(r, rest + tmp);
    TotalAppend(rest, tmp);
    TotalAppend(rest, [top, chk]);
    assert Total(tmp) == Weight(tmp[0]) + (Weight(tmp[1]) + Total(tmp[2..]));
    assert Total([top, chk]) == Weight(top) + (Weight(chk) + Total([top, chk][2..]));
  }

  lemma MergeBackBoxes(bins: seq<seq<WeightedBox>>, c: int, tmp: seq<seq<WeightedBox>>)
    requires Replaces(bins, c, tmp)
    requires multiset(bins) == multiset(Others(bins, c) + [bins[0], bins[c]])
    ensures multiset(Flatten(Merge(Others(bins, c), tmp))) == multiset(Flatten(bins))
  {
    var rest, r := Others(bins, c), Merge(Others(bins, c), tmp);
    var top, chk := bins[0], bins[c];
    SwapKeepsBoxes(r, rest, tmp, top, chk);
    FlattenPermutation(bins, rest + [top, chk]);
  }

  /** Replacing two bins by two others holding the same boxes, in any bin
      order, keeps the boxes. */
  lemma SwapKeepsBoxes(r: seq<seq<WeightedBox>>, rest: seq<seq<WeightedBox>>, tmp: seq<seq<WeightedBox>>,
                       top: seq<WeightedBox>, chk: seq<WeightedBox>)
    requires |tmp| == 2 && multiset(r) == multiset(rest + tmp)
    requires multiset(tmp[0]) + multiset(tmp[1]) == multiset(top) + multiset(chk)
    ensures multiset(Flatten(r)) == multiset(Flatten(rest + [top, chk]))
  {
    FlattenPermutation(r, rest + tmp);
    BoxesOfPair(rest, tmp);
    BoxesOfPair(rest, [top, chk]);
  }

  lemma BoxesOfPair(rest: seq<seq<WeightedBox>>, pair: seq<seq<WeightedBox>>)
    requires |pair| == 2
    ensures multiset(Flatten(rest + pair)) == multiset(Flatten(rest)) + (multiset(pair[0]) + multiset(pair[1]))
  {
    FlattenAppend(rest, pair);
    assert Flatten(pair) == pair[0] + (pair[1] + Flatten(pair[2..]));
    assert Flatten(pair[2..]) == [];
  }



  lemma MergeBackOrder(bins: seq<seq<WeightedBox>>, c: int, tmp: seq<seq<WeightedBox>>)
    requires Sorted(bins) && 1 <= c < |bins| && Sorted(tmp) && AllAtMost(tmp, Weight(bins[0]))
    ensures Sorted(Merge(Others(bins, c), tmp))
    ensures AllAtMost(Merge(Others(bins, c), tmp), Weight(bins[0]))
  {
    var m := Weight(bins[0]);
    var rest := Others(bins, c);
    SortedRest(bins, c);
    MergeSorted(rest, tmp);
    assert AllAtMost(rest, m) by {
      forall i | 0 <= i < |rest|
        ensures Weight(rest[i]) <= m
      {
        if i < c - 1 { assert rest[i] == bins[i + 1]; } else { assert rest[i] == bins[i + 2]; }
      }
    }
    MergeBound(rest, tmp, m);
  }

  lemma MergeBackCount(bins: seq<seq<WeightedBox>>, c: int, tmp: seq<seq<WeightedBox>>)
    requires 1 <= c < |bins| && |tmp| == 2
    requires Weight(tmp[0]) < Weight(bins[0]) && Weight(tmp[1]) < Weight(bins[0])
    ensures CountAt(Merge(Others(bins, c), tmp), Weight(bins[0])) < CountAt(bins, Weight(bins[0]))
  {
    var rest, r := Others(bins, c), Merge(Others(bins, c), tmp);
    var top, chk := bins[0], bins[c];
    OthersArrangement(bins, c);
    WeightsPermutation(bins, rest + [top, chk]);
    WeightsPermutation(r, rest + tmp);
    WeightsOfPair(rest, tmp);
    WeightsOfPair(rest, [top, chk]);
  }

  lemma WeightsOfPair(rest: seq<seq<WeightedBox>>, pair: seq<seq<WeightedBox>>)
    requires |pair| == 2
    ensures multiset(BinWeights(rest + pair)) == multiset(BinWeights(rest)) + multiset{Weight(pair[0]), Weight(pair[1])}
  {
    assert BinWeights(rest + pair) == BinWeights(rest) + [Weight(pair[0]), Weight(pair[1])];
  }

  /** The two exchanged bins: their weights drop below `m` and together they
      hold the same boxes and weight as before. */
  lemma ExchangedBins(top: seq<WeightedBox>, chk: seq<WeightedBox>, a: int, b: int, m: int)
    requires 0 <= a < |top| && 0 <= b < |chk| && m == Weight(top)
    requires Weight(top) + chk[b].weight - top[a].weight < m
    requires Weight(chk) + top[a].weight - chk[b].weight < m
    ensures Weight(RemoveAt(top, a) + [chk[b]]) < m
    ensures Weight(RemoveAt(chk, b) + [top[a]]) < m
    ensures Weight(RemoveAt(top, a) + [chk[b]]) + Weight(RemoveAt(chk, b) + [top[a]])
            == Weight(top) + Weight(chk)
    ensures multiset(RemoveAt(top, a) + [chk[b]]) + multiset(RemoveAt(chk, b) + [top[a]])
            == multiset(top) + multiset(chk)
  {
    WeightRemoveAt(top, a);
    WeightRemoveAt(chk, b);
    RemoveAtMultiset(top, a);
    RemoveAtMultiset(chk, b);
    WeightAppend(RemoveAt(top, a), [chk[b]]);
    WeightAppend(RemoveAt(chk, b), [top[a]]);
    assert Weight([chk[b]]) == chk[b].weight by { assert [chk[b]][1..] == []; }
    assert Weight([top[a]]) == top[a].weight by { assert [top[a]][1..] == []; }
  }

  /** Taking the heaviest bin and bin `c` out of a heaviest-first list leaves
      a heaviest-first list. */
  lemma SortedRest(bins: seq<seq<WeightedBox>>, c: int)
    requires Sorted(bins) && 1 <= c < |bins|
    ensures Sorted(bins[1..c] + bins[c + 1..])
  {
    var rest := bins[1..c] + bins[c + 1..];
    forall i, j | 0 <= i < j < |rest|
      ensures Weight(rest[i]) >= Weight(rest[j])
    {
      var i' := if i < c - 1 then i + 1 else i + 2;
      var j' := if j < c - 1 then j + 1 else j + 2;
      assert rest[i] == bins[i'] && rest[j] == bins[j'];
    }
  }

  /** The loop between the source's `top` and `bottom` labels: while the
      efficiency is not above `maxEff` (and the full search is asked for),
      apply the first improving exchange. Each exchange lowers the heaviest
      bin or the number of bins at its weight, so the loop ends. */
  method LocalSearch(bins0: seq<seq<WeightedBox>>, maxEff: real, full: bool)
    returns (bins: seq<seq<WeightedBox>>)
    requires |bins0| >= 1 && Sorted(bins0)
    ensures |bins| == |bins0| && Sorted(bins)
    ensures Total(bins) == Total(bins0)
    ensures multiset(Flatten(bins)) == multiset(Flatten(bins0))
    ensures Weight(bins[0]) <= Weight(bins0[0])
    ensures !full ==> bins == bins0
    ensures full ==> Exceeds(Efficiency(bins), maxEff) || NoImprovingSwap(bins)
  {
    bins := bins0;
    while true
      invariant |bins| == |bins0| && Sorted(bins)
      invariant Total(bins) == Total(bins0)
      invariant multiset(Flatten(bins)) == multiset(Flatten(bins0))
      invariant Weight(bins[0]) <= Weight(bins0[0])
      invariant !full ==> bins == bins0
      decreases Weight(bins[0]) * |bins| - Total(bins), CountAt(bins, Weight(bins[0]))
    {
      MaxFirst(bins);
      TotalAtMost(bins, Weight(bins[0]));
      if Exceeds(Efficiency(bins), maxEff) || !full {
        break;
      }
      var found, a, c, b := FindSwap(bins);
      if !found {
        break;
      }
      var before := bins;
      SwapImproves(bins, a, c, b);
      bins := Swapped(bins, a, c, b);
      MaxFirst(bins);
      TotalAtMost(bins, Weight(bins[0]));
      ScaleDown(Weight(bins[0]), Weight(before[0]), |bins|);
    }
  }

  /** The local search never lowers the efficiency: the total is kept and
      the heaviest bin gets no heavier, so `after`'s quotient is at least
      `before`'s (compared by cross-multiplying). */
  lemma EfficiencyNeverDecreases(before: seq<seq<WeightedBox>>, after: seq<seq<WeightedBox>>)
    requires |before| == |after| > 0
    requires Total(after) == Total(before) >= 0
    requires Weight(after[0]) <= Weight(before[0])
    ensures var e0, e1 := Efficiency(before), Efficiency(after);
      e1.num * e0.den >= e0.num * e1.den
  {
    var t, n := Total(before), |before|;
    var w0, w1 := Weight(before[0]), Weight(after[0]);
    assert n * w1 <= n * w0 by {
      ScaleDown(w1, w0, n);
    }
    assert t * (n * w1) <= t * (n * w0) by {
      MultiplyKeepsOrder(t, n * w1, n * w0);
    }
  }

  lemma MultiplyKeepsOrder(t: int, x: int, y: int)
    requires t >= 0 && x <= y
    ensures t * x <= t * y
  {
    assert t * y - t * x == t * (y - x);
  }

  /** In a heaviest-first list no bin outweighs the first. */
  lemma MaxFirst(bins: seq<seq<WeightedBox>>)
    requires |bins| > 0 && Sorted(bins)
    ensures AllAtMost(bins, Weight(bins[0]))
  {
  }

  lemma ScaleDown(x: int, y: int, n: nat)
    requires x <= y && n >= 1
    ensures x * n <= y * n
    ensures x < y ==> x * n < y * n
  {
  }

  // ---------------------------------------------------------------------
  // The whole knapsack

  /** The boxes with their weights, in index order. */
  function Boxes(wgts: seq<int>): (r: seq<WeightedBox>)
    ensures |r| == |wgts|
    ensures forall i :: 0 <= i < |wgts| ==> r[i] == WeightedBox(i, wgts[i])
  {
    seq(|wgts|, i requires 0 <= i < |wgts| => WeightedBox(i, wgts[i]))
  }

  /** Sorted (weight, index) pairs as weighted boxes. */
  function ToBoxes(s: seq<LIpair>): (r: seq<WeightedBox>)
    ensures |r| == |s|
    ensures forall k :: 0 <= k < |s| ==> r[k] == WeightedBox(s[k].id, s[k].weight)
  {
    seq(|s|, k requires 0 <= k < |s| => WeightedBox(s[k].id, s[k].weight))
  }

  lemma {:induction false} ToBoxesPermutation(s: seq<LIpair>, t: seq<LIpair>)
    requires multiset(s) == multiset(t)
    ensures multiset(ToBoxes(s)) == multiset(ToBoxes(t))
    decreases |s|
  {
    assert |s| == |multiset(s)| == |t|;
    if |s| > 0 {
      var x := s[0];
      var pre, post := PermutationStep(s, t);
      ToBoxesPermutation(s[1..], pre + post);
      assert ToBoxes(t) == ToBoxes(pre) + [ToBoxes(t)[|pre|]] + ToBoxes(post);
      assert ToBoxes(pre + post) == ToBoxes(pre) + ToBoxes(post);
      assert ToBoxes(s) == [ToBoxes(s)[0]] + ToBoxes(s[1..]);
    }
  }

  /** The balance the greedy phase guarantees and the exchanges keep: the
      heaviest bin exceeds an even share of the total weight by at most the
      heaviest box. */
  predicate Balanced(bins: seq<seq<WeightedBox>>, wgts: seq<int>) {
    |bins| >= 1 && |bins| * Weight(bins[0]) <= Sum(wgts) + |bins| * MaxItem(Boxes(wgts))
  }

  /** With spread at most `m`, the first bin exceeds an even share of the
      total by at most `m`. */
  lemma SpreadBalance(bins: seq<seq<WeightedBox>>, m: int)
    requires |bins| >= 1 && SpreadAtMost(bins, m)
    ensures |bins| * Weight(bins[0]) <= Total(bins) + |bins| * m
  {
    assert forall j :: 0 <= j < |bins| ==> Weight(bins[j]) >= Weight(bins[0]) - m;
    TotalAtLeast(bins, Weight(bins[0]) - m);
    assert |bins| * (Weight(bins[0]) - m) == |bins| * Weight(bins[0]) - |bins| * m;
  }

  /** The source's `knapsack`: the boxes sorted heaviest first, packed
      greedily into `nprocs` bins, the bins sorted heaviest first and
      improved by exchanges. The bins partition the boxes; the efficiency is
      the total weight over `nprocs` times the heaviest bin. */
  method Pack(wgts: seq<int>, nprocs: nat, maxEff: real, full: bool)
    returns (bins: seq<seq<WeightedBox>>, efficiency: Ratio)
    requires nprocs >= 1
    requires forall i :: 0 <= i < |wgts| ==> wgts[i] >= 0
    ensures |bins| == nprocs && Sorted(bins)
    ensures multiset(Flatten(bins)) == multiset(Boxes(wgts))
    ensures IsPermutation(Flatten(BinIds(bins)), |wgts|)
    ensures efficiency == Efficiency(bins)
    ensures efficiency.num == Sum(wgts) && 0 <= efficiency.num <= efficiency.den
    ensures full ==> Exceeds(efficiency, maxEff) || NoImprovingSwap(bins)
    ensures !full ==> SpreadAtMost(bins, MaxItem(Boxes(wgts)))
    ensures Balanced(bins, wgts)
  {
    var items := ToBoxes(Sort(Indexed(wgts), true));
    assert multiset(items) == multiset(Boxes(wgts)) by {
      ToBoxesPermutation(Sort(Indexed(wgts), true), Indexed(wgts));
      assert ToBoxes(Indexed(wgts)) == Boxes(wgts);
    }
    forall k | 0 <= k < |items|
      ensures items[k].weight >= 0
    {
      assert items[k] in multiset(Boxes(wgts));
      var j := IndexOf(Boxes(wgts), items[k]);
    }
    var greedy := Greedy(items, nprocs);
    var sorted := SortBins(greedy);
    SortBinsSorted(greedy);
    BinsPermutation(sorted, greedy);
    bins := LocalSearch(sorted, maxEff, full);
    efficiency := Efficiency(bins);
    PackedContents(bins, wgts);
    SpreadPermutation(greedy, sorted, MaxItem(items));
    MaxItemPermutation(items, Boxes(wgts));
    SpreadBalance(sorted, MaxItem(items));
    MultiplyKeepsOrder(nprocs, Weight(bins[0]), Weight(sorted[0]));
  }

  /** What packing into bins says about the boxes' indices and weights. */
  lemma PackedContents(bins: seq<seq<WeightedBox>>, wgts: seq<int>)
    requires |bins| > 0 && multiset(Flatten(bins)) == multiset(Boxes(wgts))
    requires forall i :: 0 <= i < |wgts| ==> wgts[i] >= 0
    requires AllAtMost(bins, Weight(bins[0]))
    ensures IsPermutation(Flatten(BinIds(bins)), |wgts|)
    ensures Total(bins) == Sum(wgts)
    ensures 0 <= Total(bins) <= |bins| * Weight(bins[0])
  {
    BoxesPermutation(Flatten(bins), Boxes(wgts));
    BinIdsFlatten(bins);
    assert BoxIds(Boxes(wgts)) == Iota(|wgts|);
    TotalFlatten(bins);
    BoxesSum(wgts);
    TotalAtMost(bins, Weight(bins[0]));
  }

  lemma {:induction false} BoxesSum(wgts: seq<int>)
    requires forall i :: 0 <= i < |wgts| ==> wgts[i] >= 0
    ensures Weight(Boxes(wgts)) == Sum(wgts) >= 0
  {
    if |wgts| > 0 {
      var t := wgts[1..];
      BoxesSum(t);
      assert Weight(Boxes(wgts)) == wgts[0] + Weight(Boxes(wgts)[1..]);
      // `Boxes(wgts)[1..]` holds the same weights as `Boxes(t)`, with indices shifted.
      BoxesShift(wgts);
    }
  }

  lemma {:induction false} BoxesShift(wgts: seq<int>)
    requires |wgts| > 0
    ensures Weight(Boxes(wgts)[1..]) == Weight(Boxes(wgts[1..]))
  {
    SameWeights(Boxes(wgts)[1..], Boxes(wgts[1..]));
  }

  /** Two box lists with the same weights position by position weigh the same. */
  lemma {:induction false} SameWeights(s: seq<WeightedBox>, t: seq<WeightedBox>)
    requires |s| == |t| && forall k :: 0 <= k < |s| ==> s[k].weight == t[k].weight
    ensures Weight(s) == Weight(t)
  {
    if |s| > 0 {
      SameWeights(s[1..], t[1..]);
    }
  }

  /** Reordering bins keeps the spread. */
  lemma SpreadPermutation(xs: seq<seq<WeightedBox>>, ys: seq<seq<WeightedBox>>, m: int)
    requires multiset(xs) == multiset(ys) && SpreadAtMost(xs, m)
    ensures SpreadAtMost(ys, m)
  {
    forall i, j | 0 <= i < |ys| && 0 <= j < |ys|
      ensures Weight(ys[i]) - Weight(ys[j]) <= m
    {
      assert ys[i] in multiset(xs) && ys[j] in multiset(xs);
      var i' := IndexOf(xs, ys[i]);
      var j' := IndexOf(xs, ys[j]);
    }
  }

  /** Reordering boxes keeps the heaviest weight. */
  lemma MaxItemPermutation(s: seq<WeightedBox>, t: seq<WeightedBox>)
    requires multiset(s) == multiset(t)
    ensures MaxItem(s) == MaxItem(t)
  {
    MaxItemIsBound(s);
    MaxItemIsBound(t);
    MaxItemBounds(s);
    MaxItemBounds(t);
    if MaxItem(s) > 0 {
      var k :| 0 <= k < |s| && s[k].weight == MaxItem(s);
      assert s[k] in multiset(t);
      var k' := IndexOf(t, s[k]);
    }
    if MaxItem(t) > 0 {
      var k :| 0 <= k < |t| && t[k].weight == MaxItem(t);
      assert t[k] in multiset(s);
      var k' := IndexOf(s, t[k]);
    }
  }

  /** The heaviest weight is zero or the weight of some item. */
  lemma {:induction false} MaxItemIsBound(s: seq<WeightedBox>)
    ensures MaxItem(s) == 0 || exists k :: 0 <= k < |s| && s[k].weight == MaxItem(s)
  {
    if |s| > 0 {
      MaxItemIsBound(s[1..]);
      if MaxItem(s) != s[0].weight && MaxItem(s) != 0 {
        var k :| 0 <= k < |s[1..]| && s[1..][k].weight == MaxItem(s[1..]);
        assert s[k + 1].weight == MaxItem(s);
      }
    }
  }
}

=== FILE: knapsack_map.dfy ===
/** The knapsack strategy as a processor map: the knapsack's bins, ranked
    heaviest first, go to the least-used ranks; small problems fall back to
    round-robin. */
module KnapsackMap {
  import opened Base
  import opened Ordering
  import opened Bins
  import opened Assign
  import opened RoundRobin
  import opened Knapsack
  import opened Geometry

  /** Two boxes share a rank exactly when they share a group. */
  predicate SharesIff(pmap: seq<int>, groups: seq<seq<int>>, n: nat) {
    |pmap| > n &&
    forall g, x, y :: 0 <= g < |groups| && x in groups[g] && 0 <= x < n && 0 <= y < n ==>
      (pmap[x] == pmap[y] <==> y in groups[g])
  }

  /** The outcome of `KnapSackDoIt` for the bins `bins`: `nprocs` bins,
      heaviest first, holding exactly the weighted boxes; the bin ranked
      `i`-th heaviest sits on the `i`-th least-used rank, two boxes share a
      rank exactly when they share a bin, the heaviest bin exceeds an even
      share by at most the heaviest box, and with the full search the
      exchange loop stopped at the target efficiency or for want of an
      improving exchange. */
  predicate PackedInto(pmap: seq<int>, wgts: seq<int>, nprocs: nat, load: Option<seq<int>>,
                       maxEff: real, full: bool, bins: seq<seq<WeightedBox>>)
    requires nprocs >= 1
    requires load.Some? ==> |load.value| == nprocs
  {
    && |bins| == nprocs && Sorted(bins)
    && multiset(Flatten(bins)) == multiset(Boxes(wgts))
    && IsPartition(BinIds(bins), |wgts|)
    && GroupsPlaced(pmap, BinIds(bins), HeaviestFirst(GroupLoads(BinIds(bins), wgts)),
                    LeastUsedCPUs(nprocs, load))
    && SharesIff(pmap, BinIds(bins), |wgts|)
    && Balanced(bins, wgts)
    && (full ==> Exceeds(Efficiency(bins), maxEff) || NoImprovingSwap(bins))
  }

  /** Balance rules out piling three boxes of weight 5 onto one of two ranks:
      the heaviest bin stays below 15. */
  lemma OneRankPackingExcluded(bins: seq<seq<WeightedBox>>)
    requires |bins| == 2 && Balanced(bins, [5, 5, 5])
    ensures Weight(bins[0]) < 15
  {
    var b := Boxes([5, 5, 5]);
    assert b == [WeightedBox(0, 5), WeightedBox(1, 5), WeightedBox(2, 5)];
    assert MaxItem(b[2..]) == 5;
    assert MaxItem(b) == 5;
    assert Sum([5, 5, 5]) == 15;
  }

  /** The map is one `KnapSackDoIt` produces, for some packing. */
  ghost predicate KnapsackMapped(pmap: seq<int>, wgts: seq<int>, nprocs: nat, load: Option<seq<int>>,
                                 maxEff: real, full: bool)
    requires nprocs >= 1
    requires load.Some? ==> |load.value| == nprocs
  {
    exists bins :: PackedInto(pmap, wgts, nprocs, load, maxEff, full, bins)
  }

  /** The source's `KnapSackDoIt`: pack the boxes into one bin per rank, then
      give the bin ranked `i`-th heaviest to the `i`-th least-used rank. */
  method KnapSackDoIt(wgts: seq<int>, nprocs: nat, load: Option<seq<int>>, myProc: int,
                      maxEff: real, full: bool)
    returns (pmap: seq<int>, efficiency: Ratio, bins: seq<seq<WeightedBox>>)
    requires nprocs >= 1
    requires forall i :: 0 <= i < |wgts| ==> wgts[i] >= 0
    requires load.Some? ==> |load.value| == nprocs
    ensures ValidMap(pmap, |wgts|, nprocs) && pmap[|wgts|] == myProc
    ensures |bins| == nprocs && Sorted(bins)
    ensures multiset(Flatten(bins)) == multiset(Boxes(wgts))
    ensures IsPartition(BinIds(bins), |wgts|)
    ensures GroupsPlaced(pmap, BinIds(bins), HeaviestFirst(GroupLoads(BinIds(bins), wgts)),
                         LeastUsedCPUs(nprocs, load))
    ensures SharesIff(pmap, BinIds(bins), |wgts|)
    ensures efficiency == Efficiency(bins)
    ensures efficiency.num == Sum(wgts) && 0 <= efficiency.num <= efficiency.den
    ensures full ==> Exceeds(efficiency, maxEff) || NoImprovingSwap(bins)
    ensures Balanced(bins, wgts)
  {
    bins, efficiency := Pack(wgts, nprocs, maxEff, full);
    var groups := BinIds(bins);
    PartitionFromFlatten(groups, |wgts|);
    pmap := AssignGroups(groups, wgts, load, myProc);
  }

  /** The source's `KnapSackProcessorMap(wgts, nprocs, efficiency, full)`:
      with no more boxes than ranks, or a single rank, the boxes are dealt out
      round-robin in index order and the efficiency is one; otherwise the
      knapsack decides. */
  method KnapSackByWeight(wgts: seq<int>, nprocs: nat, load: Option<seq<int>>, myProc: int,
                          maxEff: real, full: bool)
    returns (pmap: seq<int>, efficiency: Ratio)
    requires nprocs >= 1
    requires forall i :: 0 <= i < |wgts| ==> wgts[i] >= 0
    requires load.Some? ==> |load.value| == nprocs
    ensures ValidMap(pmap, |wgts|, nprocs) && pmap[|wgts|] == myProc
    ensures |wgts| <= nprocs || nprocs < 2 ==>
      efficiency == Ratio(1, 1) && DealtBy(pmap, Iota(|wgts|), LeastUsedCPUs(nprocs, load))
    ensures !(|wgts| <= nprocs || nprocs < 2) ==>
      (exists bins :: PackedInto(pmap, wgts, nprocs, load, maxEff, full, bins) &&
                      efficiency == Efficiency(bins)) &&
      efficiency.num == Sum(wgts) && 0 <= efficiency.num <= efficiency.den
  {
    if |wgts| <= nprocs || nprocs < 2 {
      pmap := RoundRobinByIndex(|wgts|, nprocs, load, myProc);
      efficiency := Ratio(1, 1);
    } else {
      var bins;
      pmap, efficiency, bins := KnapSackDoIt(wgts, nprocs, load, myProc, maxEff, full);
      assert PackedInto(pmap, wgts, nprocs, load, maxEff, full, bins);
    }
  }

  /** The source's `KnapSackProcessorMap(boxes, nprocs)`: the weights are the
      boxes' cell counts and the full search always runs; with no more boxes
      than ranks, or a single rank, the boxes are dealt out heaviest first. */
  method KnapSackByBoxes(boxes: seq<Box>, nprocs: nat, load: Option<seq<int>>, myProc: int,
                         maxEff: real)
    returns (pmap: seq<int>)
    requires nprocs >= 1
    requires forall i :: 0 <= i < |boxes| ==> ValidBox(boxes[i])
    requires load.Some? ==> |load.value| == nprocs
    ensures ValidMap(pmap, |boxes|, nprocs) && pmap[|boxes|] == myProc
    ensures |boxes| <= nprocs || nprocs < 2 ==>
      DealtBy(pmap, HeaviestFirst(Volumes(boxes)), LeastUsedCPUs(nprocs, load))
    ensures !(|boxes| <= nprocs || nprocs < 2) ==>
      KnapsackMapped(pmap, Volumes(boxes), nprocs, load, maxEff, true)
  {
    var wgts := Volumes(boxes);
    if |boxes| <= nprocs || nprocs < 2 {
      pmap := RoundRobinByWeight(wgts, nprocs, load, myProc);
    } else {
      var efficiency, bins;
      pmap, efficiency, bins := KnapSackDoIt(wgts, nprocs, load, myProc, maxEff, true);
      assert PackedInto(pmap, wgts, nprocs, load, maxEff, true, bins);
    }
  }

  // ---------------------------------------------------------------------
  // The weight a box is packed with

  /** `x` reduced to a 32-bit two's-complement integer. */
  function Int32(x: int): (r: int)
    ensures -0x8000_0000 <= r < 0x8000_0000
    ensures (r - x) % 0x1_0000_0000 == 0
  {
    (x + 0x8000_0000) % 0x1_0000_0000 - 0x8000_0000
  }

  /** The weights the knapsack packs as the source writes it: each 64-bit
      weight passes through the `int` parameter of the `WeightedBox`
      constructor before it is stored back in a 64-bit field. */
  function PackedWeightsAsWritten(wgts: seq<int>): (r: seq<int>)
    ensures |r| == |wgts|
    ensures forall i :: 0 <= i < |wgts| ==> r[i] == Int32(wgts[i])
    ensures forall i :: 0 <= i < |wgts| && -0x8000_0000 <= wgts[i] < 0x8000_0000 ==> r[i] == wgts[i]
  {
    seq(|wgts|, i requires 0 <= i < |wgts| => Int32(wgts[i]))
  }

  /** As written, a box of 2^31 cells is packed as the lightest box of all:
      with weights `[2^31, 1]` the heaviest-first order starts with box 1,
      while on the boxes' own weights it starts with box 0. */
  lemma TruncatedWeightReordersBoxes()
    ensures var w := [0x8000_0000, 1];
      && PackedWeightsAsWritten(w) == [-0x8000_0000, 1]
      && HeaviestFirst(w) == [0, 1]
      && HeaviestFirst(PackedWeightsAsWritten(w)) == [1, 0]
  {
    var w := [0x8000_0000, 1];
    var t := PackedWeightsAsWritten(w);
    assert t[0] == -0x8000_0000 && t[1] == 1;
    assert t == [-0x8000_0000, 1];
    TwoBoxOrder(w);
    TwoBoxOrder(t);
  }

  /** With two boxes of different weights, the heavier comes first. */
  lemma TwoBoxOrder(w: seq<int>)
    requires |w| == 2 && w[0] != w[1]
    ensures HeaviestFirst(w) == if w[0] > w[1] then [0, 1] else [1, 0]
  {
    var r := HeaviestFirst(w);
    PermutationFacts(r, 2);
    assert w[r[0]] > w[r[1]];
  }
}

=== FILE: manager.dfy ===
/** The distribution-mapping manager: the run-time settings, the choice of
    strategy, the cache of processor maps keyed by their length, and the
    ways a mapping is made (built by `define`, given explicitly, or
    concatenated from two others). */
module Manager {
  import opened Base
  import opened Ordering
  import opened Geometry
  import opened RoundRobin
  import opened KnapsackMap
  import opened Sfc

  // ---------------------------------------------------------------------
  // Strategies and settings

  datatype Strategy = ROUNDROBIN | KNAPSACK | SFC | PFC

  /** The name the `strategy` run-time parameter uses for each strategy. */
  function StrategyName(s: Strategy): string {
    match s
    case ROUNDROBIN => "ROUNDROBIN"
    case KNAPSACK => "KNAPSACK"
    case SFC => "SFC"
    case PFC => "PFC"
  }

  predicate IsStrategyName(name: string) {
    name == "ROUNDROBIN" || name == "KNAPSACK" || name == "SFC" || name == "PFC"
  }

  /** The name comparison of `Initialize`: a known name selects its strategy,
      any other name (a warning in the source) selects nothing. */
  function ParseStrategy(name: string): (r: Option<Strategy>)
    ensures r.Some? <==> IsStrategyName(name)
  {
    if name == "ROUNDROBIN" then Some(ROUNDROBIN)
    else if name == "KNAPSACK" then Some(KNAPSACK)
    else if name == "SFC" then Some(SFC)
    else if name == "PFC" then Some(PFC)
    else None
  }

  /** Parsing inverts naming, and nothing else parses. */
  lemma ParseStrategyIff(name: string, s: Strategy)
    ensures ParseStrategy(name) == Some(s) <==> StrategyName(s) == name
  {
  }

  /** The manager's static settings. `builder` is the member-function pointer
      `m_BuildMap` (`None` for the null pointer); `strategy` is
      `m_Strategy`, whose initial value is `SFC`. */
  datatype Settings = Settings(initialized: bool, strategy: Strategy, builder: Option<Strategy>,
                               verbose: bool, sfcThreshold: int, maxEfficiency: real)

  /** The settings before anything runs: SFC chosen, no builder installed,
      and the zero-initialized parameters. */
  const Start := Settings(false, SFC, None, false, 0, 0.0)

  /** A builder is installed and it is the chosen strategy's. */
  predicate BuilderReady(st: Settings) {
    st.builder == Some(st.strategy)
  }

  /** What the manager relies on: once initialized, the chosen strategy's
      builder is installed. */
  predicate SettingsOk(st: Settings) {
    st.initialized ==> BuilderReady(st)
  }

  /** The source's `strategy(how)` setter: it records the strategy and
      installs the matching builder. */
  function SetStrategy(st: Settings, how: Strategy): (r: Settings)
    ensures r.strategy == how && BuilderReady(r)
    ensures r.(strategy := st.strategy, builder := st.builder) == st
  {
    st.(strategy := how, builder := Some(how))
  }

  /** The `DistributionMapping` run-time parameters, each possibly absent. */
  datatype Params = Params(v: Option<bool>, verbose: Option<bool>, efficiency: Option<real>,
                           sfcThreshold: Option<int>, strategy: Option<string>)

  const NoParams := Params(None, None, None, None, None)

  function Query<T>(p: Option<T>, dflt: T): T {
    if p.Some? then p.value else dflt
  }

  /** The parameters other than the strategy read into fresh settings: the
      defaults are quiet, threshold 0 and efficiency 0.9, and `verbose`
      overrides `v`. The threshold is stored as given, without the clamping
      of the `SFC_Threshold` setter. */
  function ReadParams(st: Settings, p: Params): (r: Settings)
    ensures r.strategy == st.strategy && r.builder == st.builder && r.initialized == st.initialized
  {
    st.(verbose := Query(p.verbose, Query(p.v, false)),
        sfcThreshold := Query(p.sfcThreshold, 0),
        maxEfficiency := Query(p.efficiency, 0.9))
  }

  /** `Initialize` as the source writes it. An unknown strategy name only
      draws a warning: the strategy setter is not called, so no builder is
      installed when none was before. */
  function InitializeAsWritten(st: Settings, p: Params): (r: Settings)
    ensures r.initialized
    ensures st.initialized ==> r == st
  {
    if st.initialized then st
    else
      var s := ReadParams(st, p).(initialized := true);
      if p.strategy.None? then SetStrategy(s, s.strategy)
      else match ParseStrategy(p.strategy.value)
        case Some(how) => SetStrategy(s, how)
        case None => s
  }

  /** With no earlier call of the setter, a first `Initialize` with an
      unknown strategy name leaves the builder null, and it stays null:
      `Initialize` does nothing once initialized. The next `define` on more
      than one rank that misses the cache then fails its assertion that a
      builder is installed. */
  lemma UnknownStrategyLeavesNoBuilder(q: Params)
    ensures var st := InitializeAsWritten(Start, NoParams.(strategy := Some("SFCX")));
      && st.initialized && st.builder.None?
      && !SettingsOk(st)
      && InitializeAsWritten(st, q) == st
  {
    assert ParseStrategy("SFCX") == None;
  }

  /** `Initialize` with the evidently intended handling of an unknown name:
      the warning is given and the current strategy's builder installed, as
      when no name is given. */
  function Initialize(st: Settings, p: Params): (r: Settings)
    ensures r.initialized
    ensures st.initialized ==> r == st
  {
    if st.initialized then st
    else
      var s := ReadParams(st, p).(initialized := true);
      var how := if p.strategy.None? then s.strategy
                 else Query(ParseStrategy(p.strategy.value), s.strategy);
      SetStrategy(s, how)
  }

  /** After `Initialize` the chosen strategy's builder is installed, whatever
      the parameters: an unknown name keeps the current strategy, a known
      one selects itself. */
  lemma InitializeInstallsBuilder(st: Settings, p: Params)
    requires SettingsOk(st)
    ensures SettingsOk(Initialize(st, p)) && BuilderReady(Initialize(st, p))
    ensures !st.initialized && p.strategy.Some? ==>
      Initialize(st, p).strategy == Query(ParseStrategy(p.strategy.value), st.strategy)
    ensures !st.initialized && p.strategy.None? ==> Initialize(st, p).strategy == st.strategy
  {
  }

  /** With no parameters, a first `Initialize` gives the defaults. */
  lemma InitializeDefaults(st: Settings)
    requires !st.initialized
    ensures var r := Initialize(st, NoParams);
      && !r.verbose && r.sfcThreshold == 0 && r.maxEfficiency == 0.9
      && r.strategy == st.strategy && BuilderReady(r)
  {
  }

  /** The two versions of `Initialize` differ only on an unknown name. */
  lemma InitializeAgreesOnKnownNames(st: Settings, p: Params)
    requires p.strategy.Some? ==> IsStrategyName(p.strategy.value)
    ensures InitializeAsWritten(st, p) == Initialize(st, p)
  {
  }

  // ---------------------------------------------------------------------
  // The cache

  /** A shared processor map: `id` stands for the identity of the `Ref`
      object, `links` for its link count. */
  datatype Entry = Entry(id: nat, pmap: seq<int>, links: nat)

  /** A `DistributionMapping` value: the identity of the `Ref` it points to
      and that `Ref`'s processor map. */
  datatype Mapping = Mapping(id: nat, pmap: seq<int>)

  /** The manager's state: settings, the cache keyed by map length, and the
      identity the next new `Ref` gets. */
  datatype State = State(settings: Settings, cache: map<int, Entry>, nextId: nat)

  /** Every cached map has the length it is filed under and at least the
      cache's own link; identities are distinct and already handed out. */
  predicate CacheOk(s: State) {
    && (forall k :: k in s.cache ==> |s.cache[k].pmap| == k && s.cache[k].links >= 1
                                      && s.cache[k].id < s.nextId)
    && (forall k, l :: k in s.cache && l in s.cache && k != l ==> s.cache[k].id != s.cache[l].id)
  }

  predicate StateOk(s: State) {
    CacheOk(s) && SettingsOk(s.settings)
  }

  const Empty := State(Start, map[], 0)

  lemma EmptyOk()
    ensures StateOk(Empty) && Empty.cache == map[]
  {
  }

  /** The processor map the strategy's builder produces, as each builder's
      own contract describes it. The PFC builder is not modelled: its map is
      taken as given. */
  ghost predicate BuiltBy(how: Strategy, pmap: seq<int>, boxes: seq<Box>, nprocs: nat,
                          load: Option<seq<int>>, myProc: int, st: Settings, pfcMap: seq<int>)
    requires nprocs >= 1 && SameDim(boxes)
    requires forall i :: 0 <= i < |boxes| ==> ValidBox(boxes[i])
    requires load.Some? ==> |load.value| == nprocs
  {
    var small := |boxes| <= nprocs || nprocs < 2;
    match how
    case ROUNDROBIN =>
      ValidMap(pmap, |boxes|, nprocs) && pmap[|boxes|] == myProc &&
      DealtBy(pmap, HeaviestFirst(Volumes(boxes)), LeastUsedCPUs(nprocs, load))
    case KNAPSACK =>
      ValidMap(pmap, |boxes|, nprocs) && pmap[|boxes|] == myProc &&
      (small ==> DealtBy(pmap, HeaviestFirst(Volumes(boxes)), LeastUsedCPUs(nprocs, load))) &&
      (!small ==> KnapsackMapped(pmap, Volumes(boxes), nprocs, load, st.maxEfficiency, true))
    case SFC =>
      var back := FallsBack(|boxes|, nprocs, st.sfcThreshold);
      ValidMap(pmap, |boxes|, nprocs) && pmap[|boxes|] == myProc &&
      (back && small ==> DealtBy(pmap, HeaviestFirst(Volumes(boxes)), LeastUsedCPUs(nprocs, load))) &&
      (back && !small ==> KnapsackMapped(pmap, Volumes(boxes), nprocs, load, st.maxEfficiency, true)) &&
      (!back ==> CurveMap(pmap, boxes, Volumes(boxes), nprocs, load))
    case PFC => pmap == pfcMap
  }

  /** The call through `m_BuildMap`: the installed builder makes the map. */
  method Build(how: Strategy, st: Settings, boxes: seq<Box>, nprocs: nat,
               load: Option<seq<int>>, myProc: int, pfcMap: seq<int>)
    returns (pmap: seq<int>)
    requires nprocs >= 1 && SameDim(boxes)
    requires forall i :: 0 <= i < |boxes| ==> ValidBox(boxes[i])
    requires load.Some? ==> |load.value| == nprocs
    requires how == PFC ==> |pfcMap| == |boxes| + 1
    ensures |pmap| == |boxes| + 1
    ensures BuiltBy(how, pmap, boxes, nprocs, load, myProc, st, pfcMap)
  {
    match how
    case ROUNDROBIN =>
      pmap := RoundRobinByWeight(Volumes(boxes), nprocs, load, myProc);
    case KNAPSACK =>
      pmap := KnapSackByBoxes(boxes, nprocs, load, myProc, st.maxEfficiency);
    case SFC =>
      pmap := SfcByBoxes(boxes, nprocs, load, myProc, st.sfcThreshold, st.maxEfficiency);
    case PFC =>
      pmap := pfcMap;
  }

  /** The source's `GetMap`: the cached map for `nboxes` boxes, if any. */
  function GetMap(s: State, nboxes: nat): (r: Option<Entry>)
    requires CacheOk(s)
    ensures r.Some? <==> nboxes + 1 in s.cache
    ensures r.Some? ==> |r.value.pmap| == nboxes + 1 && r.value == s.cache[nboxes + 1]
  {
    if nboxes + 1 in s.cache then Some(s.cache[nboxes + 1]) else None
  }

  /** Sharing a cached map keeps the cache consistent. */
  lemma LinkAddedOk(s: State, st: Settings, k: int)
    requires CacheOk(s) && k in s.cache
    ensures CacheOk(State(st, s.cache[k := s.cache[k].(links := s.cache[k].links + 1)], s.nextId))
  {
  }

  /** Filing a fresh map under its length keeps the cache consistent. */
  lemma EntryAddedOk(s: State, st: Settings, pmap: seq<int>)
    requires CacheOk(s) && |pmap| !in s.cache
    ensures CacheOk(State(st, s.cache[|pmap| := Entry(s.nextId, pmap, 2)], s.nextId + 1))
  {
  }

  /** The source's `DistributionMapping(boxes, nprocs)` constructor and its
      `define`. On one rank every entry, the sentinel included, is 0 and
      nothing is cached. Otherwise a cached map of length `|boxes| + 1` is
      shared, gaining a link; failing that, the installed builder makes a
      new map, which is cached with two links (the cache's and the new
      mapping's). */
  method Define(s: State, p: Params, boxes: seq<Box>, nprocs: nat, load: Option<seq<int>>,
                myProc: int, pfcMap: seq<int>)
    returns (s': State, dm: Mapping)
    requires StateOk(s)
    requires nprocs >= 1 && SameDim(boxes)
    requires forall i :: 0 <= i < |boxes| ==> ValidBox(boxes[i])
    requires load.Some? ==> |load.value| == nprocs
    requires Initialize(s.settings, p).strategy == PFC ==> |pfcMap| == |boxes| + 1
    ensures StateOk(s') && s'.settings == Initialize(s.settings, p)
    ensures |dm.pmap| == |boxes| + 1
    ensures nprocs == 1 ==>
      && (forall i :: 0 <= i < |dm.pmap| ==> dm.pmap[i] == 0)
      && s'.cache == s.cache && dm.id == s.nextId
    ensures nprocs != 1 && |boxes| + 1 in s.cache ==>
      var e := s.cache[|boxes| + 1];
      && dm == Mapping(e.id, e.pmap)
      && s'.cache == s.cache[|boxes| + 1 := e.(links := e.links + 1)]
    ensures nprocs != 1 && |boxes| + 1 !in s.cache ==>
      && dm.id == s.nextId
      && s'.cache == s.cache[|boxes| + 1 := Entry(dm.id, dm.pmap, 2)]
      && BuiltBy(s'.settings.strategy, dm.pmap, boxes, nprocs, load, myProc, s'.settings, pfcMap)
  {
    var st := Initialize(s.settings, p);
    InitializeInstallsBuilder(s.settings, p);
    var n := |boxes|;
    if nprocs == 1 {
      dm := Mapping(s.nextId, seq(n + 1, _ => 0));
      s' := State(st, s.cache, s.nextId + 1);
    } else {
      match GetMap(s, n)
      case Some(e) =>
        dm := Mapping(e.id, e.pmap);
        LinkAddedOk(s, st, n + 1);
        s' := State(st, s.cache[n + 1 := e.(links := e.links + 1)], s.nextId);
      case None =>
        var pmap := Build(st.builder.value, st, boxes, nprocs, load, myProc, pfcMap);
        dm := Mapping(s.nextId, pmap);
        EntryAddedOk(s, st, pmap);
        s' := State(st, s.cache[n + 1 := Entry(dm.id, pmap, 2)], s.nextId + 1);
    }
  }

  /** The outcome of the cache-inserting constructor. */
  datatype Outcome = Made(state: State, dm: Mapping) | Aborted

  /** The source's `DistributionMapping(pmap, put_in_cache)`: a new `Ref`
      holding `pmap`, filed in the cache when asked for and when there is
      more than one rank. Filing a second map of the same length aborts. */
  function MakeMapping(s: State, pmap: seq<int>, putInCache: bool, worldSize: int): (r: Outcome)
    requires CacheOk(s)
    ensures r.Aborted? <==> putInCache && worldSize > 1 && |pmap| in s.cache
    ensures r.Made? ==> CacheOk(r.state) && r.dm == Mapping(s.nextId, pmap)
    ensures r.Made? ==> r.state.settings == s.settings && r.state.nextId == s.nextId + 1
    ensures r.Made? && !(putInCache && worldSize > 1) ==> r.state.cache == s.cache
    ensures r.Made? && putInCache && worldSize > 1 ==>
      r.state.cache.Keys == s.cache.Keys + {|pmap|} && r.state.cache[|pmap|].pmap == pmap &&
      forall k :: k in s.cache ==> r.state.cache[k] == s.cache[k]
  {
    var dm := Mapping(s.nextId, pmap);
    if putInCache && worldSize > 1 then
      if |pmap| in s.cache then Aborted
      else Made(State(s.settings, s.cache[|pmap| := Entry(dm.id, pmap, 2)], s.nextId + 1), dm)
    else Made(s.(nextId := s.nextId + 1), dm)
  }

  /** A map filed by the explicit-map constructor is served to a later
      lookup whatever its sentinel holds: the model follows a release build,
      where the sentinel assertion of `GetMap` is not compiled in. */
  lemma ForeignSentinelServed(pmap: seq<int>, myProc: int)
    requires |pmap| >= 1 && pmap[|pmap| - 1] != myProc
    ensures var r := MakeMapping(Empty, pmap, true, 2);
      && r.Made? && CacheOk(r.state)
      && GetMap(r.state, |pmap| - 1) == Some(Entry(0, pmap, 2))
      && GetMap(r.state, |pmap| - 1).value.pmap[|pmap| - 1] != myProc
  {
    EmptyOk();
  }

  /** The source's `FlushCache`: the maps no mapping links to any more (the
      cache holds the only link) are dropped, the rest kept as they are. */
  function FlushCache(s: State): (r: State)
    ensures r.settings == s.settings && r.nextId == s.nextId
    ensures forall k :: k in r.cache <==> k in s.cache && s.cache[k].links != 1
    ensures forall k :: k in r.cache ==> r.cache[k] == s.cache[k]
  {
    s.(cache := map k | k in s.cache && s.cache[k].links != 1 :: s.cache[k])
  }

  /** Flushing keeps the cache consistent, leaves no unreferenced map, and a
      second flush changes nothing. */
  lemma FlushCacheFacts(s: State)
    requires CacheOk(s)
    ensures CacheOk(FlushCache(s))
    ensures forall k :: k in FlushCache(s).cache ==> FlushCache(s).cache[k].links >= 2
    ensures FlushCache(FlushCache(s)) == FlushCache(s)
    ensures (forall k :: k in s.cache ==> s.cache[k].links != 1) ==> FlushCache(s) == s
  {
    var r := FlushCache(s);
    assert FlushCache(r).cache == r.cache;
    if forall k :: k in s.cache ==> s.cache[k].links != 1 {
      assert r.cache == s.cache;
    }
  }

  /** The source's `Finalize`: not initialized, no builder, cache emptied. */
  function Finalize(s: State): (r: State)
    ensures !r.settings.initialized && r.settings.builder.None? && r.cache == map[]
    ensures r.settings.strategy == s.settings.strategy
    ensures StateOk(s) ==> StateOk(r)
  {
    var flushed := FlushCache(s);
    State(flushed.settings.(initialized := false, builder := None), map[], flushed.nextId)
  }

  /** After `Finalize`, the next `Initialize` reads the parameters afresh and
      reinstalls a builder; the chosen strategy survives when none is given. */
  lemma FinalizeThenInitialize(s: State, p: Params)
    requires StateOk(s)
    ensures var st := Initialize(Finalize(s).settings, p);
      && BuilderReady(st) && st == Initialize(s.settings.(initialized := false), p)
      && (p.strategy.None? ==> st.strategy == s.settings.strategy)
  {
  }

  // ---------------------------------------------------------------------
  // Concatenation

  /** The source's concatenating constructor: the boxes of the first map,
      then those of the second, then the caller's rank as sentinel. */
  function Concat(p1: seq<int>, p2: seq<int>, myProc: int): (r: seq<int>)
    requires |p1| >= 1 && |p2| >= 1
    ensures |r| == |p1| + |p2| - 1
    ensures forall i :: 0 <= i < |p1| - 1 ==> r[i] == p1[i]
    ensures forall j :: 0 <= j < |p2| - 1 ==> r[|p1| - 1 + j] == p2[j]
    ensures r[|r| - 1] == myProc
  {
    p1[..|p1| - 1] + p2[..|p2| - 1] + [myProc]
  }

  /** Two valid maps for the same ranks concatenate to a valid map for all
      their boxes. */
  lemma ConcatValid(p1: seq<int>, n1: nat, p2: seq<int>, n2: nat, nprocs: nat, myProc: int)
    requires ValidMap(p1, n1, nprocs) && ValidMap(p2, n2, nprocs)
    ensures ValidMap(Concat(p1, p2, myProc), n1 + n2, nprocs)
  {
    var r := Concat(p1, p2, myProc);
    forall i | 0 <= i < n1 + n2
      ensures 0 <= r[i] < nprocs
    {
      if i >= n1 {
        assert r[n1 + (i - n1)] == p2[i - n1];
      }
    }
  }

  /** Concatenation is associative; the sentinel is the caller's rank either
      way. */
  lemma ConcatAssociative(a: seq<int>, b: seq<int>, c: seq<int>, myProc: int)
    requires |a| >= 1 && |b| >= 1 && |c| >= 1
    ensures Concat(Concat(a, b, myProc), c, myProc) == Concat(a, Concat(b, c, myProc), myProc)
  {
    var ab := Concat(a, b, myProc);
    var bc := Concat(b, c, myProc);
    assert ab[..|ab| - 1] == a[..|a| - 1] + b[..|b| - 1];
    assert bc[..|bc| - 1] == b[..|b| - 1] + c[..|c| - 1];
  }

  /** A map with no boxes (only the sentinel) is a unit of concatenation,
      up to the sentinel. */
  lemma ConcatUnit(p: seq<int>, x: int, myProc: int)
    requires |p| >= 1
    ensures Concat([x], p, myProc) == p[..|p| - 1] + [myProc]
    ensures Concat(p, [x], myProc) == p[..|p| - 1] + [myProc]
  {
  }

  // ---------------------------------------------------------------------
  // Equality

  /** The source's `operator==`: the same `Ref`, or equal processor maps. */
  predicate SameMapping(a: Mapping, b: Mapping) {
    a.id == b.id || a.pmap == b.pmap
  }

  /** Mappings whose shared `Ref`s agree: one identity, one map. */
  predicate Coherent(ms: set<Mapping>) {
    forall a, b :: a in ms && b in ms && a.id == b.id ==> a.pmap == b.pmap
  }

  /** Among coherent mappings the identity test is only a shortcut: two
      mappings compare equal exactly when their processor maps are equal, so
      the comparison is an equivalence. Coherence is what one shared `Ref`
      guarantees in the source: a `Ref` holds exactly one map. */
  lemma SameMappingIsMapEquality(ms: set<Mapping>, a: Mapping, b: Mapping, c: Mapping)
    requires Coherent(ms) && a in ms && b in ms && c in ms
    ensures SameMapping(a, b) <==> a.pmap == b.pmap
    ensures SameMapping(a, a)
    ensures SameMapping(a, b) ==> SameMapping(b, a)
    ensures SameMapping(a, b) && SameMapping(b, c) ==> SameMapping(a, c)
  {
  }

  /** `Define` hands out mappings that agree with the cache: the map shared on
      a hit is the cached one under the cached identity. */
  lemma CachedMappingsCoherent(s: State, k: int, k2: int)
    requires CacheOk(s) && k in s.cache && k2 in s.cache
    ensures var a, b := s.cache[k], s.cache[k2];
      SameMapping(Mapping(a.id, a.pmap), Mapping(b.id, b.pmap)) <==> a.pmap == b.pmap
  {
  }
}

=== FILE: morton.dfy ===
/** The Morton (Z-order) comparison of box anchors used by the
    space-filling-curve strategy, and its characterisation as the
    lexicographic order on a key of per-level, per-axis quotients. */
module Morton {

  /** The outcome of a three-way comparison. */
  datatype Cmp = Lt | Eq | Gt

  function Flip(c: Cmp): Cmp {
    match c
    case Lt => Gt
    case Eq => Eq
    case Gt => Lt
  }

  /** `2^i`. */
  function Pow2(i: nat): (r: nat)
    ensures r >= 1
  {
    if i == 0 then 1 else 2 * Pow2(i - 1)
  }

  /** C's integer division, which truncates toward zero. */
  function CDiv(a: int, n: int): int
    requires n > 0
  {
    if a >= 0 then a / n else -((-a) / n)
  }

  /** One level of `SFCToken::Compare`: the quotients by `n` of axes `j-1`
      down to 0, the first difference deciding. */
  function LevelCompare(l: seq<int>, r: seq<int>, n: int, j: nat): Cmp
    requires n > 0 && j <= |l| && j <= |r|
  {
    if j == 0 then Eq
    else
      var il, ir := CDiv(l[j - 1], n), CDiv(r[j - 1], n);
      if il < ir then Lt
      else if il > ir then Gt
      else LevelCompare(l, r, n, j - 1)
  }

  /** Levels `i-1` down to 0 (`n = 2^(i-1)`, ..., 1), the first level that
      differs deciding. */
  function CompareLevels(l: seq<int>, r: seq<int>, i: nat): Cmp
    requires |l| == |r|
  {
    if i == 0 then Eq
    else
      var c := LevelCompare(l, r, Pow2(i - 1), |l|);
      if c != Eq then c else CompareLevels(l, r, i - 1)
  }

  /** `SFCToken::Compare` with `SFCToken::MaxPower == maxPower`: `l` comes
      strictly before `r` on the curve. */
  predicate Less(l: seq<int>, r: seq<int>, maxPower: nat): (b: bool)
    requires |l| == |r|
    ensures b <==> LexCompare(Key(l, maxPower), Key(r, maxPower)) == Lt
  {
    CompareIsLex(l, r, maxPower);
    CompareLevels(l, r, maxPower) == Lt
  }

  // ---------------------------------------------------------------------
  // The key

  /** Lexicographic comparison of equally long integer sequences. */
  function LexCompare(x: seq<int>, y: seq<int>): Cmp
    requires |x| == |y|
  {
    if |x| == 0 then Eq
    else if x[0] < y[0] then Lt
    else if x[0] > y[0] then Gt
    else LexCompare(x[1..], y[1..])
  }

  /** The quotients by `n` of axes `j-1` down to 0. */
  function LevelKey(a: seq<int>, n: int, j: nat): (k: seq<int>)
    requires n > 0 && j <= |a|
    ensures |k| == j
  {
    if j == 0 then [] else [CDiv(a[j - 1], n)] + LevelKey(a, n, j - 1)
  }

  /** The level keys for levels `i-1` down to 0, concatenated. */
  function Key(a: seq<int>, i: nat): (k: seq<int>)
    ensures |k| == i * |a|
  {
    if i == 0 then [] else LevelKey(a, Pow2(i - 1), |a|) + Key(a, i - 1)
  }

  lemma {:induction false} LexAppend(x1: seq<int>, x2: seq<int>, y1: seq<int>, y2: seq<int>)
    requires |x1| == |y1| && |x2| == |y2|
    ensures LexCompare(x1 + x2, y1 + y2) ==
            if LexCompare(x1, y1) != Eq then LexCompare(x1, y1) else LexCompare(x2, y2)
  {
    if |x1| > 0 {
      assert (x1 + x2)[1..] == x1[1..] + x2;
      assert (y1 + y2)[1..] == y1[1..] + y2;
      LexAppend(x1[1..], x2, y1[1..], y2);
    } else {
      assert x1 + x2 == x2 && y1 + y2 == y2;
    }
  }

  lemma {:induction false} LevelCompareIsLex(l: seq<int>, r: seq<int>, n: int, j: nat)
    requires n > 0 && j <= |l| && j <= |r|
    ensures LevelCompare(l, r, n, j) == LexCompare(LevelKey(l, n, j), LevelKey(r, n, j))
  {
    if j > 0 {
      LevelCompareIsLex(l, r, n, j - 1);
      LexAppend([CDiv(l[j - 1], n)], LevelKey(l, n, j - 1), [CDiv(r[j - 1], n)], LevelKey(r, n, j - 1));
    }
  }

  /** The Morton comparison is the lexicographic comparison of the keys. */
  lemma {:induction false} CompareIsLex(l: seq<int>, r: seq<int>, i: nat)
    requires |l| == |r|
    ensures CompareLevels(l, r, i) == LexCompare(Key(l, i), Key(r, i))
  {
    if i > 0 {
      CompareIsLex(l, r, i - 1);
      LevelCompareIsLex(l, r, Pow2(i - 1), |l|);
      LexAppend(LevelKey(l, Pow2(i - 1), |l|), Key(l, i - 1), LevelKey(r, Pow2(i - 1), |r|), Key(r, i - 1));
    }
  }

  // ---------------------------------------------------------------------
  // Lexicographic order facts

  lemma {:induction false} LexFlip(x: seq<int>, y: seq<int>)
    requires |x| == |y|
    ensures LexCompare(y, x) == Flip(LexCompare(x, y))
  {
    if |x| > 0 && x[0] == y[0] {
      LexFlip(x[1..], y[1..]);
    }
  }

  lemma {:induction false} LexEqual(x: seq<int>, y: seq<int>)
    requires |x| == |y|
    ensures LexCompare(x, y) == Eq <==> x == y
  {
    if |x| > 0 {
      LexEqual(x[1..], y[1..]);
      if x[0] == y[0] && x[1..] == y[1..] {
        assert x == [x[0]] + x[1..] && y == [y[0]] + y[1..];
      }
    }
  }

  lemma {:induction false} LexTransitive(x: seq<int>, y: seq<int>, z: seq<int>)
    requires |x| == |y| == |z|
    requires LexCompare(x, y) != Gt && LexCompare(y, z) != Gt
    ensures LexCompare(x, z) != Gt
    ensures LexCompare(x, y) == Lt || LexCompare(y, z) == Lt ==> LexCompare(x, z) == Lt
  {
    if |x| > 0 && x[0] == y[0] && y[0] == z[0] {
      LexTransitive(x[1..], y[1..], z[1..]);
    }
  }

  // ---------------------------------------------------------------------
  // The comparison is a strict weak order

  lemma LessIrreflexive(a: seq<int>, m: nat)
    ensures !Less(a, a, m)
  {
    CompareIsLex(a, a, m);
    LexEqual(Key(a, m), Key(a, m));
  }

  lemma LessAsymmetric(a: seq<int>, b: seq<int>, m: nat)
    requires |a| == |b|
    ensures Less(a, b, m) ==> !Less(b, a, m)
  {
    CompareIsLex(a, b, m);
    CompareIsLex(b, a, m);
    LexFlip(Key(a, m), Key(b, m));
  }

  lemma LessTransitive(a: seq<int>, b: seq<int>, c: seq<int>, m: nat)
    requires |a| == |b| == |c|
    ensures Less(a, b, m) && Less(b, c, m) ==> Less(a, c, m)
  {
    CompareIsLex(a, b, m);
    CompareIsLex(b, c, m);
    CompareIsLex(a, c, m);
    if Less(a, b, m) && Less(b, c, m) {
      LexTransitive(Key(a, m), Key(b, m), Key(c, m));
    }
  }

  /** Not coming after is transitive too: the order is total on keys. */
  lemma NotLessTransitive(a: seq<int>, b: seq<int>, c: seq<int>, m: nat)
    requires |a| == |b| == |c|
    ensures !Less(b, a, m) && !Less(c, b, m) ==> !Less(c, a, m)
  {
    CompareIsLex(b, a, m);
    CompareIsLex(c, b, m);
    CompareIsLex(c, a, m);
    LexFlip(Key(a, m), Key(b, m));
    LexFlip(Key(b, m), Key(c, m));
    LexFlip(Key(a, m), Key(c, m));
    if !Less(b, a, m) && !Less(c, b, m) {
      LexTransitive(Key(a, m), Key(b, m), Key(c, m));
    }
  }

  /** Two anchors are equivalent (neither before the other) exactly when
      their keys agree. */
  lemma EquivalentIffSameKey(a: seq<int>, b: seq<int>, m: nat)
    requires |a| == |b|
    ensures (!Less(a, b, m) && !Less(b, a, m)) <==> Key(a, m) == Key(b, m)
  {
    CompareIsLex(a, b, m);
    CompareIsLex(b, a, m);
    LexFlip(Key(a, m), Key(b, m));
    LexEqual(Key(a, m), Key(b, m));
  }

  // ---------------------------------------------------------------------
  // Equivalence is equality

  lemma {:induction false} LevelKeyExact(a: seq<int>, b: seq<int>, j: nat)
    requires j <= |a| && j <= |b|
    requires LevelKey(a, 1, j) == LevelKey(b, 1, j)
    ensures a[..j] == b[..j]
  {
    if j > 0 {
      assert LevelKey(a, 1, j)[1..] == LevelKey(a, 1, j - 1);
      assert LevelKey(b, 1, j)[1..] == LevelKey(b, 1, j - 1);
      LevelKeyExact(a, b, j - 1);
      assert CDiv(a[j - 1], 1) == a[j - 1] && CDiv(b[j - 1], 1) == b[j - 1];
      assert a[..j] == a[..j - 1] + [a[j - 1]] && b[..j] == b[..j - 1] + [b[j - 1]];
    }
  }

  /** At one level or more, the last level divides by one, so equal keys
      mean equal anchors. */
  lemma {:induction false} KeyDeterminesAnchor(a: seq<int>, b: seq<int>, i: nat)
    requires |a| == |b| && i >= 1
    requires Key(a, i) == Key(b, i)
    ensures a == b
  {
    var la, lb := LevelKey(a, Pow2(i - 1), |a|), LevelKey(b, Pow2(i - 1), |b|);
    assert Key(a, i) == la + Key(a, i - 1) && Key(b, i) == lb + Key(b, i - 1);
    assert Key(a, i - 1) == Key(a, i)[|a|..] && Key(b, i - 1) == Key(b, i)[|b|..];
    if i == 1 {
      assert la == Key(a, i)[..|a|] && lb == Key(b, i)[..|b|];
      LevelKeyExact(a, b, |a|);
      assert a == a[..|a|] && b == b[..|b|];
    } else {
      KeyDeterminesAnchor(a, b, i - 1);
    }
  }

  /** Anchors whose coordinates lie in `[0, 2^m)` are equivalent under the
      comparison with `MaxPower == m` exactly when they are equal: with
      `m == 0` the only such anchor is the origin. */
  lemma EquivalentIffEqual(a: seq<int>, b: seq<int>, m: nat)
    requires |a| == |b|
    requires forall d :: 0 <= d < |a| ==> 0 <= a[d] < Pow2(m) && 0 <= b[d] < Pow2(m)
    ensures (!Less(a, b, m) && !Less(b, a, m)) <==> a == b
  {
    EquivalentIffSameKey(a, b, m);
    if m >= 1 {
      if Key(a, m) == Key(b, m) {
        KeyDeterminesAnchor(a, b, m);
      }
    } else {
      assert forall d :: 0 <= d < |a| ==> a[d] == 0 == b[d];
    }
  }
}

=== FILE: ordering.dfy ===
/** The ordering helpers of the distribution map: the stable weight sort of
    `(weight, index)` pairs and the least-used-CPU rank order built on it. */
module Ordering {
  import opened Base

  /** A `(weight, index)` pair; the comparator looks at the weight only. */
  datatype LIpair = LIpair(weight: int, id: int)

  /** Non-decreasing in weight. */
  predicate Ascending(s: seq<LIpair>) {
    forall i, j :: 0 <= i < j < |s| ==> s[i].weight <= s[j].weight
  }

  /** Non-increasing in weight. */
  predicate Descending(s: seq<LIpair>) {
    forall i, j :: 0 <= i < j < |s| ==> s[i].weight >= s[j].weight
  }

  /** Ascending by weight, ties broken by ascending index. */
  predicate LexAscending(s: seq<LIpair>) {
    forall i, j :: 0 <= i < j < |s| ==>
      s[i].weight < s[j].weight || (s[i].weight == s[j].weight && s[i].id < s[j].id)
  }

  /** Descending by weight, ties broken by descending index. */
  predicate LexDescending(s: seq<LIpair>) {
    forall i, j :: 0 <= i < j < |s| ==>
      s[i].weight > s[j].weight || (s[i].weight == s[j].weight && s[i].id > s[j].id)
  }

  /** The indices carried by the pairs, in order. */
  function Ids(s: seq<LIpair>): seq<int> {
    seq(|s|, i requires 0 <= i < |s| => s[i].id)
  }

  /** The subsequence of pairs of weight `w`: what a stable sort must keep in order. */
  function Tied(s: seq<LIpair>, w: int): seq<LIpair> {
    if |s| == 0 then []
    else (if s[0].weight == w then [s[0]] else []) + Tied(s[1..], w)
  }

  function Reverse<T>(s: seq<T>): seq<T> {
    seq(|s|, i requires 0 <= i < |s| => s[|s| - 1 - i])
  }

  /** Places `x` in front of the first pair at least as heavy, so that `x`
      precedes the pairs of its own weight already in `t`. */
  function Insert(x: LIpair, t: seq<LIpair>): (r: seq<LIpair>)
    ensures |r| == |t| + 1
    ensures multiset(r) == multiset(t) + multiset{x}
  {
    if |t| == 0 || x.weight <= t[0].weight then
      [x] + t
    else
      assert t == [t[0]] + t[1..];
      [t[0]] + Insert(x, t[1..])
  }

  lemma {:induction false} InsertIds(x: LIpair, t: seq<LIpair>)
    ensures multiset(Ids(Insert(x, t))) == multiset(Ids(t)) + multiset{x.id}
  {
    if |t| == 0 || x.weight <= t[0].weight {
      IdsAppend([x], t);
    } else {
      InsertIds(x, t[1..]);
      assert t == [t[0]] + t[1..];
      IdsAppend([t[0]], t[1..]);
      IdsAppend([t[0]], Insert(x, t[1..]));
    }
  }

  /** The head of an ascending sequence is no heavier than any member. */
  lemma HeadBound(t: seq<LIpair>, y: LIpair)
    requires Ascending(t) && y in multiset(t)
    ensures t[0].weight <= y.weight
  {
    var k :| 0 <= k < |t| && t[k] == y;
    if k > 0 {
      assert t[0].weight <= t[k].weight;
    }
  }

  lemma {:induction false} InsertAscending(x: LIpair, t: seq<LIpair>)
    requires Ascending(t)
    ensures Ascending(Insert(x, t))
  {
    var r := Insert(x, t);
    if |t| > 0 && x.weight > t[0].weight {
      var r' := Insert(x, t[1..]);
      InsertAscending(x, t[1..]);
      assert r == [t[0]] + r';
      forall i, j | 0 <= i < j < |r|
        ensures r[i].weight <= r[j].weight
      {
        assert r[j] == r'[j - 1];
        if i == 0 {
          assert r[j] in multiset(r');
          if r[j] != x {
            HeadBound(t, r[j]);
          }
        } else {
          assert r[i] == r'[i - 1];
        }
      }
    }
  }

  /** Inserting `x` adds it in front of its own weight class and leaves the
      other classes alone. */
  lemma {:induction false} InsertTied(x: LIpair, t: seq<LIpair>, w: int)
    ensures Tied(Insert(x, t), w) == (if x.weight == w then [x] else []) + Tied(t, w)
  {
    var hx := if x.weight == w then [x] else [];
    if |t| == 0 || x.weight <= t[0].weight {
      TiedCons(x, t, w);
    } else {
      var r' := Insert(x, t[1..]);
      var h0 := if t[0].weight == w then [t[0]] else [];
      var rest := Tied(t[1..], w);
      InsertTied(x, t[1..], w);
      TiedCons(t[0], r', w);
      TiedCons(t[0], t[1..], w);
      assert [t[0]] + t[1..] == t;
      assert Insert(x, t) == [t[0]] + r';
      if x.weight == w {
        assert h0 == [];
        assert Tied(r', w) == [x] + rest;
        assert Tied(Insert(x, t), w) == Tied(r', w) by {
          assert [] + Tied(r', w) == Tied(r', w);
        }
        assert Tied(t, w) == rest by {
          assert [] + rest == rest;
        }
      } else {
        assert Tied(r', w) == rest by {
          assert [] + rest == rest;
        }
        assert hx + Tied(t, w) == Tied(t, w);
      }
    }
  }

  /** `Tied` of a sequence with one pair in front. */
  lemma TiedCons(y: LIpair, t: seq<LIpair>, w: int)
    ensures Tied([y] + t, w) == (if y.weight == w then [y] else []) + Tied(t, w)
  {
    assert ([y] + t)[1..] == t;
  }

  /** Insertion sort, stable because each element goes in front of its equals. */
  function StableSort(s: seq<LIpair>): (r: seq<LIpair>)
    ensures |r| == |s|
    ensures multiset(r) == multiset(s)
  {
    if |s| == 0 then []
    else
      var t := StableSort(s[1..]);
      assert multiset(s) == multiset{s[0]} + multiset(s[1..]) by {
        assert s == [s[0]] + s[1..];
      }
      Insert(s[0], t)
  }

  lemma {:induction false} StableSortAscending(s: seq<LIpair>)
    ensures Ascending(StableSort(s))
  {
    if |s| > 0 {
      StableSortAscending(s[1..]);
      InsertAscending(s[0], StableSort(s[1..]));
    }
  }

  lemma {:induction false} StableSortIds(s: seq<LIpair>)
    ensures multiset(Ids(StableSort(s))) == multiset(Ids(s))
  {
    if |s| > 0 {
      var t := StableSort(s[1..]);
      StableSortIds(s[1..]);
      InsertIds(s[0], t);
      HeadIds(s);
      assert StableSort(s) == Insert(s[0], t);
    }
  }

  lemma HeadIds(s: seq<LIpair>)
    requires |s| > 0
    ensures multiset(Ids(s)) == multiset(Ids(s[1..])) + multiset{s[0].id}
  {
    assert Ids(s) == [s[0].id] + Ids(s[1..]);
  }

  /** The stable sort keeps the pairs of each weight in their input order. */
  lemma {:induction false} StableSortTied(s: seq<LIpair>, w: int)
    ensures Tied(StableSort(s), w) == Tied(s, w)
  {
    if |s| > 0 {
      var t := StableSort(s[1..]);
      var head := if s[0].weight == w then [s[0]] else [];
      assert Tied(t, w) == Tied(s[1..], w) by {
        StableSortTied(s[1..], w);
      }
      assert Tied(Insert(s[0], t), w) == head + Tied(t, w) by {
        InsertTied(s[0], t, w);
      }
      assert Tied(s, w) == head + Tied(s[1..], w) by {
        assert s == [s[0]] + s[1..];
        TiedAppend([s[0]], s[1..], w);
        assert Tied([s[0]], w) == head + Tied([], w);
      }
    }
  }

  lemma {:induction false} ReverseMultiset(s: seq<LIpair>)
    ensures multiset(Reverse(s)) == multiset(s)
    ensures multiset(Ids(Reverse(s))) == multiset(Ids(s))
  {
    if |s| > 0 {
      ReverseMultiset(s[1..]);
      assert Reverse(s) == Reverse(s[1..]) + [s[0]];
      assert s == [s[0]] + s[1..];
      IdsAppend(Reverse(s[1..]), [s[0]]);
      IdsAppend([s[0]], s[1..]);
    }
  }

  lemma {:induction false} ReverseTied(s: seq<LIpair>, w: int)
    ensures Tied(Reverse(s), w) == Reverse(Tied(s, w))
  {
    if |s| > 0 {
      ReverseTied(s[1..], w);
      assert Reverse(s) == Reverse(s[1..]) + [s[0]];
      TiedAppend(Reverse(s[1..]), [s[0]], w);
      var head := if s[0].weight == w then [s[0]] else [];
      assert Tied([s[0]], w) == head + Tied([], w);
      assert Tied(s, w) == head + Tied(s[1..], w);
      ReverseAppend(head, Tied(s[1..], w));
    }
  }

  lemma {:induction false} IdsAppend(a: seq<LIpair>, b: seq<LIpair>)
    ensures Ids(a + b) == Ids(a) + Ids(b)
  {
    assert |Ids(a + b)| == |Ids(a) + Ids(b)|;
  }

  lemma {:induction false} TiedAppend(a: seq<LIpair>, b: seq<LIpair>, w: int)
    ensures Tied(a + b, w) == Tied(a, w) + Tied(b, w)
  {
    if |a| == 0 {
      assert a + b == b;
    } else {
      var ab := a + b;
      assert ab[0] == a[0] && ab[1..] == a[1..] + b;
      TiedAppend(a[1..], b, w);
      var h := if a[0].weight == w then [a[0]] else [];
      assert Tied(ab, w) == h + Tied(a[1..] + b, w);
      assert Tied(a, w) == h + Tied(a[1..], w);
    }
  }

  lemma ReverseAppend<T>(a: seq<T>, b: seq<T>)
    ensures Reverse(a + b) == Reverse(b) + Reverse(a)
  {
  }

  /** The source's `Sort`: a stable ascending sort by weight, reversed on
      request, and left alone below two elements. */
  function Sort(vec: seq<LIpair>, reverse: bool): (r: seq<LIpair>)
    ensures multiset(r) == multiset(vec)
    ensures multiset(Ids(r)) == multiset(Ids(vec))
    ensures !reverse ==> Ascending(r)
    ensures reverse ==> Descending(r)
    ensures !reverse ==> forall w :: Tied(r, w) == Tied(vec, w)
    ensures reverse ==> forall w :: Tied(r, w) == Reverse(Tied(vec, w))
  {
    if |vec| > 1 then
      var a := StableSort(vec);
      StableSortFacts(vec);
      if reverse then
        ReverseFacts(a);
        Reverse(a)
      else a
    else
      ShortTied(vec);
      vec
  }

  lemma StableSortFacts(vec: seq<LIpair>)
    ensures multiset(Ids(StableSort(vec))) == multiset(Ids(vec))
    ensures Ascending(StableSort(vec))
    ensures forall w :: Tied(StableSort(vec), w) == Tied(vec, w)
  {
    StableSortIds(vec);
    StableSortAscending(vec);
    forall w
      ensures Tied(StableSort(vec), w) == Tied(vec, w)
    {
      StableSortTied(vec, w);
    }
  }

  lemma ReverseFacts(a: seq<LIpair>)
    requires Ascending(a)
    ensures multiset(Reverse(a)) == multiset(a)
    ensures multiset(Ids(Reverse(a))) == multiset(Ids(a))
    ensures Descending(Reverse(a))
    ensures forall w :: Tied(Reverse(a), w) == Reverse(Tied(a, w))
  {
    ReverseMultiset(a);
    forall w
      ensures Tied(Reverse(a), w) == Reverse(Tied(a, w))
    {
      ReverseTied(a, w);
    }
  }

  lemma ShortTied(vec: seq<LIpair>)
    requires |vec| <= 1
    ensures forall w :: Tied(vec, w) == Reverse(Tied(vec, w))
  {
    forall w
      ensures Tied(vec, w) == Reverse(Tied(vec, w))
    {
      if |vec| == 1 {
        assert vec[1..] == [];
      }
    }
  }

  /** Pairs whose indices increase along the sequence. */
  predicate IdsIncreasing(s: seq<LIpair>) {
    forall i, j :: 0 <= i < j < |s| ==> s[i].id < s[j].id
  }

  /** The head of a (weight, index)-ascending sequence precedes every other member. */
  lemma LexHeadBound(t: seq<LIpair>, y: LIpair)
    requires LexAscending(t) && |t| > 0 && y in multiset(t[1..])
    ensures t[0].weight < y.weight || (t[0].weight == y.weight && t[0].id < y.id)
  {
    var k :| 0 <= k < |t[1..]| && t[1..][k] == y;
    assert t[k + 1] == y;
  }

  lemma {:induction false} InsertLex(x: LIpair, t: seq<LIpair>)
    requires LexAscending(t)
    requires forall k :: 0 <= k < |t| ==> x.id < t[k].id
    ensures LexAscending(Insert(x, t))
  {
    var r := Insert(x, t);
    if |t| > 0 && x.weight > t[0].weight {
      var r' := Insert(x, t[1..]);
      InsertLex(x, t[1..]);
      assert r == [t[0]] + r';
      forall i, j | 0 <= i < j < |r|
        ensures r[i].weight < r[j].weight || (r[i].weight == r[j].weight && r[i].id < r[j].id)
      {
        assert r[j] == r'[j - 1];
        if i == 0 {
          assert r[j] in multiset(r');
          if r[j] != x {
            LexHeadBound(t, r[j]);
          }
        } else {
          assert r[i] == r'[i - 1];
        }
      }
    } else {
      assert r == [x] + t;
    }
  }

  /** With increasing indices in the input, the stable sort orders ties by
      index: the output is the unique (weight, index) ascending arrangement. */
  lemma {:induction false} StableSortLex(s: seq<LIpair>)
    requires IdsIncreasing(s)
    ensures LexAscending(StableSort(s))
  {
    if |s| > 0 {
      StableSortLex(s[1..]);
      var t := StableSort(s[1..]);
      forall k | 0 <= k < |t|
        ensures s[0].id < t[k].id
      {
        assert t[k] in multiset(s[1..]);
        var m :| 0 <= m < |s[1..]| && s[1..][m] == t[k];
        assert s[m + 1] == t[k];
      }
      InsertLex(s[0], t);
    }
  }

  /** `Sort` of pairs with increasing indices: ties in index order ascending,
      in reverse index order when reversed. */
  lemma SortLex(vec: seq<LIpair>, reverse: bool)
    requires IdsIncreasing(vec)
    ensures !reverse ==> LexAscending(Sort(vec, reverse))
    ensures reverse ==> LexDescending(Sort(vec, reverse))
  {
    if |vec| > 1 {
      StableSortLex(vec);
    }
  }

  /** The pairs `(w[i], i)` the source builds before sorting. */
  function Indexed(w: seq<int>): (r: seq<LIpair>)
    ensures |r| == |w|
    ensures forall i :: 0 <= i < |w| ==> r[i] == LIpair(w[i], i)
  {
    seq(|w|, i requires 0 <= i < |w| => LIpair(w[i], i))
  }

  lemma IndexedFacts(w: seq<int>)
    ensures IdsIncreasing(Indexed(w))
    ensures Ids(Indexed(w)) == Iota(|w|)
  {
  }

  /** A sorted arrangement of `Indexed(w)` carries each index of `w` once,
      each with its own weight. */
  lemma ArrangementFacts(w: seq<int>, s: seq<LIpair>)
    requires multiset(s) == multiset(Indexed(w))
    requires multiset(Ids(s)) == multiset(Ids(Indexed(w)))
    ensures IsPermutation(Ids(s), |w|)
    ensures |s| == |w|
    ensures forall k :: 0 <= k < |s| ==> 0 <= s[k].id < |w| && s[k].weight == w[s[k].id]
  {
    IndexedFacts(w);
    PermutationFacts(Ids(s), |w|);
    assert |multiset(s)| == |s|;
    forall k | 0 <= k < |s|
      ensures 0 <= s[k].id < |w| && s[k].weight == w[s[k].id]
    {
      assert s[k] in multiset(Indexed(w));
    }
  }

  /** Indices of `w`, heaviest first, ties in descending index order. */
  function HeaviestFirst(w: seq<int>): (r: seq<int>)
    ensures IsPermutation(r, |w|)
    ensures |r| == |w|
    ensures forall i :: 0 <= i < |r| ==> 0 <= r[i] < |w|
    ensures forall i, j :: 0 <= i < j < |r| ==> w[r[i]] > w[r[j]] || (w[r[i]] == w[r[j]] && r[i] > r[j])
  {
    var s := Sort(Indexed(w), true);
    IndexedFacts(w);
    SortLex(Indexed(w), true);
    ArrangementFacts(w, s);
    Ids(s)
  }

  /** The source's `LeastUsedCPUs`: ranks ordered by the bytes each holds,
      fewest first (ties by rank). `bytes` is the gathered per-rank byte count;
      without it (a serial build) the order is the natural one. */
  function LeastUsedCPUs(nprocs: nat, bytes: Option<seq<int>>): (r: seq<int>)
    requires bytes.Some? ==> |bytes.value| == nprocs
    ensures IsPermutation(r, nprocs)
    ensures |r| == nprocs
    ensures forall i :: 0 <= i < |r| ==> 0 <= r[i] < nprocs
    ensures bytes.None? ==> r == Iota(nprocs)
    ensures bytes.Some? ==> forall i, j :: 0 <= i < j < nprocs ==>
      bytes.value[r[i]] < bytes.value[r[j]] || (bytes.value[r[i]] == bytes.value[r[j]] && r[i] < r[j])
  {
    match bytes
    case None =>
      PermutationFacts(Iota(nprocs), nprocs);
      Iota(nprocs)
    case Some(b) =>
      var s := Sort(Indexed(b), false);
      IndexedFacts(b);
      SortLex(Indexed(b), false);
      ArrangementFacts(b, s);
      Ids(s)
  }

  /** The buffer `LeastUsedCPUs` sorts, filled from the `counts` the gather
      delivers (one per rank of the communicator). The buffer has `nprocs`
      zero-initialised slots: with more slots than ranks the extra slots stay
      zero; with fewer the gather writes past the end of the buffer, reported
      here as `None`. */
  function GatheredBytes(counts: seq<int>, nprocs: nat): (r: Option<seq<int>>)
    ensures r.None? <==> nprocs < |counts|
    ensures r.Some? ==> |r.value| == nprocs
    ensures r.Some? ==> forall i :: 0 <= i < |counts| ==> r.value[i] == counts[i]
    ensures r.Some? ==> forall i :: |counts| <= i < nprocs ==> r.value[i] == 0
  {
    if nprocs < |counts| then None
    else Some(counts + seq(nprocs - |counts|, _ => 0))
  }

  /** With more slots than ranks, and every rank holding some bytes, the first
      slot past the ranks (a rank the communicator does not have) comes
      first in the least-used order. */
  lemma PaddedSlotFirst(counts: seq<int>, nprocs: nat)
    requires |counts| < nprocs
    requires forall i :: 0 <= i < |counts| ==> counts[i] > 0
    ensures LeastUsedCPUs(nprocs, GatheredBytes(counts, nprocs))[0] == |counts|
  {
    var b := GatheredBytes(counts, nprocs).value;
    var r := LeastUsedCPUs(nprocs, Some(b));
    PermutationFacts(r, nprocs);
    assert |counts| in r;
    var j :| 0 <= j < |r| && r[j] == |counts|;
  }
}

=== FILE: round_robin.dfy ===
/** Round-robin placement: the boxes, in some order, are dealt out to the
    ranks in least-used-first order, cycling through the ranks. */
module RoundRobin {
  import opened Base
  import opened Ordering

  /** A processor map for `nboxes` boxes on `nprocs` ranks: one rank per box,
      then the sentinel. */
  predicate ValidMap(pmap: seq<int>, nboxes: nat, nprocs: nat) {
    |pmap| == nboxes + 1 && forall i :: 0 <= i < nboxes ==> 0 <= pmap[i] < nprocs
  }

  /** The source's `RoundRobinDoIt`. The box at position `i` of `order` (the
      boxes themselves, in index order, when no order is given) goes to rank
      `ord[i % nprocs]`, where `ord` is the least-used-first rank order built
      from the gathered byte counts `load`. The sentinel is the caller's rank. */
  method RoundRobinDoIt(nboxes: nat, nprocs: nat, order: Option<seq<int>>,
                        load: Option<seq<int>>, myProc: int)
    returns (pmap: seq<int>)
    requires nprocs >= 1
    requires load.Some? ==> |load.value| == nprocs
    requires order.Some? ==> |order.value| == nboxes && IsPermutation(order.value, nboxes)
    ensures ValidMap(pmap, nboxes, nprocs)
    ensures pmap[nboxes] == myProc
    ensures order.None? ==> DealtBy(pmap, Iota(nboxes), LeastUsedCPUs(nprocs, load))
    ensures order.Some? ==> DealtBy(pmap, order.value, LeastUsedCPUs(nprocs, load))
    ensures nboxes <= nprocs ==> forall a, b :: 0 <= a < b < nboxes ==> pmap[a] != pmap[b]
  {
    var ord := LeastUsedCPUs(nprocs, load);
    var o := if order.Some? then order.value else Iota(nboxes);
    assert IsPermutation(o, nboxes);
    PermutationFacts(o, nboxes);
    pmap := Deal(o, ord, nboxes, nprocs, myProc);
    DealtOut(pmap, o, ord, nboxes, nprocs);
    if nboxes <= nprocs {
      DealtOutOnce(pmap, o, ord, nboxes, nprocs);
    }
  }

  /** The dealing loop: the box at position `i` of `o` gets rank
      `ord[i % nprocs]`; the sentinel is the caller's rank. */
  method Deal(o: seq<int>, ord: seq<int>, nboxes: nat, nprocs: nat, myProc: int) returns (pmap: seq<int>)
    requires nprocs >= 1 && |ord| == nprocs && |o| == nboxes
    requires forall k :: 0 <= k < nboxes ==> 0 <= o[k] < nboxes
    requires forall a, b :: 0 <= a < b < nboxes ==> o[a] != o[b]
    ensures |pmap| == nboxes + 1 && pmap[nboxes] == myProc
    ensures forall k :: 0 <= k < nboxes ==> pmap[o[k]] == ord[k % nprocs]
  {
    // Every entry below the sentinel is overwritten, so the starting contents do not matter.
    pmap := seq(nboxes, _ => 0) + [myProc];
    var i := 0;
    while i < nboxes
      invariant 0 <= i <= nboxes && |pmap| == nboxes + 1 && pmap[nboxes] == myProc
      invariant forall k :: 0 <= k < i ==> pmap[o[k]] == ord[k % nprocs]
    {
      var prev := pmap;
      pmap := pmap[o[i] := ord[i % nprocs]];
      assert forall k :: 0 <= k < i ==> pmap[o[k]] == prev[o[k]];
      i := i + 1;
    }
  }

  /** The box at position `k` of `o` has rank `ord[k % |ord|]`. */
  predicate DealtBy(pmap: seq<int>, o: seq<int>, ord: seq<int>) {
    forall k :: 0 <= k < |o| && 0 <= o[k] < |pmap| && |ord| > 0 ==> pmap[o[k]] == ord[k % |ord|]
  }

  /** A map that gives the box at position `k` of a box permutation `o` the
      rank `ord[k % nprocs]` of a rank permutation `ord` is valid. */
  lemma DealtOut(pmap: seq<int>, o: seq<int>, ord: seq<int>, nboxes: nat, nprocs: nat)
    requires nprocs >= 1 && |pmap| == nboxes + 1
    requires IsPermutation(o, nboxes) && IsPermutation(ord, nprocs) && |ord| == nprocs
    requires forall k :: 0 <= k < |o| ==> 0 <= o[k] < nboxes && pmap[o[k]] == ord[k % nprocs]
    ensures ValidMap(pmap, nboxes, nprocs) && DealtBy(pmap, o, ord)
  {
    PermutationFacts(o, nboxes);
    PermutationFacts(ord, nprocs);
    forall x | 0 <= x < nboxes
      ensures 0 <= pmap[x] < nprocs
    {
      assert x in o;
      var k :| 0 <= k < |o| && o[k] == x;
      assert pmap[x] == ord[k % nprocs];
    }
  }

  /** ... and when there are no more boxes than ranks, no two boxes share a rank. */
  lemma DealtOutOnce(pmap: seq<int>, o: seq<int>, ord: seq<int>, nboxes: nat, nprocs: nat)
    requires 1 <= nprocs && nboxes <= nprocs && |pmap| == nboxes + 1
    requires IsPermutation(o, nboxes) && IsPermutation(ord, nprocs) && |ord| == nprocs
    requires forall k :: 0 <= k < |o| ==> 0 <= o[k] < nboxes && pmap[o[k]] == ord[k % nprocs]
    ensures forall a, b :: 0 <= a < b < nboxes ==> pmap[a] != pmap[b]
  {
    PermutationFacts(o, nboxes);
    PermutationFacts(ord, nprocs);
    forall a, b | 0 <= a < b < nboxes
      ensures pmap[a] != pmap[b]
    {
      SameRankSamePosition(pmap, o, ord, a, b);
    }
  }

  lemma SameRankSamePosition(pmap: seq<int>, o: seq<int>, ord: seq<int>, a: int, b: int)
    requires |o| <= |ord| && 0 <= a < b < |pmap|
    requires a in o && b in o
    requires forall k :: 0 <= k < |o| ==> 0 <= o[k] < |pmap| && pmap[o[k]] == ord[k % |ord|]
    requires forall i, j :: 0 <= i < j < |ord| ==> ord[i] != ord[j]
    ensures pmap[a] != pmap[b]
  {
    var ka :| 0 <= ka < |o| && o[ka] == a;
    var kb :| 0 <= kb < |o| && o[kb] == b;
    ModSmall(ka, |ord|);
    ModSmall(kb, |ord|);
    assert pmap[a] == ord[ka] && pmap[b] == ord[kb];
    assert ka != kb;
  }

  lemma ModSmall(k: int, n: int)
    requires 0 <= k < n
    ensures k % n == k
  {
  }

  /** The source's `RoundRobinProcessorMap(nboxes, nprocs)`: boxes dealt out
      in index order. */
  method RoundRobinByIndex(nboxes: nat, nprocs: nat, load: Option<seq<int>>, myProc: int)
    returns (pmap: seq<int>)
    requires nprocs >= 1
    requires load.Some? ==> |load.value| == nprocs
    ensures ValidMap(pmap, nboxes, nprocs) && pmap[nboxes] == myProc
    ensures DealtBy(pmap, Iota(nboxes), LeastUsedCPUs(nprocs, load))
  {
    pmap := RoundRobinDoIt(nboxes, nprocs, None, load, myProc);
  }

  /** The source's `RoundRobinProcessorMap(boxes, nprocs)`: boxes dealt out
      heaviest first (ties in descending index order), so that the heaviest
      boxes land on the least-used ranks. */
  method RoundRobinByWeight(wgts: seq<int>, nprocs: nat, load: Option<seq<int>>, myProc: int)
    returns (pmap: seq<int>)
    requires nprocs >= 1
    requires load.Some? ==> |load.value| == nprocs
    ensures ValidMap(pmap, |wgts|, nprocs) && pmap[|wgts|] == myProc
    ensures DealtBy(pmap, HeaviestFirst(wgts), LeastUsedCPUs(nprocs, load))
    ensures |wgts| <= nprocs ==> forall a, b :: 0 <= a < b < |wgts| ==> pmap[a] != pmap[b]
  {
    pmap := RoundRobinDoIt(|wgts|, nprocs, Some(HeaviestFirst(wgts)), load, myProc);
  }
}

=== FILE: sfc.dfy ===
/** The space-filling-curve strategy: boxes in Morton order of their lower
    corners are cut into one contiguous run per rank; the runs, ranked
    heaviest first, go to the least-used ranks. Below a threshold the
    knapsack strategy is used instead. */
module Sfc {
  import opened Base
  import opened Ordering
  import opened Geometry
  import opened RoundRobin
  import opened Assign
  import opened Morton
  import opened Curve
  import opened Runs
  import opened KnapsackMap

  /** Every box has the same number of dimensions. */
  predicate SameDim(boxes: seq<Box>) {
    forall i :: 0 <= i < |boxes| ==> |boxes[i].small| == |boxes[0].small|
  }

  function Dim(boxes: seq<Box>): nat {
    if |boxes| == 0 then 0 else |boxes[0].small|
  }

  /** The first half of the source's `SFCProcessorMapDoIt`: one token per
      box, `MaxPower` from the anchors, then the tokens in Morton order. */
  method CurveOrder(boxes: seq<Box>, wgts: seq<int>) returns (m: nat, curve: seq<SFCToken>)
    requires |wgts| == |boxes| && SameDim(boxes)
    ensures IsMaxPower(Tokens(boxes, wgts), m)
    ensures multiset(curve) == multiset(Tokens(boxes, wgts)) && CurveSorted(curve, m)
    ensures IsPermutation(TokenBoxes(curve), |boxes|)
  {
    var ts := Tokens(boxes, wgts);
    assert HasDim(ts, Dim(boxes));
    m := ComputeMaxPower(ts);
    curve := SortTokens(ts, m, Dim(boxes));
    SortTokensSorted(ts, m, Dim(boxes));
    SortTokensBoxes(ts, m, Dim(boxes));
    TokensCarryEveryBox(boxes, wgts);
  }

  /** The source's `SFCProcessorMapDoIt`. Returns the map together with the
      `MaxPower` chosen, the tokens in curve order, and the runs of
      `Distribute` with their boundaries. */
  method SfcDoIt(boxes: seq<Box>, wgts: seq<int>, nprocs: nat, load: Option<seq<int>>, myProc: int)
    returns (pmap: seq<int>, m: nat, curve: seq<SFCToken>, runs: seq<seq<int>>, cuts: seq<int>)
    requires |wgts| == |boxes| && SameDim(boxes)
    requires nprocs >= 1
    requires load.Some? ==> |load.value| == nprocs
    ensures ValidMap(pmap, |boxes|, nprocs) && pmap[|boxes|] == myProc
    ensures IsMaxPower(Tokens(boxes, wgts), m)
    ensures multiset(curve) == multiset(Tokens(boxes, wgts)) && CurveSorted(curve, m)
    ensures IsDistribution(curve, nprocs, runs, cuts)
    ensures IsPartition(runs, |boxes|)
    ensures GroupsPlaced(pmap, runs, HeaviestFirst(GroupLoads(runs, wgts)), LeastUsedCPUs(nprocs, load))
    ensures SharesIff(pmap, runs, |boxes|)
  {
    m, curve := CurveOrder(boxes, wgts);
    runs, cuts := Distribute(curve, nprocs);
    PartitionFromFlatten(runs, |wgts|);
    pmap := AssignGroups(runs, wgts, load, myProc);
  }

  /** The run structure `SfcDoIt` produces, for some curve order: the map
      gives each run of the Morton-sorted tokens one rank, heaviest run to
      least-used rank. */
  ghost predicate CurveMap(pmap: seq<int>, boxes: seq<Box>, wgts: seq<int>, nprocs: nat,
                           load: Option<seq<int>>)
    requires |wgts| == |boxes|
    requires load.Some? ==> |load.value| == nprocs
  {
    exists m: nat, curve: seq<SFCToken>, runs: seq<seq<int>>, cuts: seq<int> ::
      && IsMaxPower(Tokens(boxes, wgts), m)
      && multiset(curve) == multiset(Tokens(boxes, wgts)) && CurveSorted(curve, m)
      && IsDistribution(curve, nprocs, runs, cuts)
      && IsPartition(runs, |boxes|)
      && GroupsPlaced(pmap, runs, HeaviestFirst(GroupLoads(runs, wgts)), LeastUsedCPUs(nprocs, load))
      && SharesIff(pmap, runs, |boxes|)
  }

  // ---------------------------------------------------------------------
  // The threshold

  /** The knapsack takes over when there are fewer boxes than
      `threshold * nprocs`. */
  predicate FallsBack(nboxes: nat, nprocs: nat, threshold: int) {
    nboxes < threshold * nprocs
  }

  /** The source's `SFC_Threshold(n)` setter: it stores the smaller of `n`
      and 1. */
  function SetSfcThreshold(n: int): (t: int)
    ensures t <= 1 && t <= n
    ensures t == n || t == 1
  {
    if n < 1 then n else 1
  }

  /** Whatever is passed to the setter, the knapsack takes over only when
      there are fewer boxes than ranks, and only for a positive argument. */
  lemma ThresholdAtMostOne(nboxes: nat, nprocs: nat, n: int)
    requires nboxes > 0 && nprocs >= 1
    ensures FallsBack(nboxes, nprocs, SetSfcThreshold(n)) <==> (n >= 1 && nboxes < nprocs)
  {
    if n < 1 {
      assert n * nprocs <= 0 by {
        assert -n * nprocs >= 0;
      }
    }
  }

  /** The source's `SFCProcessorMap(boxes, nprocs)`: the weights are the
      boxes' cell counts. */
  method SfcByBoxes(boxes: seq<Box>, nprocs: nat, load: Option<seq<int>>, myProc: int,
                    threshold: int, maxEff: real)
    returns (pmap: seq<int>)
    requires nprocs >= 1 && SameDim(boxes)
    requires forall i :: 0 <= i < |boxes| ==> ValidBox(boxes[i])
    requires load.Some? ==> |load.value| == nprocs
    ensures ValidMap(pmap, |boxes|, nprocs) && pmap[|boxes|] == myProc
    ensures FallsBack(|boxes|, nprocs, threshold) && (|boxes| <= nprocs || nprocs < 2) ==>
      DealtBy(pmap, HeaviestFirst(Volumes(boxes)), LeastUsedCPUs(nprocs, load))
    ensures FallsBack(|boxes|, nprocs, threshold) && !(|boxes| <= nprocs || nprocs < 2) ==>
      KnapsackMapped(pmap, Volumes(boxes), nprocs, load, maxEff, true)
    ensures !FallsBack(|boxes|, nprocs, threshold) ==>
      CurveMap(pmap, boxes, Volumes(boxes), nprocs, load)
  {
    if FallsBack(|boxes|, nprocs, threshold) {
      pmap := KnapSackByBoxes(boxes, nprocs, load, myProc, maxEff);
    } else {
      var m, curve, runs, cuts;
      pmap, m, curve, runs, cuts := SfcDoIt(boxes, Volumes(boxes), nprocs, load, myProc);
    }
  }

  /** The source's `SFCProcessorMap(boxes, wgts, nprocs)`: below the threshold
      the knapsack, with its full search, packs the given weights. */
  method SfcByWeight(boxes: seq<Box>, wgts: seq<int>, nprocs: nat, load: Option<seq<int>>,
                     myProc: int, threshold: int, maxEff: real)
    returns (pmap: seq<int>)
    requires |wgts| == |boxes| && nprocs >= 1 && SameDim(boxes)
    requires forall i :: 0 <= i < |wgts| ==> wgts[i] >= 0
    requires load.Some? ==> |load.value| == nprocs
    ensures ValidMap(pmap, |boxes|, nprocs) && pmap[|boxes|] == myProc
    ensures FallsBack(|boxes|, nprocs, threshold) && (|boxes| <= nprocs || nprocs < 2) ==>
      DealtBy(pmap, Iota(|boxes|), LeastUsedCPUs(nprocs, load))
    ensures FallsBack(|boxes|, nprocs, threshold) && !(|boxes| <= nprocs || nprocs < 2) ==>
      KnapsackMapped(pmap, wgts, nprocs, load, maxEff, true)
    ensures !FallsBack(|boxes|, nprocs, threshold) ==> CurveMap(pmap, boxes, wgts, nprocs, load)
  {
    if FallsBack(|boxes|, nprocs, threshold) {
      var efficiency;
      pmap, efficiency := KnapSackByWeight(wgts, nprocs, load, myProc, maxEff, true);
    } else {
      var m, curve, runs, cuts;
      pmap, m, curve, runs, cuts := SfcDoIt(boxes, wgts, nprocs, load, myProc);
    }
  }
}

=== FILE: topology.dfy ===
/** The machine topology side of the manager: hop counts on the torus of
    nodes, the lookup tables between ranks, processor numbers and node
    coordinates, and the inversion of the proximity map. */
module Topology {
  import opened Base
  import opened Geometry

  // ---------------------------------------------------------------------
  // Hops

  /** The wrap-around distance between `a` and `b` along an axis with `len`
      positions. */
  function RingDistance(a: int, b: int, len: int): int {
    var lo := if a <= b then a else b;
    var hi := if a <= b then b else a;
    if hi - lo <= lo + len - hi then hi - lo else lo + len - hi
  }

  /** The source's `NHops`: the wrap-around distances on the axes of the
      topology box, summed over axes `0..d-1`. */
  function NHopsUpTo(tbox: Box, from: seq<int>, to: seq<int>, d: nat): int
    requires ValidBox(tbox) && |from| == |to| == |tbox.small| && d <= |from|
  {
    if d == 0 then 0
    else NHopsUpTo(tbox, from, to, d - 1) +
         RingDistance(from[d - 1], to[d - 1], tbox.big[d - 1] - tbox.small[d - 1] + 1)
  }

  function NHops(tbox: Box, from: seq<int>, to: seq<int>): (r: int)
    requires ValidBox(tbox) && |from| == |to| == |tbox.small|
    ensures Inside(tbox, from) && Inside(tbox, to) ==> 0 <= r && (r == 0 <==> from == to)
  {
    if Inside(tbox, from) && Inside(tbox, to) then
      NHopsUpToMetric(tbox, from, to, to, |from|);
      assert from[..|from|] == from && to[..|to|] == to;
      NHopsUpTo(tbox, from, to, |from|)
    else
      NHopsUpTo(tbox, from, to, |from|)
  }

  /** A node coordinate inside the topology box. */
  predicate Inside(tbox: Box, iv: seq<int>) {
    |iv| == |tbox.small| == |tbox.big| &&
    forall d :: 0 <= d < |iv| ==> tbox.small[d] <= iv[d] <= tbox.big[d]
  }

  /** On one axis of `len` positions starting at `s`, the ring distance is a
      metric bounded by half the ring. */
  lemma RingMetric(a: int, b: int, c: int, s: int, len: int)
    requires len >= 1 && s <= a < s + len && s <= b < s + len && s <= c < s + len
    ensures 0 <= RingDistance(a, b, len) <= len / 2
    ensures RingDistance(a, b, len) == RingDistance(b, a, len)
    ensures RingDistance(a, b, len) == 0 <==> a == b
    ensures RingDistance(a, c, len) <= RingDistance(a, b, len) + RingDistance(b, c, len)
  {
  }

  /** Hops between nodes of the box are a metric on the nodes: never
      negative, zero exactly between a node and itself, symmetric, and
      obeying the triangle inequality. */
  lemma {:induction false} NHopsUpToMetric(tbox: Box, x: seq<int>, y: seq<int>, z: seq<int>, d: nat)
    requires ValidBox(tbox) && Inside(tbox, x) && Inside(tbox, y) && Inside(tbox, z)
    requires d <= |x|
    ensures NHopsUpTo(tbox, x, y, d) >= 0
    ensures NHopsUpTo(tbox, x, y, d) == NHopsUpTo(tbox, y, x, d)
    ensures NHopsUpTo(tbox, x, y, d) == 0 <==> x[..d] == y[..d]
    ensures NHopsUpTo(tbox, x, z, d) <= NHopsUpTo(tbox, x, y, d) + NHopsUpTo(tbox, y, z, d)
  {
    NHopsUpToZero(tbox, x, y, d);
    NHopsUpToSymmetric(tbox, x, y, d);
    NHopsUpToTriangle(tbox, x, y, z, d);
  }

  /** Axis `d-1` of two nodes of the box, as a ring metric fact. */
  lemma AxisMetric(tbox: Box, x: seq<int>, y: seq<int>, z: seq<int>, d: nat)
    requires ValidBox(tbox) && Inside(tbox, x) && Inside(tbox, y) && Inside(tbox, z)
    requires 0 < d <= |x|
    ensures var len := tbox.big[d - 1] - tbox.small[d - 1] + 1;
      && 0 <= RingDistance(x[d - 1], y[d - 1], len)
      && RingDistance(x[d - 1], y[d - 1], len) == RingDistance(y[d - 1], x[d - 1], len)
      && (RingDistance(x[d - 1], y[d - 1], len) == 0 <==> x[d - 1] == y[d - 1])
      && RingDistance(x[d - 1], z[d - 1], len) <= RingDistance(x[d - 1], y[d - 1], len) + RingDistance(y[d - 1], z[d - 1], len)
  {
    var s, len := tbox.small[d - 1], tbox.big[d - 1] - tbox.small[d - 1] + 1;
    assert s <= x[d - 1] < s + len && s <= y[d - 1] < s + len && s <= z[d - 1] < s + len;
    RingMetric(x[d - 1], y[d - 1], z[d - 1], s, len);
  }

  lemma {:induction false} NHopsUpToZero(tbox: Box, x: seq<int>, y: seq<int>, d: nat)
    requires ValidBox(tbox) && Inside(tbox, x) && Inside(tbox, y)
    requires d <= |x|
    ensures NHopsUpTo(tbox, x, y, d) >= 0
    ensures NHopsUpTo(tbox, x, y, d) == 0 <==> x[..d] == y[..d]
  {
    if d > 0 {
      NHopsUpToZero(tbox, x, y, d - 1);
      AxisMetric(tbox, x, y, y, d);
      PrefixStep(x, y, d);
    }
  }

  lemma {:induction false} NHopsUpToSymmetric(tbox: Box, x: seq<int>, y: seq<int>, d: nat)
    requires ValidBox(tbox) && Inside(tbox, x) && Inside(tbox, y)
    requires d <= |x|
    ensures NHopsUpTo(tbox, x, y, d) == NHopsUpTo(tbox, y, x, d)
  {
    if d > 0 {
      NHopsUpToSymmetric(tbox, x, y, d - 1);
      AxisMetric(tbox, x, y, y, d);
    }
  }

  lemma {:induction false} NHopsUpToTriangle(tbox: Box, x: seq<int>, y: seq<int>, z: seq<int>, d: nat)
    requires ValidBox(tbox) && Inside(tbox, x) && Inside(tbox, y) && Inside(tbox, z)
    requires d <= |x|
    ensures NHopsUpTo(tbox, x, z, d) <= NHopsUpTo(tbox, x, y, d) + NHopsUpTo(tbox, y, z, d)
  {
    if d > 0 {
      NHopsUpToTriangle(tbox, x, y, z, d - 1);
      AxisMetric(tbox, x, y, z, d);
    }
  }

  lemma PrefixStep(x: seq<int>, y: seq<int>, d: nat)
    requires 0 < d <= |x| && d <= |y|
    ensures x[..d] == y[..d] <==> x[..d - 1] == y[..d - 1] && x[d - 1] == y[d - 1]
  {
    assert x[..d] == x[..d - 1] + [x[d - 1]] && y[..d] == y[..d - 1] + [y[d - 1]];
    if x[..d] == y[..d] {
      assert x[..d - 1] == x[..d][..d - 1] && y[..d - 1] == y[..d][..d - 1];
      assert x[d - 1] == x[..d][d - 1];
    }
  }

  lemma NHopsMetric(tbox: Box, x: seq<int>, y: seq<int>, z: seq<int>)
    requires ValidBox(tbox) && Inside(tbox, x) && Inside(tbox, y) && Inside(tbox, z)
    ensures NHops(tbox, x, y) >= 0
    ensures NHops(tbox, x, y) == NHops(tbox, y, x)
    ensures NHops(tbox, x, y) == 0 <==> x == y
    ensures NHops(tbox, x, z) <= NHops(tbox, x, y) + NHops(tbox, y, z)
  {
    NHopsUpToMetric(tbox, x, y, z, |x|);
    assert x[..|x|] == x && y[..|y|] == y;
  }

  // ---------------------------------------------------------------------
  // Lookup tables

  /** The values a multimap, kept in insertion order, files under `k`, in
      that order (`equal_range`). */
  function Values<K(==)>(mm: seq<(K, int)>, k: K): (r: seq<int>)
    ensures forall v :: v in r <==> (k, v) in mm
    ensures |r| <= |mm|
  {
    if |mm| == 0 then []
    else (if mm[0].0 == k then [mm[0].1] else []) + Values(mm[1..], k)
  }

  /** The tables `InitProximityMap` fills: rank to processor number and
      back, and processor number to node coordinate and back. */
  datatype Tables = Tables(rankPNum: map<int, int>, pNumRank: seq<(int, int)>,
                           pNumTopIV: map<int, seq<int>>, topIVPNum: seq<(seq<int>, int)>)

  /** `pNumRank` in rank order: rank `i`, carrying processor number `pn[i]`. */
  function RankPairs(pn: seq<int>, n: nat): (r: seq<(int, int)>)
    requires n <= |pn|
    ensures |r| == n
    ensures forall i :: 0 <= i < n ==> r[i] == (pn[i], i)
  {
    if n == 0 then [] else RankPairs(pn, n - 1) + [(pn[n - 1], n - 1)]
  }

  /** Cell `i` is the first, in scan order, holding processor number `p`. */
  predicate FirstCell(cells: seq<(seq<int>, int)>, p: int, i: int) {
    0 <= i < |cells| && cells[i].1 == p && forall j :: 0 <= j < i ==> cells[j].1 != p
  }

  /** The node table from the topology file's cells, in scan order: cells
      with a negative processor number are skipped; a processor number keeps
      the first node it is seen at, while the node multimap keeps every
      pair. */
  function NodeMap(cells: seq<(seq<int>, int)>): (r: map<int, seq<int>>)
    ensures forall p :: p in r <==> exists i :: 0 <= i < |cells| && cells[i].1 == p && p >= 0
    ensures forall p :: p in r ==> (r[p], p) in cells
    ensures forall p :: p in r ==> exists i :: FirstCell(cells, p, i) && cells[i].0 == r[p]
  {
    if |cells| == 0 then map[]
    else
      var init := cells[..|cells| - 1];
      var c := cells[|cells| - 1];
      assert cells == init + [c];
      var m := NodeMap(init);
      NodeMapStep(init, c, m);
      if c.1 < 0 || c.1 in m then m else m[c.1 := c.0]
  }

  /** One scanned cell: the node table of `init` extended by `c` is the node
      table of `init + [c]`. */
  lemma NodeMapStep(init: seq<(seq<int>, int)>, c: (seq<int>, int), m: map<int, seq<int>>)
    requires forall p :: p in m <==> exists i :: 0 <= i < |init| && init[i].1 == p && p >= 0
    requires forall p :: p in m ==> exists i :: FirstCell(init, p, i) && init[i].0 == m[p]
    ensures var cells, r := init + [c], if c.1 < 0 || c.1 in m then m else m[c.1 := c.0];
      && (forall p :: p in r <==> exists i :: 0 <= i < |cells| && cells[i].1 == p && p >= 0)
      && (forall p :: p in r ==> (r[p], p) in cells)
      && (forall p :: p in r ==> exists i :: FirstCell(cells, p, i) && cells[i].0 == r[p])
  {
    var cells := init + [c];
    var r := if c.1 < 0 || c.1 in m then m else m[c.1 := c.0];
    forall p | p in r
      ensures exists i :: FirstCell(cells, p, i) && cells[i].0 == r[p]
    {
      if p in m {
        var i :| FirstCell(init, p, i) && init[i].0 == m[p];
        assert FirstCell(cells, p, i) && cells[i].0 == r[p];
      } else {
        assert FirstCell(cells, p, |init|);
      }
    }
    forall p | p in r
      ensures (r[p], p) in cells
    {
      var i :| FirstCell(cells, p, i) && cells[i].0 == r[p];
      assert cells[i] == (r[p], p);
    }
    forall p | exists i :: 0 <= i < |cells| && cells[i].1 == p && p >= 0
      ensures p in r
    {
      var i :| 0 <= i < |cells| && cells[i].1 == p && p >= 0;
      if i < |init| {
        assert init[i].1 == p;
      }
    }
    forall p | p in r
      ensures exists i :: 0 <= i < |cells| && cells[i].1 == p && p >= 0
    {
      if p in m {
        var i :| 0 <= i < |init| && init[i].1 == p && p >= 0;
        assert cells[i] == init[i];
      } else {
        assert cells[|init|] == c;
      }
    }
  }

  function NodePairs(cells: seq<(seq<int>, int)>): (r: seq<(seq<int>, int)>)
    ensures forall c :: c in r <==> c in cells && c.1 >= 0
  {
    if |cells| == 0 then []
    else (if cells[0].1 >= 0 then [cells[0]] else []) + NodePairs(cells[1..])
  }

  /** The tables built from the gathered processor numbers `pn` (one per
      rank) and the topology file's cells. */
  function BuildTables(pn: seq<int>, cells: seq<(seq<int>, int)>): (t: Tables)
    ensures forall i :: i in t.rankPNum <==> 0 <= i < |pn|
    ensures forall i :: 0 <= i < |pn| ==> t.rankPNum[i] == pn[i]
  {
    Tables(map i | 0 <= i < |pn| :: pn[i], RankPairs(pn, |pn|), NodeMap(cells), NodePairs(cells))
  }

  /** The source's `ProcNumberFromRank`: -1 for an unknown rank. */
  function ProcNumberFromRank(t: Tables, rank: int): (r: int)
    ensures rank !in t.rankPNum ==> r == -1
    ensures rank in t.rankPNum ==> r == t.rankPNum[rank]
  {
    if rank in t.rankPNum then t.rankPNum[rank] else -1
  }

  /** The source's `RanksFromProcNumber`: every rank filed under the
      processor number, in insertion order; empty for an unknown one. */
  function RanksFromProcNumber(t: Tables, procnum: int): (r: seq<int>)
    ensures forall rank :: rank in r <==> (procnum, rank) in t.pNumRank
  {
    Values(t.pNumRank, procnum)
  }

  /** The source's `TopIVFromProcNumber`: the zero vector (of the space's
      `dim` axes) for an unknown processor number. */
  function TopIVFromProcNumber(t: Tables, procnum: int, dim: nat): (iv: seq<int>)
    ensures procnum !in t.pNumTopIV ==> iv == seq(dim, _ => 0)
    ensures procnum in t.pNumTopIV ==> iv == t.pNumTopIV[procnum]
  {
    if procnum in t.pNumTopIV then t.pNumTopIV[procnum] else seq(dim, _ => 0)
  }

  /** The source's `ProcNumbersFromTopIV`. */
  function ProcNumbersFromTopIV(t: Tables, iv: seq<int>): (r: seq<int>)
    ensures forall p :: p in r <==> (iv, p) in t.topIVPNum
  {
    Values(t.topIVPNum, iv)
  }

  /** The source's `TopIVFromRank`: the node of the rank's processor
      number; an unknown rank is looked up as processor number -1. */
  function TopIVFromRank(t: Tables, rank: int, dim: nat): (iv: seq<int>)
    ensures rank in t.rankPNum && t.rankPNum[rank] in t.pNumTopIV ==> iv == t.pNumTopIV[t.rankPNum[rank]]
    ensures rank in t.rankPNum && t.rankPNum[rank] !in t.pNumTopIV ==> iv == seq(dim, _ => 0)
    ensures rank !in t.rankPNum && -1 in t.pNumTopIV ==> iv == t.pNumTopIV[-1]
    ensures rank !in t.rankPNum && -1 !in t.pNumTopIV ==> iv == seq(dim, _ => 0)
  {
    TopIVFromProcNumber(t, ProcNumberFromRank(t, rank), dim)
  }

  /** The ranks of each processor number in `pnums`, one after another. */
  function RanksOf(t: Tables, pnums: seq<int>): (r: seq<int>)
    ensures forall rank :: rank in r <==> exists i :: 0 <= i < |pnums| && rank in RanksFromProcNumber(t, pnums[i])
  {
    if |pnums| == 0 then []
    else
      var rest := RanksOf(t, pnums[1..]);
      assert forall i :: 1 <= i < |pnums| ==> pnums[1..][i - 1] == pnums[i];
      RanksFromProcNumber(t, pnums[0]) + rest
  }

  /** The source's `RanksFromTopIV`: the ranks of every processor number
      filed under the node. */
  function RanksFromTopIV(t: Tables, iv: seq<int>): (r: seq<int>)
    ensures forall rank :: rank in r <==> exists p :: (iv, p) in t.topIVPNum && (p, rank) in t.pNumRank
  {
    RanksOfNode(t, iv);
    RanksOf(t, ProcNumbersFromTopIV(t, iv))
  }

  lemma RanksOfNode(t: Tables, iv: seq<int>)
    ensures var r := RanksOf(t, ProcNumbersFromTopIV(t, iv));
      forall rank :: rank in r <==> exists p :: (iv, p) in t.topIVPNum && (p, rank) in t.pNumRank
  {
    var pnums := ProcNumbersFromTopIV(t, iv);
    var r := RanksOf(t, pnums);
    forall rank | rank in r
      ensures exists p :: (iv, p) in t.topIVPNum && (p, rank) in t.pNumRank
    {
      var i :| 0 <= i < |pnums| && rank in RanksFromProcNumber(t, pnums[i]);
      assert (iv, pnums[i]) in t.topIVPNum;
    }
    forall rank | exists p :: (iv, p) in t.topIVPNum && (p, rank) in t.pNumRank
      ensures rank in r
    {
      var p :| (iv, p) in t.topIVPNum && (p, rank) in t.pNumRank;
      assert p in pnums;
      var i :| 0 <= i < |pnums| && pnums[i] == p;
      assert rank in RanksFromProcNumber(t, pnums[i]);
    }
  }

  /** Rank and processor-number lookups are inverse: a rank is listed under
      a processor number exactly when it is a known rank carrying it. */
  lemma RankLookupsInverse(pn: seq<int>, cells: seq<(seq<int>, int)>, procnum: int, rank: int)
    ensures var t := BuildTables(pn, cells);
      rank in RanksFromProcNumber(t, procnum) <==>
        (0 <= rank < |pn| && ProcNumberFromRank(t, rank) == procnum)
  {
    var t := BuildTables(pn, cells);
    if rank in RanksFromProcNumber(t, procnum) {
      var i :| 0 <= i < |pn| && t.pNumRank[i] == (procnum, rank);
    }
    if 0 <= rank < |pn| && ProcNumberFromRank(t, rank) == procnum {
      assert t.pNumRank[rank] == (procnum, rank);
    }
  }

  /** The ranks listed under a processor number come in increasing order,
      each once. */
  lemma {:induction false} RanksAscending(pn: seq<int>, n: nat, procnum: int)
    requires n <= |pn|
    ensures var r := Values(RankPairs(pn, n), procnum);
      forall a, b :: 0 <= a < b < |r| ==> r[a] < r[b]
    ensures forall rank :: rank in Values(RankPairs(pn, n), procnum) ==> 0 <= rank < n
  {
    if n > 0 {
      RanksAscending(pn, n - 1, procnum);
      assert RankPairs(pn, n) == RankPairs(pn, n - 1) + [(pn[n - 1], n - 1)];
      ValuesSnoc(RankPairs(pn, n - 1), (pn[n - 1], n - 1), procnum);
      var r0 := Values(RankPairs(pn, n - 1), procnum);
      var r := Values(RankPairs(pn, n), procnum);
      if pn[n - 1] == procnum {
        assert r == r0 + [n - 1];
        AscendingSnoc(r0, n - 1);
      } else {
        assert r == r0;
      }
    }
  }

  lemma ValuesSnoc<K>(mm: seq<(K, int)>, p: (K, int), k: K)
    ensures Values(mm + [p], k) == Values(mm, k) + if p.0 == k then [p.1] else []
  {
    ValuesAppend(mm, [p], k);
    assert [p][1..] == [];
  }

  /** Appending a value above every member keeps a list strictly increasing. */
  lemma AscendingSnoc(r0: seq<int>, x: int)
    requires forall a, b :: 0 <= a < b < |r0| ==> r0[a] < r0[b]
    requires forall v :: v in r0 ==> v < x
    ensures var r := r0 + [x]; forall a, b :: 0 <= a < b < |r| ==> r[a] < r[b]
  {
    var r := r0 + [x];
    forall a, b | 0 <= a < b < |r|
      ensures r[a] < r[b]
    {
      if b == |r0| {
        assert r[a] == r0[a] && r0[a] in r0;
      }
    }
  }

  lemma {:induction false} ValuesAppend<K>(a: seq<(K, int)>, b: seq<(K, int)>, k: K)
    ensures Values(a + b, k) == Values(a, k) + Values(b, k)
  {
    if |a| == 0 {
      assert a + b == b;
    } else {
      assert (a + b)[1..] == a[1..] + b;
      ValuesAppend(a[1..], b, k);
    }
  }

  /** A processor number on the topology sits at the node it is looked up
      at, and a node lists exactly the processor numbers the file puts on
      it. */
  lemma NodeLookupsAgree(pn: seq<int>, cells: seq<(seq<int>, int)>, procnum: int, iv: seq<int>, dim: nat)
    ensures var t := BuildTables(pn, cells);
      && (procnum in ProcNumbersFromTopIV(t, iv) <==> (iv, procnum) in cells && procnum >= 0)
      && (procnum in t.pNumTopIV ==>
            procnum in ProcNumbersFromTopIV(t, TopIVFromProcNumber(t, procnum, dim)))
  {
  }

  /** A rank is listed at a node exactly when its processor number is placed
      on that node by the topology file. */
  lemma RanksAtNode(pn: seq<int>, cells: seq<(seq<int>, int)>, iv: seq<int>, rank: int)
    ensures var t := BuildTables(pn, cells);
      rank in RanksFromTopIV(t, iv) <==>
        (0 <= rank < |pn| && pn[rank] >= 0 && (iv, pn[rank]) in cells)
  {
    var t := BuildTables(pn, cells);
    var pnums := ProcNumbersFromTopIV(t, iv);
    if rank in RanksFromTopIV(t, iv) {
      var i :| 0 <= i < |pnums| && rank in RanksFromProcNumber(t, pnums[i]);
      RankLookupsInverse(pn, cells, pnums[i], rank);
    }
    if 0 <= rank < |pn| && pn[rank] >= 0 && (iv, pn[rank]) in cells {
      RankLookupsInverse(pn, cells, pn[rank], rank);
      var i :| 0 <= i < |pnums| && pnums[i] == pn[rank];
    }
  }

  // ---------------------------------------------------------------------
  // Proximity order

  /** `order` holds, for every rank value `k` the proximity map takes, the
      first position carrying `k`; other entries keep their old value. */
  predicate InvertsFirst(pm: seq<int>, prev: seq<int>, order: seq<int>) {
    && |order| == |prev|
    && (forall k :: 0 <= k < |order| && k in pm ==>
          0 <= order[k] < |pm| && pm[order[k]] == k &&
          forall j :: 0 <= j < order[k] ==> pm[j] != k)
    && (forall k :: 0 <= k < |order| && k !in pm ==> order[k] == prev[k])
  }

  /** The proximity-order construction of `InitProximityMap`: a map from
      each value of `pm` to its position, where a repeated value keeps its
      first position, written into the old order at each of its keys in
      turn. */
  method InvertProximity(pm: seq<int>, prev: seq<int>) returns (order: seq<int>)
    requires forall i :: 0 <= i < |pm| ==> 0 <= pm[i] < |prev|
    ensures InvertsFirst(pm, prev, order)
  {
    var first: map<int, int> := map[];
    var i := 0;
    while i < |pm|
      invariant 0 <= i <= |pm|
      invariant forall k :: k in first <==> k in pm[..i]
      invariant forall k :: k in first ==> 0 <= first[k] < i && pm[first[k]] == k &&
                                           forall j :: 0 <= j < first[k] ==> pm[j] != k
    {
      if pm[i] !in first {
        first := first[pm[i] := i];
      }
      i := i + 1;
    }
    assert pm[..i] == pm;
    order := prev;
    var k := 0;
    while k < |prev|
      invariant 0 <= k <= |prev| && |order| == |prev|
      invariant forall q :: 0 <= q < k && q in first ==> order[q] == first[q]
      invariant forall q :: 0 <= q < |prev| && (q >= k || q !in first) ==> order[q] == prev[q]
    {
      if k in first {
        order := order[k := first[k]];
      }
      k := k + 1;
    }
  }

  /** When the proximity map is a permutation of the ranks, the proximity
      order is its inverse, and a permutation too. */
  lemma ProximityOrderInverse(pm: seq<int>, prev: seq<int>, order: seq<int>)
    requires IsPermutation(pm, |prev|) && InvertsFirst(pm, prev, order)
    ensures forall i :: 0 <= i < |pm| ==> 0 <= pm[i] < |order| && order[pm[i]] == i
    ensures forall k :: 0 <= k < |order| ==> 0 <= order[k] < |pm| && pm[order[k]] == k
    ensures IsPermutation(order, |prev|)
  {
    PermutationFacts(pm, |prev|);
    forall i | 0 <= i < |pm|
      ensures order[pm[i]] == i
    {
      var k := pm[i];
      assert pm[order[k]] == k;
    }
    forall k | 0 <= k < |order|
      ensures 0 <= order[k] < |pm| && pm[order[k]] == k
    {
      assert k in pm;
    }
    InversePermutation(pm, order, |prev|);
  }

  /** A sequence whose values on `0..n-1` undo a permutation `pm` of
      `0..n-1`, and which takes every value of `0..n-1`, is a permutation of
      `0..n-1` too. */
  lemma InversePermutation(pm: seq<int>, order: seq<int>, n: nat)
    requires |pm| == n && |order| == n
    requires forall k :: 0 <= k < n ==> 0 <= order[k] < n && pm[order[k]] == k
    requires forall i :: 0 <= i < n ==> 0 <= pm[i] < n && order[pm[i]] == i
    ensures IsPermutation(order, n)
  {
    DistinctAtMostOnce(order);
    var ms, mi := multiset(order), multiset(Iota(n));
    forall x
      ensures ms[x] == mi[x]
    {
      IotaOnce(n, x);
      if 0 <= x < n {
        assert order[pm[x]] == x;
        assert x in order;
      } else {
        assert x !in order;
      }
    }
    assert ms == mi;
  }

  /** In a sequence without repeats every value occurs at most once. */
  lemma {:induction false} DistinctAtMostOnce(s: seq<int>)
    requires forall i, j :: 0 <= i < j < |s| ==> s[i] != s[j]
    ensures forall x :: multiset(s)[x] <= 1
  {
    if |s| > 0 {
      var init := s[..|s| - 1];
      DistinctAtMostOnce(init);
      assert s == init + [s[|s| - 1]];
      assert s[|s| - 1] !in init;
      assert multiset(s) == multiset(init) + multiset{s[|s| - 1]};
    }
  }
}
